=== FILE: README.md ===
# A verified model of the blockchain-java UTXO ledger

This project models, in Dafny, the ledger core of a small Java blockchain
(package `me.light`). The model covers the following parts:

- **Transactions.** Coinbase issuance, transfers built from a spend selection,
  the trimmed copy, and per-input ECDSA signing and verification.
- **Proof of work.** The header bytes, the nonce search and revalidation.
- **Blocks.** Mined block creation and the genesis block.
- **The persistent chain.** This is a block store keyed by block hash, plus
  a tip key. The model covers the tip, appending, the backward iterator and
  transaction lookup. It also covers `signTransaction`,
  `verifyTransaction`, `mineBlock` and `newBlockChain`.
- **Full-chain derivations.** These are the spent-output map, the
  unspent-output map, the unspent transactions of an owner, the owner's
  balance outputs and the spend selection.
- **The UTXO set.** This is the chainstate index from transaction id to
  unspent outputs, with its `reIndex`, `findSpendableOutputs`, `findUTXOs`
  and `update`.
- **The Merkle tree helpers**, and **Base58 encoding** of raw bytes.
- **The older in-memory chain** of package `me.light.core`.

The model treats cryptography and serialisation as black boxes. SHA-256,
hex parsing, byte conversions, address hashing, transaction serialisation
and ECDSA verification are fields of a `Primitives` value of total
functions. Signing with a private key is a `signer` function parameter.

Several Java behaviours are modelled exactly as written. These are quirks
of the code, not corrections:

- `new int[index]` records `index` zeros for the first spend of a
  transaction id, both in `findAllSpentTxOutputs` and in the UTXO set's
  `findSpendableOutputs`.
- `verifyTransaction` maps every referenced id to the transaction under
  check itself.
- `update` removes an output by its position in the already-compacted
  stored array.
- The chain's `findSpendableOutputs` walks every output of each listed
  transaction, spent or not, so it can select an output that is already
  spent.
- The creation id hashes the transaction with a null id, while `hash()`
  uses an empty id.

A Java `int` is the subtype `int32`, and its `+` and `-` wrap around
explicitly. A Java `HashMap` iteration order is an explicit parameter that
enumerates the keys. Methods that throw return a `Result`.

## Model

| member | source | states |
|---|---|---|
| Types.PrevHashBytes | src/main/java/me/light/blockchain/core/Block.java:120-123 | A blank previous hash contributes no header bytes. |
| Types.HashTransactionReadsIdsOnly | src/main/java/me/light/blockchain/core/Block.java:138-145 | The block's transaction commitment depends only on the sequence of transaction ids. |
| Transactions.HashIgnoresId | src/main/java/me/light/blockchain/core/Transaction.java:57-63 | `hash()` gives the same digest whatever id the transaction holds. |
| Transactions.NewCoinbaseTransaction | src/main/java/me/light/blockchain/core/Transaction.java:111-130 | The result is a coinbase: one input referring to the empty id at index -1. The input carries the memo as its key: the given data, or "Reward to '<to>'" when the data is blank. There is one output of the subsidy locked to `to`. The id is the digest of the id-less transaction. |
| Transactions.CoinbaseMemoWhitespace | src/main/java/me/light/blockchain/core/Transaction.java:113-115 | Blankness follows `Character.isWhitespace`. A memo of ideographic space or line separators is replaced by the reward text. A memo of non-breaking spaces is kept. |
| Transactions.SelectionInputsSpendSelection | src/main/java/me/light/blockchain/core/Transaction.java:168-179 | The inputs built from a selection are exactly one unsigned input, carrying the payer's key hash, per recorded (id, index) entry. |
| Transactions.TransferOutputs | src/main/java/me/light/blockchain/core/Transaction.java:181-185 | The first output pays `amount` to the recipient. A second output, of the change, goes back to the sender exactly when more was gathered than asked. |
| Transactions.NewTransaction | src/main/java/me/light/blockchain/core/Transaction.java:153-191 | It fails exactly when the gathered value is below the amount. Otherwise the inputs spend the selection and the outputs sum, in 32-bit arithmetic, to what was gathered. |
| Transactions.TransferSumsToAccumulated | src/main/java/me/light/blockchain/core/Transaction.java:181-185 | Payment plus change equals the gathered value. The change is exactly the surplus when it does not wrap. |
| Transactions.TrimmedCopy | src/main/java/me/light/blockchain/core/Transaction.java:308-322 | The copy keeps the id, the outputs and each input's reference. Each input's signature and key are cleared. |
| Transactions.TrimmedCopyForgetsUnlockData | src/main/java/me/light/blockchain/core/Transaction.java:308-322 | Transactions that differ only in signatures and keys have the same trimmed copy. Trimming twice changes nothing. |
| Transactions.SignLoopSignsEachInput | src/main/java/me/light/blockchain/core/Transaction.java:220-240 | From input `i` on, the loop fails exactly when some referenced output index is out of range. Otherwise it signs every input over its own digest and changes nothing else. |
| Transactions.SignSpec | src/main/java/me/light/blockchain/core/Transaction.java:200-243 | A coinbase is returned unchanged. A missing referenced transaction throws. Otherwise signing succeeds exactly when every referenced output exists, and then every input is signed over its own digest. |
| Transactions.VerifyLoopChecksEachInput | src/main/java/me/light/blockchain/core/Transaction.java:272-299 | The loop is true exactly when every input from `i` on checks. It is false exactly when the first failing input fails. |
| Transactions.VerifySpec | src/main/java/me/light/blockchain/core/Transaction.java:251-300 | A coinbase is valid, and a missing referenced transaction throws. Otherwise verification is true exactly when every input's signature checks over its digest. It is false exactly when some input fails after all earlier inputs passed. |
| Transactions.SignThenVerify | src/main/java/me/light/blockchain/core/Transaction.java:220-299 | Round trip: a transaction signed with a key whose public half every input carries verifies as true. |
| Transactions.TransferKeySlotFailsVerify | src/main/java/me/light/blockchain/core/Transaction.java:283-290 | `newTransaction` puts the 20-byte key hash in every input's key slot, and the key decoding throws on any array shorter than 33 bytes. Therefore verifying a signed transfer with an input is an error. |
| Transactions.NewTransactionIntended | src/main/java/me/light/blockchain/core/Transaction.java:174-178 | The corrected transfer fails exactly when the gathered value is below the amount. Otherwise its inputs spend the selection carrying the public key, and its outputs are those of `newTransaction`. |
| Transactions.IntendedTransferVerifies | src/main/java/me/light/blockchain/core/Transaction.java:220-299 | A corrected transfer signed with the private key that matches the payer's public key verifies as true. |
| ProofOfWork.PrepareReadsHeaderFieldsOnly | src/main/java/me/light/blockchain/core/ProofOfWork.java:96-109 | The mined header does not read the block's stored hash or nonce. A blank previous hash adds no bytes. |
| ProofOfWork.Run | src/main/java/me/light/blockchain/core/ProofOfWork.java:70-88 | Every nonce below the result fails the target. The result solves the puzzle and carries its hash unless the search ran out at `Long.MAX_VALUE`. |
| ProofOfWork.ValidateAfterStoringSolution | src/main/java/me/light/blockchain/core/ProofOfWork.java:116-119 | A block that stores a solving nonce validates, whatever hash it stores. |
| Blocks.NewBlock | src/main/java/me/light/blockchain/core/Block.java:107-114 | The block keeps its previous hash, transactions and timestamp. It holds the least nonce found, which validates, and that nonce's header hash. |
| Blocks.NewGenesisBlock | src/main/java/me/light/blockchain/core/Block.java:152-155 | The genesis block has an empty previous hash, holds only the coinbase and carries `now`. Its nonce is the least that solves the puzzle. When the search succeeds it validates, and its hash is that of its header at that nonce. |
| Blockchain.InitBlockchainFromDb | src/main/java/me/light/blockchain/core/Blockchain.java:37-43 | The handle caches the stored tip, or `""` when the tip key is unset. It never fails. |
| Blockchain.AddBlock | src/main/java/me/light/blockchain/core/Blockchain.java:106-110 | The block is stored under its hash and becomes the tip, both in the store and in the handle. |
| Blockchain.IteratorSteps | src/main/java/me/light/blockchain/core/Blockchain.java:128-141 | The walk yields a block exactly when `hashNext` holds. A blank or missing cursor yields nothing. A genesis block is yielded alone. A block whose predecessor is missing is not yielded. |
| Blockchain.WalkFollowsLinks | src/main/java/me/light/blockchain/core/Blockchain.java:128-156 | The walk starts at the cursor's block. Each later block is the stored predecessor of the one before. |
| Blockchain.WalkIgnoresUnreachableBlock | src/main/java/me/light/blockchain/core/Blockchain.java:128-156 | Storing a block that no stored block points to leaves every other walk unchanged. |
| Blockchain.AddBlockExtendsChain | src/main/java/me/light/blockchain/core/Blockchain.java:106-110 | Appending a fresh block over the tip puts it, and its transactions, in front of the chain walked before. |
| Blockchain.FindIn | src/main/java/me/light/blockchain/core/Blockchain.java:301-311 | The lookup throws exactly when no transaction has the id. Otherwise it returns a transaction with that id from the chain. |
| Blockchain.CollectPrev | src/main/java/me/light/blockchain/core/Blockchain.java:321-327 | The lookup loop throws exactly when some referenced id is not on the chain. |
| Blockchain.CollectPrevMaps | src/main/java/me/light/blockchain/core/Blockchain.java:321-327 | When every lookup succeeds, each referenced id is mapped to the found transaction, or to the transaction under check. |
| Blockchain.CollectPrevSelf | src/main/java/me/light/blockchain/core/Blockchain.java:339-343 | When every lookup succeeds, `verifyTransaction`'s loop maps every referenced id to the transaction under check. |
| Blockchain.VerifyTransactionChecksAgainstItself | src/main/java/me/light/blockchain/core/Blockchain.java:338-345 | `verifyTransaction` throws exactly when some referenced id is missing. Otherwise it verifies against a map from every referenced id to the transaction itself. |
| Blockchain.SignTransactionUsesFoundTransactions | src/main/java/me/light/blockchain/core/Blockchain.java:321-329 | `signTransaction` throws the same way. Otherwise it signs against the transactions actually found. |
| Blockchain.CoinbaseVerificationThrows | src/main/java/me/light/blockchain/core/Blockchain.java:338-345 | A coinbase refers to the empty id, so it fails lookup on any chain with no empty-id transaction. |
| Blockchain.CoinbaseVerifiesIntended | src/main/java/me/light/blockchain/core/Blockchain.java:338-345 | As intended, a coinbase verifies as true on every chain, as `Transaction.verify` accepts it. Every other transaction is checked exactly as written. |
| Blockchain.MineBlock | src/main/java/me/light/blockchain/core/Blockchain.java:85-99 | It fails, leaving the chain unchanged, exactly when some transaction does not verify as true. Otherwise a block mined over the stored tip becomes the new tip. |
| Blockchain.AddBlockTxs | src/main/java/me/light/blockchain/core/Blockchain.java:69-78 | It fails exactly when the stored tip is blank. Otherwise the transactions are mined, unverified, over the tip and appended. |
| Blockchain.NewBlockChain | src/main/java/me/light/blockchain/core/Blockchain.java:50-61 | An existing tip is reused. Otherwise a genesis block paying the coinbase to the address is the one block added, stored under its own hash, and it becomes the tip. That block carries `now` and the least solving nonce. It validates whenever the search found one. |
| Blockchain.NewChainYieldsGenesis | src/main/java/me/light/blockchain/core/Blockchain.java:50-61 | A chain created over an empty store walks to exactly its genesis block. |
| ChainOutputs.RecordSpentArranges | src/main/java/me/light/blockchain/core/Blockchain.java:400-407 | Recording one input fails exactly on a negative first index. Otherwise it changes only that id's array. |
| ChainOutputs.SpentByInputsArranges | src/main/java/me/light/blockchain/core/Blockchain.java:399-408 | The input loop fails exactly when some id's first counted index is negative. Otherwise each id's array is its first index as an array, followed by its later indices in order. |
| ChainOutputs.SpentByTxsIsSpentByInputs | src/main/java/me/light/blockchain/core/Blockchain.java:393-409 | The transaction loop is the input loop over the non-coinbase inputs in order. |
| ChainOutputs.FindAllSpentTxOutputsSpec | src/main/java/me/light/blockchain/core/Blockchain.java:388-412 | It throws exactly when the first spend of some id has a negative index. Otherwise an id is present exactly when spent. Its array is `first` zeros followed by the later spent indices. |
| ChainOutputs.FirstSpendRecordsZeros | src/main/java/me/light/blockchain/core/Blockchain.java:401-407 | A transaction spent only at output 1 is recorded as `[0]`. |
| ChainOutputs.GetAllSpentTransactionInputsSpec | src/main/java/me/light/blockchain/core/Blockchain.java:171-195 | An id is present exactly when an input using the owner's key spends it. Its array lists exactly those spent indices, in chain order. |
| ChainOutputs.CollectUTXOsAppends | src/main/java/me/light/blockchain/core/Blockchain.java:356-378 | The loop appends, under each id, the outputs of that id's transactions whose index is not in the spent array. |
| ChainOutputs.FindAllUTXOsSpec | src/main/java/me/light/blockchain/core/Blockchain.java:352-380 | It throws exactly when the spent map does. Otherwise each id maps to its surviving outputs in order, and ids with none are absent. |
| ChainOutputs.SurvivorsOfUnspent | src/main/java/me/light/blockchain/core/Blockchain.java:361-375 | A transaction with no spent array keeps all of its outputs. |
| ChainOutputs.UnspentTxsMembers | src/main/java/me/light/blockchain/core/Blockchain.java:205-230 | A transaction is listed exactly when it has an output that is unspent and locked to the key. |
| ChainOutputs.LockedOutputs | src/main/java/me/light/blockchain/core/Blockchain.java:249-253 | The filter keeps each output locked to the key as often as the array holds it, and nothing else. |
| ChainOutputs.FindUTXOMembers | src/main/java/me/light/blockchain/core/Blockchain.java:240-257 | An output is returned exactly when it is locked to the key and belongs to a chain transaction that has at least one unspent output locked to the key. Spent siblings of such an output are returned too. |
| ChainOutputs.FindUTXOReturnsSpentSibling | src/main/java/me/light/blockchain/core/Blockchain.java:240-257 | For every transaction with two outputs `[a, b]` locked to the key, output 0 spent and output 1 not: as written the result is `[a, b]`, the intended query gives `[b]`. |
| ChainOutputs.FindUTXORepeatsOutputs | src/main/java/me/light/blockchain/core/Blockchain.java:240-257 | As written, two unspent outputs of one transaction come back four times over. The intended query gives them once. |
| ChainOutputs.UtxosIntendedMembers | src/main/java/me/light/blockchain/core/Blockchain.java:240-257 | The intended query returns exactly the outputs that are unspent and locked to the key. |
| ChainOutputs.OwnedOutputsCounts | src/main/java/me/light/blockchain/core/Blockchain.java:240-257 | As intended, one transaction contributes one entry per unspent locked output position. Each output occurs as often as the positions holding it. |
| ChainOutputs.UtxosIntendedCounts | src/main/java/me/light/blockchain/core/Blockchain.java:240-257 | The intended query lists each unspent locked output once. Its length is the number of unspent locked (transaction, position) pairs, and each output occurs as often as the pairs holding it. |
| ChainOutputs.ChainSelectionReachesAmount | src/main/java/me/light/blockchain/core/Blockchain.java:266-292 | The chain's selection reaches the amount whenever the locked value over the listed transactions does. Otherwise it gathers all of that value. |
| ChainOutputs.ChainSelectionSpendsSpentOutput | src/main/java/me/light/blockchain/core/Blockchain.java:266-292 | With output 0 of `[4, 6]` spent, a payment of 10 records both indices and counts the spent value. |
| ChainOutputs.ChainSelectionRepeatsIndices | src/main/java/me/light/blockchain/core/Blockchain.java:266-292 | A transaction with outputs `[4, 6]` locked to the payer, nothing spent, and a payment of 20: as written the scan records `[0, 1, 0, 1]` and gathers 20 from a balance of 10. Scanning each listed transaction once records `[0, 1]` and gathers 10. |
| ChainOutputs.UnspentTxsOnceSpec | src/main/java/me/light/blockchain/core/Blockchain.java:218-225 | The once-listing holds exactly the transactions `findUnspentTransactions` lists. It keeps ids distinct when the chain's ids are distinct. |
| ChainOutputs.ListedSelectionRecords | src/main/java/me/light/blockchain/core/Blockchain.java:266-292 | Over listed transactions with distinct ids, each transaction with outputs is recorded with `[0, 1, …, m-1]`, where m is the inner loop's exit point given the total gathered before it. It is recorded as `[0]` once the amount was reached. No other id is recorded. |
| ChainOutputs.ChainSelectionRecords | src/main/java/me/light/blockchain/core/Blockchain.java:266-292 | The same records for the chain's own selection, whenever its listing names each transaction once. |
| ChainOutputs.IntendedSelectionRecords | src/main/java/me/light/blockchain/core/Blockchain.java:266-292 | On a chain with distinct transaction ids, the corrected selection scans exactly the listed transactions, each once, and records each one's visited indices once. |
| Selection.ScanOutputsStopsGrowing | src/main/java/me/light/blockchain/core/Blockchain.java:275-288 | Once the amount is reached, no further value is added. |
| Selection.ScanOutputsGathers | src/main/java/me/light/blockchain/core/Blockchain.java:273-289 | Without overflow, the inner loop either reaches the amount or adds all the locked value it visits. |
| Selection.ScanEntriesGathers | src/main/java/me/light/blockchain/core/Blockchain.java:271-290 | The same holds over all entries. |
| Selection.SelectionReachesAmount | src/main/java/me/light/blockchain/core/UTXOSet.java:68-89 | From nothing, the selection reaches the amount when the total locked value does. Otherwise it equals that total. |
| Selection.ExitsAtUnique | src/main/java/me/light/blockchain/core/UTXOSet.java:72-88 | The inner loop's exit point is unique. It is the first count of visited outputs whose running total reaches the amount, or all of them. |
| Selection.ExitsAtOnceReached | src/main/java/me/light/blockchain/core/UTXOSet.java:75-86 | A loop entered with the amount already reached visits exactly one output. |
| Selection.ScanOutputsRecordsVisited | src/main/java/me/light/blockchain/core/UTXOSet.java:72-88 | For a fresh id, the inner loop records its first index as an array, then indices 1 to m-1. Here m is the first count of visited outputs at which the running total reaches the amount, or all outputs. Entered with the amount reached, it records the first index alone. |
| Selection.ScanEntriesFrame | src/main/java/me/light/blockchain/core/UTXOSet.java:68-89 | The scan keeps earlier records and adds only ids of entries that have outputs. |
| Selection.ScanEntriesRecords | src/main/java/me/light/blockchain/core/UTXOSet.java:68-89 | Every entry with outputs gets its visited prefix recorded, up to the exit point fixed by the total gathered over earlier entries. An entry reached after the amount records its first index alone: `[0]` as a literal array, `[]` as a sized one. |
| UtxoSet.PutEntriesCopies | src/main/java/me/light/blockchain/core/UTXOSet.java:50-52 | The put loop copies exactly the listed keys of the source map. |
| UtxoSet.ReIndexMirrorsAllUTXOs | src/main/java/me/light/blockchain/core/UTXOSet.java:45-54 | `reIndex` fails exactly when `findAllUTXOs` fails, with its message, and then leaves the bucket empty. Otherwise the bucket equals `findAllUTXOs`, whatever it held before and whatever the iteration order. |
| UtxoSet.IndexSelectionReachesAmount | src/main/java/me/light/blockchain/core/UTXOSet.java:64-91 | The bucket selection reaches the amount when the locked value over the bucket does. Otherwise it gathers all of it. |
| UtxoSet.IndexSelectionRecords | src/main/java/me/light/blockchain/core/UTXOSet.java:64-91 | Every id with outputs is recorded, even after the amount is reached, as `[1, …, m-1]`. Here m is the inner loop's exit point given the total gathered over the keys before it. An id reached after the amount is recorded as `[]`. Output 0 is never recorded. |
| UtxoSet.StoredPermutation | src/main/java/me/light/blockchain/core/UTXOSet.java:103-112 | Two iteration orders over the same keys visit the same stored outputs, with the same multiplicities. |
| UtxoSet.FindUTXOs | src/main/java/me/light/blockchain/core/UTXOSet.java:99-114 | Each output occurs in the result as often as the bucket stores it if it is locked to the key, and not at all otherwise. |
| UtxoSet.FindUTXOsSpec | src/main/java/me/light/blockchain/core/UTXOSet.java:99-114 | The result holds exactly the stored outputs locked to the key, each as often as the bucket stores it. |
| UtxoSet.FindUTXOsIgnoresOrder | src/main/java/me/light/blockchain/core/UTXOSet.java:99-114 | Any two iteration orders give the same outputs with the same multiplicities, so the balance does not depend on the order. |
| UtxoSet.RemovePositionSpec | src/main/java/me/light/blockchain/core/UTXOSet.java:147-151 | The copy loop drops the element at the input's position and keeps the rest in order. Out of range, it keeps everything. |
| UtxoSet.SpendInputSpec | src/main/java/me/light/blockchain/core/UTXOSet.java:136-158 | An input changes only its own id's entry: it is skipped when absent, compacted when present, and deleted when emptied. |
| UtxoSet.Update | src/main/java/me/light/blockchain/core/UTXOSet.java:126-130 | It throws exactly on a missing block. |
| UtxoSet.UpdateKeepsUntouched | src/main/java/me/light/blockchain/core/UTXOSet.java:132-166 | Ids the block neither spends from nor writes keep their entry, or their absence. |
| UtxoSet.UpdateStoresOutputs | src/main/java/me/light/blockchain/core/UTXOSet.java:163-165 | A transaction that no later transaction touches ends up stored with all of its outputs. |
| UtxoSet.CoinbaseOnlyAddsOutputs | src/main/java/me/light/blockchain/core/UTXOSet.java:135-165 | The inputs of a coinbase are skipped. Only its outputs are written. |
| UtxoSet.UpdateRemovesByStoredPosition | src/main/java/me/light/blockchain/core/UTXOSet.java:141-158 | After output 0 is spent, the input naming output 1 removes what was output 2. The input naming output 2 removes nothing. |
| MerkleTree.InternalNodeHash | src/main/java/me/light/blockchain/core/MerkleTree.java:107-129 | A parent keeps its children. It hashes both child hashes, left first, or copies the left hash when there is no right child. |
| MerkleTree.BottomLevel | src/main/java/me/light/blockchain/core/MerkleTree.java:67-86 | There is one parent per pair of hashes, in order. With an odd count, the last hash is paired with itself. |
| MerkleTree.ConstructTree | src/main/java/me/light/blockchain/core/MerkleTree.java:53-59 | As written, only a null array fails, and it fails by dereference. The leaves are stored and no root is built. |
| MerkleTree.ConstructTreeChecked | src/main/java/me/light/blockchain/core/MerkleTree.java:53-59 | As intended, a null or empty array fails with the invalid-leaves error. |
| MerkleTree.GuardAcceptsEmptyLeaves | src/main/java/me/light/blockchain/core/MerkleTree.java:54-56 | The two guards differ exactly on the empty array and on a null array's error. |
| Base58Check.AlphabetSymbols | src/main/java/me/light/blockchain/util/Base58Check.java:14 | The alphabet lists 58 distinct symbols for digits 0 to 57. |
| Base58Check.RawBytesToBase58 | src/main/java/me/light/blockchain/util/Base58Check.java:23-38 | The remainder loop, the `'1'` padding and the reversal compute the Base58 encoding. |
| Base58Check.EncodeUsesAlphabet | src/main/java/me/light/blockchain/util/Base58Check.java:23-38 | Every character of the encoding is in the alphabet. |
| Base58Check.EncodeLeadingOnes | src/main/java/me/light/blockchain/util/Base58Check.java:34-36 | The encoding starts with exactly one `'1'` per leading zero byte. |
| Base58Check.EncodeZeros | src/main/java/me/light/blockchain/util/Base58Check.java:26-36 | No bytes encode to the empty text, and n zero bytes encode to n `'1'`s. |
| Base58Check.EncodeDigitsValue | src/main/java/me/light/blockchain/util/Base58Check.java:26-31 | After the `'1'` prefix, the text read in base 58 is the bytes' unsigned value. |
| Base58Check.DecodeEncode | src/main/java/me/light/blockchain/util/Base58Check.java:23-38 | Round trip: decoding the encoding gives back the input bytes. |
| LegacyBlockchain.SetHash | src/main/java/me/light/core/Block.java:103-114 | Hashing changes only the hash field. |
| LegacyBlockchain.NewBlock | src/main/java/me/light/core/Block.java:93-98 | The new block keeps the previous hash, the data and the time. |
| LegacyBlockchain.NewBlockHash | src/main/java/me/light/core/Block.java:93-114 | The hash is computed from the other fields alone, so the placeholder never matters. A blank previous hash adds no bytes. |
| LegacyBlockchain.NewBlockChain | src/main/java/me/light/core/Blockchain.java:32-36 | A new chain holds only its genesis block. |
| LegacyBlockchain.AddBlockAppends | src/main/java/me/light/core/Blockchain.java:58-60 | Appending keeps the earlier blocks. The list stays linked exactly when the new block names the last hash. |
| LegacyBlockchain.AddBlockDataLinks | src/main/java/me/light/core/Blockchain.java:43-51 | It fails exactly on an empty list. Otherwise it appends a block over the last hash, carrying the data, and keeps the list linked. |
| LegacyBlockchain.BuildKeepsLinks | src/main/java/me/light/core/Blockchain.java:32-60 | A chain grown by `addBlock(data)` calls has one block per call, carries the data in call order, and is linked. |

## Left out

- Cryptography and serialisation (SHA-256, RIPEMD-160, hex, `BigInteger` parsing, Java serialisation, ECDSA over secp256k1): these are uninterpreted fields of `Primitives`, because their internals are not ledger logic. Signing is a `signer` function, because the private key and randomness are outside the model.
- RocksDB I/O: the blocks bucket, the tip key and the chainstate bucket are Dafny maps held in values. The source never initialises the chainstate bucket field, so every UTXO-set call would dereference null. The model assumes an initialised, empty bucket.
- The wall clock (`Instant.now()`) is a `now` parameter. Logging, timing and printing are left out.
- `HashMap` iteration order is an explicit `order` parameter. The Java order is unspecified.
- The chain walk is bounded by fuel equal to the number of stored blocks. A walk that terminates in Java is the same, but a store whose `previousHash` links form a cycle makes the Java iterator loop forever, and the model cuts that walk short.
- `Transactions.SignSpec`: when a referenced output index is out of range, Java throws after signing the inputs before it, on the caller's object. The model returns an error and drops that partial mutation.
- `Blockchain.MineBlock`: the null check on the stored tip cannot fire, since `getLastBlockHash` returns `""` rather than null. The model returns the mined block as a convenience.
- `Blockchain.InitBlockchainFromDb`: the method never fails, because `getLastBlockHash` never returns null. The code is followed rather than the stated intent to fail on an uninitialised store.
- `LegacyBlockchain.NewBlockChain`: the genesis block is a parameter, because `newBlockChain` calls `Block.newGenesisBlock()` (src/main/java/me/light/core/Blockchain.java:34), which `me.light.core.Block` does not define. Nothing in that package says what the genesis block would hold.
- `UtxoSet.ReIndexMirrorsAllUTXOs`: stated for an order that lists every key of `findAllUTXOs`. Java's entry-set iteration supplies such an order. A RocksDB failure while clearing or writing is not modelled.
- `UtxoSet.IndexSelectionReachesAmount`: the total is stated over the bucket's locked values without 32-bit overflow (the requires bounds it by `INT_MAX`). Overflowing totals are not characterised. The requires that every output value is non-negative is met by the program: the CLI accepts only digit strings as amounts, the subsidy is positive, and change is non-negative while totals stay within `INT_MAX`.
- `ChainOutputs.ChainSelectionReachesAmount`: the same overflow bound and the same non-negative values, which the program meets for the same reasons. A transaction listed several times by `findUnspentTransactions` counts once per listing, as in Java. See Findings.
- `Transactions.SignThenVerify`: its hypothesis, that every input carries a public key the ECDSA check accepts for the signer, holds for no transfer `newTransaction` builds. Those inputs carry the key hash. See Findings. The CLI's `send` passes the transfer to `mineBlock` without signing it.
- `Base58Check.DecodeEncode`: `Decode` is not part of the source. It is the partner inverse used to state that the encoding loses nothing.
- The Merkle tree root is never built, because `constructTree` stores the leaves and stops. The model keeps `root` as `None`.
- Wallets, address derivation, the CLI, and the application and test classes are not modelled. They only call into the core.
- `@Synchronized` on `reIndex` and `update`: concurrency is not modelled.

## Findings

| source | as written | input that shows it | evidently intended | confidence | as-written member | corrected member |
|---|---|---|---|---|---|---|
| src/main/java/me/light/blockchain/core/MerkleTree.java:54-56 | The guard is `leafHashes == null && leafHashes.length == 0`. A null array throws `NullPointerException`, and an empty array is accepted. | An empty array `new byte[0][]` is accepted; `null` dereferences. | `null \|\| length == 0`: reject both, with the invalid-leaves error. | not executed | MerkleTree.GuardAcceptsEmptyLeaves | MerkleTree.ConstructTreeChecked |
| src/main/java/me/light/blockchain/core/Blockchain.java:240-257 | `findUnspentTransactions` lists a transaction once per unspent locked output. `findUTXO` then adds all of that transaction's locked outputs on every listing, spent ones included. | One transaction with outputs a = (4, k) and b = (6, k), nothing spent: the result is [a, b, a, b], balance 20 instead of 10. The same transaction with output 0 spent: the result is [a, b] instead of [b]. | Each unspent locked output once: [a, b], and [b] after the spend. | not executed | ChainOutputs.FindUTXORepeatsOutputs, ChainOutputs.FindUTXOReturnsSpentSibling | ChainOutputs.UtxosIntendedCounts |
| src/main/java/me/light/blockchain/core/Blockchain.java:266-292 | `findSpendableOutputs` scans the listing of `findUnspentTransactions`. That listing names a transaction once per unspent locked output, so the scan visits the transaction again. It records its indices again and adds its value again. `newTransaction` then builds inputs that spend the same output twice. | One transaction with outputs (4, k) and (6, k), nothing spent, and a payment of 20: the selection gathers 20 and records [0, 1, 0, 1], from a balance of 10. | Each listed transaction scanned once: 10 gathered and [0, 1] recorded, so the payment fails with not enough funds. | not executed | ChainOutputs.ChainSelectionRepeatsIndices | ChainOutputs.IntendedSelectionRecords |
| src/main/java/me/light/blockchain/core/Transaction.java:177 | `newTransaction` puts `publicKeyHash`, the 20-byte RIPEMD-160 key hash, in every input's key slot. `verify` (lines 287-288) decodes that slot as a 65-byte curve point, and `Arrays.copyOfRange(key, 33, 65)` throws on a 20-byte array. | Any transfer with at least one input, signed: verifying it throws. | Each input carries the payer's public key, so a signed transfer verifies. | not executed | Transactions.TransferKeySlotFailsVerify | Transactions.IntendedTransferVerifies |
| src/main/java/me/light/blockchain/core/Blockchain.java:338-345 | `verifyTransaction` looks up every input's id before `Transaction.verify` can accept a coinbase. A coinbase's input names the empty id, which no stored transaction has, so the lookup throws. `mineBlock` therefore throws on any block holding a coinbase, and the CLI's `send` always mines one. | Any coinbase, on a chain whose transactions all have non-empty ids. | A coinbase verifies as true, as `Transaction.verify` (Transaction.java:253-255) intends. | not executed | Blockchain.CoinbaseVerificationThrows | Blockchain.CoinbaseVerifiesIntended |

=== FILE: base58.dfy ===
/** `Base58Check.rawBytesToBase58`: the input bytes read as one unsigned
    big-endian number, written in base 58 most significant digit first, after
    one `'1'` per leading zero byte. */
module Base58Check {
  import opened Common

  /** The 58 digit symbols, value 0 first:
      `123456789ABCDEFGHJKLMNPQRSTUVWXYZabcdefghijkmnopqrstuvwxyz`, written
      as its six runs of consecutive characters. */
  const ALPHABET: string := DIGIT_RUN + UPPER_RUN_1 + UPPER_RUN_2 + UPPER_RUN_3 + LOWER_RUN_1 + LOWER_RUN_2
  const DIGIT_RUN: string := "123456789"
  const UPPER_RUN_1: string := "ABCDEFGH"
  const UPPER_RUN_2: string := "JKLMN"
  const UPPER_RUN_3: string := "PQRSTUVWXYZ"
  const LOWER_RUN_1: string := "abcdefghijk"
  const LOWER_RUN_2: string := "mnopqrstuvwxyz"

  /** The symbol of digit `d`: the alphabet skips `0`, `I`, `O` and `l`. */
  function Symbol(d: nat): char
    requires d < 58
  {
    if d < 9 then ('1' as int + d) as char
    else if d < 17 then ('A' as int + (d - 9)) as char
    else if d < 22 then ('J' as int + (d - 17)) as char
    else if d < 33 then ('P' as int + (d - 22)) as char
    else if d < 44 then ('a' as int + (d - 33)) as char
    else ('m' as int + (d - 44)) as char
  }

  /** The digit a symbol stands for, or -1 for a character outside the
      alphabet. */
  function DigitOf(c: char): int {
    if '1' <= c <= '9' then c as int - '1' as int
    else if 'A' <= c <= 'H' then c as int - 'A' as int + 9
    else if 'J' <= c <= 'N' then c as int - 'J' as int + 17
    else if 'P' <= c <= 'Z' then c as int - 'P' as int + 22
    else if 'a' <= c <= 'k' then c as int - 'a' as int + 33
    else if 'm' <= c <= 'z' then c as int - 'm' as int + 44
    else -1
  }

  /** The alphabet lists the symbols of digits 0 to 57 in order, so each
      symbol reads back as its position. */
  lemma AlphabetSymbols()
    ensures |ALPHABET| == 58
    ensures forall d :: 0 <= d < 58 ==> ALPHABET[d] == Symbol(d) && DigitOf(ALPHABET[d]) == d
  {
    assert forall i :: 0 <= i < 9 ==> DIGIT_RUN[i] == Symbol(i);
    assert forall i :: 0 <= i < 8 ==> UPPER_RUN_1[i] == Symbol(9 + i);
    assert forall i :: 0 <= i < 5 ==> UPPER_RUN_2[i] == Symbol(17 + i);
    assert forall i :: 0 <= i < 11 ==> UPPER_RUN_3[i] == Symbol(22 + i);
    assert forall i :: 0 <= i < 11 ==> LOWER_RUN_1[i] == Symbol(33 + i);
    assert forall i :: 0 <= i < 14 ==> LOWER_RUN_2[i] == Symbol(44 + i);
  }

  /** `new BigInteger(1, data)`: the unsigned big-endian value. */
  function Value(data: Bytes): nat {
    if |data| == 0 then 0 else Value(data[..|data| - 1]) * 256 + data[|data| - 1]
  }

  /** The number of zero bytes `data` starts with. */
  function LeadingZeros(data: Bytes): nat {
    if |data| == 0 || data[0] != 0 then 0 else 1 + LeadingZeros(data[1..])
  }

  /** The number of `'1'` characters `s` starts with. */
  function LeadingOnes(s: string): (r: nat)
    ensures r <= |s|
  {
    if |s| == 0 || s[0] != '1' then 0 else 1 + LeadingOnes(s[1..])
  }

  /** The base-58 digits of `n`, most significant first; none for 0. */
  function Digits(n: nat): string {
    if n == 0 then [] else Digits(n / 58) + [ALPHABET[n % 58]]
  }

  /** A base-58 text read most significant digit first. */
  function DigitsValue(s: string): int {
    if |s| == 0 then 0 else DigitsValue(s[..|s| - 1]) * 58 + DigitOf(s[|s| - 1])
  }

  /** The encoding: one `'1'` per leading zero byte, then the digits of the
      value. */
  function Encode(data: Bytes): string {
    Repeat('1', LeadingZeros(data)) + Digits(Value(data))
  }

  lemma ReverseSnoc(s: string, c: char)
    ensures Reverse(s + [c]) == [c] + Reverse(s)
  {
    assert forall i :: 0 <= i < |s| + 1 ==> Reverse(s + [c])[i] == ([c] + Reverse(s))[i];
  }

  /** `rawBytesToBase58`: remainders of repeated division by 58 are appended
      least significant first, then the `'1'`s, and the buffer is reversed. */
  method RawBytesToBase58(data: Bytes) returns (s: string)
    ensures s == Encode(data)
  {
    AlphabetSymbols();
    var sb: string := [];
    var num := Value(data);
    while num != 0
      invariant Digits(Value(data)) == Digits(num) + Reverse(sb)
      decreases num
    {
      var digit := num % 58;
      ReverseSnoc(sb, ALPHABET[digit]);
      sb := sb + [ALPHABET[digit]];
      num := num / 58;
    }
    var i := 0;
    while i < |data| && data[i] == 0
      invariant 0 <= i <= |data|
      invariant LeadingZeros(data) == i + LeadingZeros(data[i..])
      invariant Reverse(sb) == Repeat('1', i) + Digits(Value(data))
      decreases |data| - i
    {
      ReverseSnoc(sb, ALPHABET[0]);
      assert data[i..][1..] == data[i + 1..];
      sb := sb + [ALPHABET[0]];
      assert Repeat('1', i + 1) == ['1'] + Repeat('1', i);
      i := i + 1;
    }
    s := Reverse(sb);
  }

  // ---------------------------------------------------------------------
  // Properties of the encoding

  /** Every character of the encoding is drawn from the alphabet. */
  lemma {:induction false} DigitsInAlphabet(n: nat)
    ensures forall i :: 0 <= i < |Digits(n)| ==> Digits(n)[i] in ALPHABET
  {
    if n > 0 {
      DigitsInAlphabet(n / 58);
    }
  }

  lemma EncodeUsesAlphabet(data: Bytes)
    ensures forall i :: 0 <= i < |Encode(data)| ==> Encode(data)[i] in ALPHABET
  {
    DigitsInAlphabet(Value(data));
    AlphabetSymbols();
    assert ALPHABET[0] == '1';
  }

  /** The digits of a non-zero value start with a symbol other than `'1'`. */
  lemma {:induction false} DigitsHead(n: nat)
    requires n > 0
    ensures |Digits(n)| > 0 && Digits(n)[0] != '1'
  {
    AlphabetSymbols();
    if n / 58 == 0 {
      assert Digits(n) == [ALPHABET[n]];
      assert DigitOf(ALPHABET[n]) == n != 0;
    } else {
      DigitsHead(n / 58);
    }
  }

  lemma {:induction false} LeadingOnesOfPrefix(k: nat, rest: string)
    requires |rest| == 0 || rest[0] != '1'
    ensures LeadingOnes(Repeat('1', k) + rest) == k
  {
    if k > 0 {
      assert (Repeat('1', k) + rest)[1..] == Repeat('1', k - 1) + rest;
      LeadingOnesOfPrefix(k - 1, rest);
    } else {
      assert Repeat('1', 0) + rest == rest;
    }
  }

  /** The encoding starts with exactly as many `'1'`s as the input has
      leading zero bytes. */
  lemma EncodeLeadingOnes(data: Bytes)
    ensures LeadingOnes(Encode(data)) == LeadingZeros(data)
  {
    if Value(data) > 0 {
      DigitsHead(Value(data));
    }
    LeadingOnesOfPrefix(LeadingZeros(data), Digits(Value(data)));
  }

  lemma {:induction false} ValueOfZeros(n: nat)
    ensures Value(Repeat<byte>(0, n)) == 0
  {
    if n > 0 {
      assert Repeat<byte>(0, n)[..n - 1] == Repeat<byte>(0, n - 1);
      ValueOfZeros(n - 1);
    }
  }

  lemma {:induction false} LeadingZerosOfZeros(n: nat)
    ensures LeadingZeros(Repeat<byte>(0, n)) == n
  {
    if n > 0 {
      assert Repeat<byte>(0, n)[1..] == Repeat<byte>(0, n - 1);
      LeadingZerosOfZeros(n - 1);
    }
  }

  /** The empty input encodes to the empty text, and `n` zero bytes to `n`
      `'1'`s. */
  lemma EncodeZeros(n: nat)
    ensures Encode([]) == ""
    ensures Encode(Repeat<byte>(0, n)) == Repeat('1', n)
  {
    ValueOfZeros(n);
    LeadingZerosOfZeros(n);
    assert Repeat('1', n) + [] == Repeat('1', n);
  }

  lemma {:induction false} DigitsValueOfDigits(n: nat)
    ensures DigitsValue(Digits(n)) == n
  {
    if n > 0 {
      AlphabetSymbols();
      DigitsValueOfDigits(n / 58);
      var s := Digits(n);
      assert s[..|s| - 1] == Digits(n / 58);
    }
  }

  /** The characters after the `'1'` prefix, read most significant first
      in base 58, are the unsigned big-endian value of the input. */
  lemma EncodeDigitsValue(data: Bytes)
    ensures |Encode(data)| >= LeadingZeros(data)
    ensures DigitsValue(Encode(data)[LeadingZeros(data)..]) == Value(data)
  {
    DigitsValueOfDigits(Value(data));
    assert Encode(data)[LeadingZeros(data)..] == Digits(Value(data));
  }

  // ---------------------------------------------------------------------
  // Decoding, the encoding's inverse

  /** The minimal big-endian bytes of `n`; none for 0. */
  function ToBytes(n: nat): Bytes {
    if n == 0 then [] else ToBytes(n / 256) + [n % 256]
  }

  /** Reads a Base58 text back into bytes: one zero byte per leading `'1'`,
      then the minimal bytes of the value of the remaining digits; a
      character outside the alphabet is an error. */
  function Decode(s: string): Result<Bytes> {
    if exists i :: 0 <= i < |s| && DigitOf(s[i]) < 0 then Err("invalid symbol")
    else
      var ones := LeadingOnes(s);
      var v := DigitsValue(s[ones..]);
      if v < 0 then Err("invalid symbol") else Ok(Repeat<byte>(0, ones) + ToBytes(v))
  }

  lemma {:induction false} ValuePositive(data: Bytes)
    requires |data| > 0 && data[0] != 0
    ensures Value(data) > 0
  {
    if |data| > 1 {
      ValuePositive(data[..|data| - 1]);
    }
  }

  /** Minimal bytes undo `Value` for an input without leading zeros. */
  lemma {:induction false} ToBytesOfValue(data: Bytes)
    requires |data| == 0 || data[0] != 0
    ensures ToBytes(Value(data)) == data
  {
    if |data| > 0 {
      ValuePositive(data);
      var init := data[..|data| - 1];
      ToBytesOfValue(init);
      assert data == init + [data[|data| - 1]];
    }
  }

  lemma {:induction false} ValueSkipsLeadingZero(rest: Bytes)
    ensures Value([0] + rest) == Value(rest)
  {
    if |rest| > 0 {
      assert ([0] + rest)[..|rest|] == [0] + rest[..|rest| - 1];
      ValueSkipsLeadingZero(rest[..|rest| - 1]);
    }
  }

  /** Splitting off the leading zero bytes changes neither the value nor
      the bytes. */
  lemma {:induction false} SplitLeadingZeros(data: Bytes)
    ensures LeadingZeros(data) <= |data|
    ensures data == Repeat<byte>(0, LeadingZeros(data)) + data[LeadingZeros(data)..]
    ensures Value(data) == Value(data[LeadingZeros(data)..])
    ensures |data[LeadingZeros(data)..]| == 0 || data[LeadingZeros(data)..][0] != 0
  {
    if |data| > 0 && data[0] == 0 {
      var z := LeadingZeros(data);
      var tail := data[1..];
      SplitLeadingZeros(tail);
      assert tail[z - 1..] == data[z..];
      assert Repeat<byte>(0, z) == [0] + Repeat<byte>(0, z - 1);
      assert data == [0] + tail;
      ValueSkipsLeadingZero(tail);
    }
  }

  /** Decoding inverts the encoding. */
  lemma DecodeEncode(data: Bytes)
    ensures Decode(Encode(data)) == Ok(data)
  {
    var s := Encode(data);
    var z := LeadingZeros(data);
    EncodeUsesAlphabet(data);
    AlphabetSymbols();
    forall i | 0 <= i < |s| ensures DigitOf(s[i]) >= 0 {
      var d :| 0 <= d < |ALPHABET| && ALPHABET[d] == s[i];
    }
    EncodeLeadingOnes(data);
    EncodeDigitsValue(data);
    SplitLeadingZeros(data);
    ToBytesOfValue(data[z..]);
  }
}

=== FILE: block.dfy ===
/** `Block`: a block is assembled with the all-zero placeholder hash and then
    mined, taking its hash and nonce from the proof-of-work search. */
module Blocks {
  import opened Common
  import opened Types
  import opened ProofOfWork

  /** `newBlock`: stamps `now` (the clock reading `Instant.now()` gives),
      keeps `previousHash` and `transactions`, and takes `hash` and `nonce`
      from `run`. */
  method NewBlock(p: Primitives, previousHash: string, transactions: seq<Transaction>, now: int) returns (block: Block)
    ensures block.previousHash == previousHash && block.transactions == transactions && block.timeStamp == now
    ensures 0 <= block.nonce <= LONG_MAX
    ensures forall n :: 0 <= n < block.nonce ==> !Solves(p, block, n)
    ensures block.nonce < LONG_MAX ==> Validate(p, block) && block.hash == p.sha256Hex(Prepare(p, block, block.nonce))
    ensures block.nonce == LONG_MAX ==> block.hash == p.sha256Hex(Prepare(p, block, LONG_MAX - 1))
  {
    var placeholder := Block(ZERO_HASH, previousHash, transactions, now, 0);
    var pow := Run(p, placeholder);
    block := placeholder.(hash := pow.hash, nonce := pow.nonce);
    forall n ensures Solves(p, block, n) == Solves(p, placeholder, n) {
      PrepareReadsHeaderFieldsOnly(p, placeholder, pow.hash, pow.nonce, n);
    }
  }

  /** `newGenesisBlock`: a mined block with no predecessor holding only the
      given coinbase. */
  method NewGenesisBlock(p: Primitives, coinbase: Transaction, now: int) returns (block: Block)
    ensures block.previousHash == "" && block.transactions == [coinbase] && block.timeStamp == now
    ensures 0 <= block.nonce <= LONG_MAX
    ensures forall n :: 0 <= n < block.nonce ==> !Solves(p, block, n)
    ensures block.nonce < LONG_MAX ==> Validate(p, block) && block.hash == p.sha256Hex(Prepare(p, block, block.nonce))
  {
    block := NewBlock(p, "", [coinbase], now);
  }
}

=== FILE: chain.dfy ===
/** `Blockchain`: the persistent chain over a block store, its backward
    iterator, transaction lookup and verification, and the operations that
    extend it (genesis creation, adding and mining a block). */
module Blockchain {
  import opened Common
  import opened Types
  import opened Transactions
  import opened ProofOfWork
  import opened Blocks

  /** The block store: the blocks bucket keyed by block hash, and the tip key
      (`None` when it was never written). */
  datatype Store = Store(blocks: map<string, Block>, tip: Option<string>)

  /** `getLastBlockHash`: the stored tip, or `""` when unset; never null. */
  function GetLastBlockHash(db: Store): string {
    db.tip.GetOr("")
  }

  /** A chain handle: the store and the tip hash cached in the object. */
  datatype Chain = Chain(db: Store, lastBlockHash: string)

  /** `initBlockchainFromDB`: the null check on the stored tip can never fire,
      since the store answers `""` rather than null. */
  function InitBlockchainFromDb(db: Store): (r: Chain)
    ensures r.db == db
    ensures db.tip.None? ==> r.lastBlockHash == ""
    ensures db.tip.Some? ==> r.lastBlockHash == db.tip.value
  {
    Chain(db, GetLastBlockHash(db))
  }

  /** `addBlock(Block)`: write the tip key, store the block under its hash,
      and cache the new tip. */
  function AddBlock(chain: Chain, block: Block): (r: Chain)
    ensures r.db.blocks == chain.db.blocks[block.hash := block]
    ensures GetLastBlockHash(r.db) == block.hash && r.lastBlockHash == block.hash
  {
    var db := chain.db.(tip := Some(block.hash));
    Chain(db.(blocks := db.blocks[block.hash := block]), block.hash)
  }

  // ---------------------------------------------------------------------
  // Backward iteration

  /** `hashNext`: the cursor names a stored block that is either a genesis
      block or whose predecessor is stored. */
  predicate HasNext(db: Store, cursor: string) {
    if IsBlank(cursor) || cursor !in db.blocks then false
    else |db.blocks[cursor].previousHash| == 0 || db.blocks[cursor].previousHash in db.blocks
  }

  /** `next`: the current block, if stored, and the cursor moved to its
      predecessor; the cursor stays put when the block is missing. */
  function Next(db: Store, cursor: string): (Option<Block>, string) {
    if cursor in db.blocks then (Some(db.blocks[cursor]), db.blocks[cursor].previousHash) else (None, cursor)
  }

  /** The blocks the iterator yields from `cursor`, taking at most `fuel`
      steps. */
  function WalkFrom(db: Store, cursor: string, fuel: nat): seq<Block>
    decreases fuel
  {
    if fuel == 0 || !HasNext(db, cursor) then []
    else
      var (block, previous) := Next(db, cursor);
      [block.value] + WalkFrom(db, previous, fuel - 1)
  }

  /** The blocks of the chain, tip first. A walk that terminates visits each
      stored block at most once, so `|blocks|` steps are enough. */
  function ChainBlocks(chain: Chain): seq<Block> {
    WalkFrom(chain.db, chain.lastBlockHash, |chain.db.blocks|)
  }

  /** The transactions of `blocks`, block by block, in block order. */
  function TxsOf(blocks: seq<Block>): seq<Transaction> {
    if |blocks| == 0 then [] else blocks[0].transactions + TxsOf(blocks[1..])
  }

  /** Every transaction the iterator visits, tip block first. */
  function ChainTxs(chain: Chain): seq<Transaction> {
    TxsOf(ChainBlocks(chain))
  }

  /** The walk yields a block exactly when `hashNext` holds: never from a
      blank or missing hash; from a stored non-genesis block exactly when
      its predecessor is stored; and a genesis block ends the walk. */
  lemma IteratorSteps(db: Store, cursor: string, fuel: nat)
    requires fuel > 0
    ensures |WalkFrom(db, cursor, fuel)| > 0 <==> HasNext(db, cursor)
    ensures IsBlank(cursor) || cursor !in db.blocks ==> WalkFrom(db, cursor, fuel) == []
    ensures !IsBlank(cursor) && cursor in db.blocks && db.blocks[cursor].previousHash == "" ==>
      WalkFrom(db, cursor, fuel) == [db.blocks[cursor]]
    ensures !IsBlank(cursor) && cursor in db.blocks && db.blocks[cursor].previousHash != "" ==>
      (|WalkFrom(db, cursor, fuel)| > 0 <==> db.blocks[cursor].previousHash in db.blocks)
  {
    if !IsBlank(cursor) && cursor in db.blocks && db.blocks[cursor].previousHash == "" {
      assert IsBlank("");
      assert WalkFrom(db, "", fuel - 1) == [];
    }
  }

  /** The walk starts at the cursor's block and follows `previousHash`
      links: each yielded block after the first is the stored predecessor
      of the one before, and only the last can be a genesis block. */
  lemma {:induction false} WalkFollowsLinks(db: Store, cursor: string, fuel: nat)
    ensures var bs := WalkFrom(db, cursor, fuel);
      && |bs| <= fuel
      && (|bs| > 0 ==> cursor in db.blocks && bs[0] == db.blocks[cursor])
      && (forall i :: 0 <= i < |bs| - 1 ==>
            |bs[i].previousHash| > 0 && bs[i].previousHash in db.blocks && bs[i + 1] == db.blocks[bs[i].previousHash])
    decreases fuel
  {
    if fuel > 0 && HasNext(db, cursor) {
      var previous := db.blocks[cursor].previousHash;
      WalkFollowsLinks(db, previous, fuel - 1);
    }
  }

  /** Storing a block the store did not hold, and to which no stored block
      points, leaves every walk that does not start at it unchanged. */
  lemma {:induction false} WalkIgnoresUnreachableBlock(db: Store, block: Block, tip: Option<string>, cursor: string, fuel: nat)
    requires block.hash !in db.blocks && cursor != block.hash
    requires forall h :: h in db.blocks ==> db.blocks[h].previousHash != block.hash
    ensures WalkFrom(Store(db.blocks[block.hash := block], tip), cursor, fuel) == WalkFrom(db, cursor, fuel)
    decreases fuel
  {
    var db' := Store(db.blocks[block.hash := block], tip);
    assert HasNext(db', cursor) == HasNext(db, cursor);
    if fuel > 0 && HasNext(db, cursor) {
      WalkIgnoresUnreachableBlock(db, block, tip, db.blocks[cursor].previousHash, fuel - 1);
    }
  }

  /** Adding a fresh block whose predecessor is the current tip puts it in
      front of the blocks the chain already yields. */
  lemma AddBlockExtendsChain(chain: Chain, block: Block)
    requires !IsBlank(block.hash) && block.hash !in chain.db.blocks
    requires forall h :: h in chain.db.blocks ==> chain.db.blocks[h].previousHash != block.hash
    requires block.previousHash == chain.lastBlockHash
    requires |chain.lastBlockHash| == 0 || chain.lastBlockHash in chain.db.blocks
    ensures ChainBlocks(AddBlock(chain, block)) == [block] + ChainBlocks(chain)
    ensures ChainTxs(AddBlock(chain, block)) == block.transactions + ChainTxs(chain)
  {
    var c' := AddBlock(chain, block);
    assert HasNext(c'.db, block.hash);
    assert |c'.db.blocks| == |chain.db.blocks| + 1;
    assert chain.lastBlockHash != block.hash by {
      if |chain.lastBlockHash| > 0 {
        assert chain.lastBlockHash in chain.db.blocks;
      }
    }
    WalkIgnoresUnreachableBlock(chain.db, block, Some(block.hash), chain.lastBlockHash, |chain.db.blocks|);
    assert ChainBlocks(c') == [block] + WalkFrom(c'.db, chain.lastBlockHash, |chain.db.blocks|);
    assert TxsOf(ChainBlocks(c'))
        == ChainBlocks(c')[0].transactions + TxsOf(ChainBlocks(c')[1..]);
    assert ChainBlocks(c')[1..] == ChainBlocks(chain);
  }

  // ---------------------------------------------------------------------
  // Transaction lookup and verification

  /** The message `findTransaction` throws when no transaction matches. */
  const NOT_FOUND: string := "ERROR: Can not found tx by txId ! "

  /** The first transaction of `txs` with id `id`. */
  function FindIn(txs: seq<Transaction>, id: Bytes): (r: Result<Transaction>)
    ensures r.Err? <==> forall i :: 0 <= i < |txs| ==> txs[i].id != id
    ensures r.Err? ==> r.msg == NOT_FOUND
    ensures r.Ok? ==> exists i :: 0 <= i < |txs| && txs[i] == r.value && r.value.id == id
                                  && forall j :: 0 <= j < i ==> txs[j].id != id
  {
    if |txs| == 0 then Err(NOT_FOUND)
    else if txs[0].id == id then Ok(txs[0])
    else
      var r := FindIn(txs[1..], id);
      assert forall i :: 0 <= i < |txs| - 1 ==> txs[1..][i] == txs[i + 1];
      r
  }

  /** `findTransaction`: the first match in tip-to-genesis order. */
  function FindTransaction(chain: Chain, id: Bytes): Result<Transaction> {
    FindIn(ChainTxs(chain), id)
  }

  /** The ids `inputs` refer to. */
  function IdsOf(inputs: seq<TxInput>): set<Bytes> {
    if |inputs| == 0 then {} else {inputs[0].txId} + IdsOf(inputs[1..])
  }

  lemma {:induction false} IdsOfMembers(inputs: seq<TxInput>)
    ensures forall k :: k in IdsOf(inputs) <==> exists i :: 0 <= i < |inputs| && inputs[i].txId == k
  {
    if |inputs| > 0 {
      IdsOfMembers(inputs[1..]);
      assert forall i :: 0 <= i < |inputs| - 1 ==> inputs[1..][i] == inputs[i + 1];
      forall k | exists i :: 0 <= i < |inputs| && inputs[i].txId == k ensures k in IdsOf(inputs) {
        var i :| 0 <= i < |inputs| && inputs[i].txId == k;
        if i > 0 {
          assert inputs[1..][i - 1].txId == k;
        }
      }
    }
  }

  /** The ids `tx`'s inputs refer to. */
  function InputIds(tx: Transaction): set<Bytes> {
    IdsOf(tx.inputs)
  }

  /** The map `verifyTransaction` builds: every referenced id mapped to the
      transaction being verified. */
  function SelfMap(tx: Transaction): map<Bytes, Transaction> {
    map k | k in InputIds(tx) :: tx
  }

  /** The lookup loop shared by `signTransaction` and `verifyTransaction`
      over the chain's transactions `txs`: look each referenced id up (a miss
      throws) and record under the id either the transaction found or, when
      `self` is given, that transaction instead. */
  function CollectPrev(txs: seq<Transaction>, inputs: seq<TxInput>, acc: map<Bytes, Transaction>, self: Option<Transaction>)
    : (r: Result<map<Bytes, Transaction>>)
    ensures r.Err? <==> exists i :: 0 <= i < |inputs| && FindIn(txs, inputs[i].txId).Err?
    ensures r.Err? ==> r.msg == NOT_FOUND
  {
    if |inputs| == 0 then Ok(acc)
    else
      var found :- FindIn(txs, inputs[0].txId);
      var entry := if self.Some? then self.value else found;
      var r := CollectPrev(txs, inputs[1..], acc[inputs[0].txId := entry], self);
      assert forall i :: 0 <= i < |inputs| - 1 ==> inputs[1..][i] == inputs[i + 1];
      r
  }

  /** When every lookup succeeds, the loop maps each referenced id to the
      transaction found for it (or to `self`), and keeps `acc` elsewhere. */
  lemma {:induction false} CollectPrevMaps(txs: seq<Transaction>, inputs: seq<TxInput>, acc: map<Bytes, Transaction>,
                                           self: Option<Transaction>)
    requires forall k :: k in IdsOf(inputs) ==> FindIn(txs, k).Ok?
    ensures var r := CollectPrev(txs, inputs, acc, self);
      && r.Ok?
      && r.value.Keys == acc.Keys + IdsOf(inputs)
      && (forall k :: k in IdsOf(inputs) ==> r.value[k] == if self.Some? then self.value else FindIn(txs, k).value)
      && (forall k :: k in acc && k !in IdsOf(inputs) ==> r.value[k] == acc[k])
  {
    if |inputs| > 0 {
      var found := FindIn(txs, inputs[0].txId).value;
      var entry := if self.Some? then self.value else found;
      CollectPrevMaps(txs, inputs[1..], acc[inputs[0].txId := entry], self);
    }
  }

  /** `signTransaction`: sign against the transactions the inputs refer to. */
  function SignTransaction(p: Primitives, signer: Bytes -> Bytes, chain: Chain, tx: Transaction): Result<Transaction> {
    var prev :- CollectPrev(ChainTxs(chain), tx.inputs, map[], None);
    Sign(p, signer, tx, prev)
  }

  /** `verifyTransaction`: every referenced id must be found, but the map
      handed to `verify` holds the transaction being verified under each id. */
  function VerifyTransaction(p: Primitives, chain: Chain, tx: Transaction): Result<bool> {
    var prev :- CollectPrev(ChainTxs(chain), tx.inputs, map[], Some(tx));
    Verify(p, tx, prev)
  }

  /** When every lookup succeeds, the loop of `verifyTransaction` collects
      the map of every referenced id to `tx` itself. */
  lemma CollectPrevSelf(txs: seq<Transaction>, tx: Transaction)
    requires forall i :: 0 <= i < |tx.inputs| ==> FindIn(txs, tx.inputs[i].txId).Ok?
    ensures CollectPrev(txs, tx.inputs, map[], Some(tx)) == Ok(SelfMap(tx))
  {
    var r := CollectPrev(txs, tx.inputs, map[], Some(tx));
    IdsOfMembers(tx.inputs);
    CollectPrevMaps(txs, tx.inputs, map[], Some(tx));
    assert r.value.Keys == SelfMap(tx).Keys;
    assert r.value == SelfMap(tx);
  }

  /** `verifyTransaction` throws exactly when some referenced id is not on the
      chain, and otherwise checks `tx` against itself in place of the
      transactions its inputs refer to. */
  lemma VerifyTransactionChecksAgainstItself(p: Primitives, chain: Chain, tx: Transaction)
    ensures (exists i :: 0 <= i < |tx.inputs| && FindTransaction(chain, tx.inputs[i].txId).Err?) ==>
      VerifyTransaction(p, chain, tx) == Err(NOT_FOUND)
    ensures (forall i :: 0 <= i < |tx.inputs| ==> FindTransaction(chain, tx.inputs[i].txId).Ok?) ==>
      VerifyTransaction(p, chain, tx) == Verify(p, tx, SelfMap(tx))
  {
    if forall i :: 0 <= i < |tx.inputs| ==> FindTransaction(chain, tx.inputs[i].txId).Ok? {
      CollectPrevSelf(ChainTxs(chain), tx);
    }
  }

  /** The transactions found on `txs` for the ids `tx` refers to. */
  function FoundMap(txs: seq<Transaction>, tx: Transaction): map<Bytes, Transaction> {
    map k | k in InputIds(tx) && FindIn(txs, k).Ok? :: FindIn(txs, k).value
  }

  /** When every lookup succeeds, the collected map is the map of
      transactions found. */
  lemma {:induction false} CollectPrevFinds(txs: seq<Transaction>, tx: Transaction)
    requires forall i :: 0 <= i < |tx.inputs| ==> FindIn(txs, tx.inputs[i].txId).Ok?
    ensures CollectPrev(txs, tx.inputs, map[], None) == Ok(FoundMap(txs, tx))
  {
    var r := CollectPrev(txs, tx.inputs, map[], None);
    IdsOfMembers(tx.inputs);
    CollectPrevMaps(txs, tx.inputs, map[], None);
    var found := FoundMap(txs, tx);
    assert r.value.Keys == found.Keys;
    assert r.value == found;
  }

  /** `signTransaction`, in contrast, throws the same way but signs against
      the transactions found. */
  lemma SignTransactionUsesFoundTransactions(p: Primitives, signer: Bytes -> Bytes, chain: Chain, tx: Transaction)
    ensures (exists i :: 0 <= i < |tx.inputs| && FindTransaction(chain, tx.inputs[i].txId).Err?) ==>
      SignTransaction(p, signer, chain, tx) == Err(NOT_FOUND)
    ensures (forall i :: 0 <= i < |tx.inputs| ==> FindTransaction(chain, tx.inputs[i].txId).Ok?) ==>
      SignTransaction(p, signer, chain, tx) == Sign(p, signer, tx, FoundMap(ChainTxs(chain), tx))
  {
    if forall i :: 0 <= i < |tx.inputs| ==> FindTransaction(chain, tx.inputs[i].txId).Ok? {
      CollectPrevFinds(ChainTxs(chain), tx);
    }
  }

  /** A coinbase refers to the empty id, so on a chain where no transaction
      has the empty id its verification throws rather than succeeding. */
  lemma CoinbaseVerificationThrows(p: Primitives, chain: Chain, tx: Transaction)
    requires IsCoinbase(tx)
    requires forall t :: t in ChainTxs(chain) ==> t.id != []
    ensures VerifyTransaction(p, chain, tx) == Err(NOT_FOUND)
  {
    assert FindTransaction(chain, tx.inputs[0].txId).Err?;
    VerifyTransactionChecksAgainstItself(p, chain, tx);
  }

  /** `verifyTransaction` as intended: a coinbase has nothing to look up and
      is accepted the way `Transaction.verify` accepts it; every other
      transaction is checked as before. */
  function VerifyTransactionIntended(p: Primitives, chain: Chain, tx: Transaction): Result<bool> {
    if IsCoinbase(tx) then Verify(p, tx, map[]) else VerifyTransaction(p, chain, tx)
  }

  /** With the intended check a coinbase verifies on every chain, so a block
      carrying a mining reward can be mined; nothing else changes. */
  lemma CoinbaseVerifiesIntended(p: Primitives, chain: Chain, tx: Transaction)
    ensures IsCoinbase(tx) ==> VerifyTransactionIntended(p, chain, tx) == Ok(true)
    ensures !IsCoinbase(tx) ==> VerifyTransactionIntended(p, chain, tx) == VerifyTransaction(p, chain, tx)
  {
    VerifySpec(p, tx, map[]);
  }

  // ---------------------------------------------------------------------
  // Extending the chain

  /** The message `mineBlock` throws for a transaction that fails. */
  const INVALID_TX: string := "ERROR: Fail to mine block ! Invalid transaction !"

  /** `mineBlock`: verify every transaction, then mine a block on top of the
      stored tip (at time `now`) and add it. The block is returned. */
  method MineBlock(p: Primitives, chain: Chain, transactions: seq<Transaction>, now: int)
    returns (chain': Chain, r: Result<Block>)
    ensures r.Err? <==> exists i :: 0 <= i < |transactions| && VerifyTransaction(p, chain, transactions[i]) != Ok(true)
    ensures r.Err? ==> chain' == chain
    ensures r.Ok? ==> r.value.previousHash == GetLastBlockHash(chain.db)
                      && r.value.transactions == transactions && r.value.timeStamp == now
    ensures r.Ok? ==> chain' == AddBlock(chain, r.value)
    ensures r.Ok? && r.value.nonce < LONG_MAX ==> Validate(p, r.value)
  {
    var i := 0;
    while i < |transactions|
      invariant 0 <= i <= |transactions|
      invariant forall j :: 0 <= j < i ==> VerifyTransaction(p, chain, transactions[j]) == Ok(true)
    {
      var verdict := VerifyTransaction(p, chain, transactions[i]);
      if verdict != Ok(true) {
        var msg := if verdict.Err? then verdict.msg else INVALID_TX;
        return chain, Err(msg);
      }
      i := i + 1;
    }
    var lastBlockHash := GetLastBlockHash(chain.db);
    var block := NewBlock(p, lastBlockHash, transactions, now);
    return AddBlock(chain, block), Ok(block);
  }

  /** `addBlock(Transaction[])`: mine the transactions, unverified, on top of
      the stored tip; throws when there is no tip. */
  method AddBlockTxs(p: Primitives, chain: Chain, transactions: seq<Transaction>, now: int)
    returns (chain': Chain, r: Result<Block>)
    ensures r.Err? <==> IsBlank(GetLastBlockHash(chain.db))
    ensures r.Err? ==> chain' == chain
    ensures r.Ok? ==> r.value.previousHash == GetLastBlockHash(chain.db)
                      && r.value.transactions == transactions && r.value.timeStamp == now
    ensures r.Ok? ==> chain' == AddBlock(chain, r.value)
  {
    var lastBlockHash := GetLastBlockHash(chain.db);
    if IsBlank(lastBlockHash) {
      return chain, Err("Fail to add block into blockchain ! ");
    }
    var block := NewBlock(p, lastBlockHash, transactions, now);
    return AddBlock(chain, block), Ok(block);
  }

  /** `newBlockChain`: reuse the stored tip if there is one; otherwise mine a
      genesis block paying the coinbase reward to `address`, store it under
      its own hash and make it the tip. The stored genesis carries `now`,
      its nonce is the least that solves the puzzle, and it validates
      whenever the search found one. */
  method NewBlockChain(p: Primitives, db: Store, address: string, now: int) returns (chain: Chain)
    ensures !IsBlank(GetLastBlockHash(db)) ==> chain == Chain(db, GetLastBlockHash(db))
    ensures IsBlank(GetLastBlockHash(db)) ==>
      && chain.lastBlockHash in chain.db.blocks
      && chain.db.blocks == db.blocks[chain.lastBlockHash := chain.db.blocks[chain.lastBlockHash]]
      && GetLastBlockHash(chain.db) == chain.lastBlockHash
      && chain.db.blocks[chain.lastBlockHash].previousHash == ""
      && chain.db.blocks[chain.lastBlockHash].transactions == [NewCoinbaseTransaction(p, address, "")]
    ensures IsBlank(GetLastBlockHash(db)) ==>
      var genesis := chain.db.blocks[chain.lastBlockHash];
      && genesis.hash == chain.lastBlockHash
      && genesis.timeStamp == now
      && 0 <= genesis.nonce <= LONG_MAX
      && (forall n :: 0 <= n < genesis.nonce ==> !Solves(p, genesis, n))
      && (genesis.nonce < LONG_MAX ==> Validate(p, genesis) && genesis.hash == p.sha256Hex(Prepare(p, genesis, genesis.nonce)))
  {
    var lastBlockHash := GetLastBlockHash(db);
    var store := db;
    if IsBlank(lastBlockHash) {
      var coinbase := NewCoinbaseTransaction(p, address, "");
      var genesis := NewGenesisBlock(p, coinbase, now);
      lastBlockHash := genesis.hash;
      store := store.(blocks := store.blocks[genesis.hash := genesis]);
      store := store.(tip := Some(lastBlockHash));
    }
    chain := Chain(store, lastBlockHash);
  }

  /** A chain created over an empty store yields exactly its genesis block. */
  lemma NewChainYieldsGenesis(db: Store, chain: Chain)
    requires db.blocks == map[] && db.tip.None?
    requires !IsBlank(chain.lastBlockHash) && chain.lastBlockHash in chain.db.blocks
    requires chain.db.blocks == db.blocks[chain.lastBlockHash := chain.db.blocks[chain.lastBlockHash]]
    requires chain.db.blocks[chain.lastBlockHash].previousHash == ""
    ensures ChainBlocks(chain) == [chain.db.blocks[chain.lastBlockHash]]
  {
    assert |chain.db.blocks| == 1;
    assert HasNext(chain.db, chain.lastBlockHash);
    assert !HasNext(chain.db, "");
  }
}

=== FILE: chain_outputs.dfy ===
/** The full-chain derivations of `Blockchain`: which outputs are spent,
    which survive, which a key owns, and the spend selection over them. */
module ChainOutputs {
  import opened Common
  import opened Types
  import opened Transactions
  import opened Selection
  import opened Blockchain

  /** Output indices recorded per transaction id. */
  type SpentMap = map<Bytes, seq<int>>

  /** What a Java `new int[n]` with negative `n` throws. */
  const NEGATIVE_SIZE: string := "NegativeArraySizeException"

  /** An input is counted when no owner filter is given, or when it uses the
      owner's key. */
  predicate Counts(input: TxInput, owner: Option<Bytes>) {
    owner.None? || UsesKey(input, owner.value)
  }

  /** Records the output index one input spends. */
  function RecordSpent(m: SpentMap, input: TxInput, init: ArrayInit): Result<SpentMap> {
    var k := input.txId;
    if k in m then Ok(m[k := m[k] + [input.outputIndex]])
    else if init == SizedArray && input.outputIndex < 0 then Err(NEGATIVE_SIZE)
    else Ok(m[k := FirstIndices(init, input.outputIndex)])
  }

  /** The loop over the inputs of one transaction. */
  function SpentByInputs(inputs: seq<TxInput>, owner: Option<Bytes>, init: ArrayInit, m: SpentMap): (r: Result<SpentMap>)
    ensures init == LiteralArray ==> r.Ok?
  {
    if |inputs| == 0 then Ok(m)
    else if !Counts(inputs[0], owner) then SpentByInputs(inputs[1..], owner, init, m)
    else
      var m' :- RecordSpent(m, inputs[0], init);
      SpentByInputs(inputs[1..], owner, init, m')
  }

  /** The loop over the transactions, skipping coinbase transactions. */
  function SpentByTxs(txs: seq<Transaction>, owner: Option<Bytes>, init: ArrayInit, m: SpentMap): (r: Result<SpentMap>)
    ensures init == LiteralArray ==> r.Ok?
  {
    if |txs| == 0 then Ok(m)
    else if IsCoinbase(txs[0]) then SpentByTxs(txs[1..], owner, init, m)
    else
      var m' :- SpentByInputs(txs[0].inputs, owner, init, m);
      SpentByTxs(txs[1..], owner, init, m')
  }

  /** `findAllSpentTxOutputs`: every input of every non-coinbase transaction on
      the chain, the first per id recorded as `new int[index]`. */
  function FindAllSpentTxOutputs(chain: Chain): Result<SpentMap> {
    SpentByTxs(ChainTxs(chain), None, SizedArray, map[])
  }

  /** `getAllSpentTransactionInputs`: the inputs that use the owner's key,
      the first per id recorded as `{index}`. */
  function GetAllSpentTransactionInputs(chain: Chain, pubKeyHash: Bytes): SpentMap {
    SpentByTxs(ChainTxs(chain), Some(pubKeyHash), LiteralArray, map[]).value
  }

  // ---------------------------------------------------------------------
  // What the spent loops compute, declaratively

  /** The output indices of transaction `k` that the counted inputs spend, in
      input order. */
  function InputIndices(inputs: seq<TxInput>, owner: Option<Bytes>, k: Bytes): seq<int> {
    if |inputs| == 0 then []
    else (if inputs[0].txId == k && Counts(inputs[0], owner) then [inputs[0].outputIndex] else [])
         + InputIndices(inputs[1..], owner, k)
  }

  /** The inputs of the non-coinbase transactions, in order. */
  function SpendingInputs(txs: seq<Transaction>): seq<TxInput> {
    if |txs| == 0 then []
    else (if IsCoinbase(txs[0]) then [] else txs[0].inputs) + SpendingInputs(txs[1..])
  }

  /** The output indices of transaction `k` spent anywhere in `txs`. */
  function SpentIndices(txs: seq<Transaction>, owner: Option<Bytes>, k: Bytes): seq<int> {
    InputIndices(SpendingInputs(txs), owner, k)
  }

  /** `r` holds, for id `k`, what recording the indices `s` on top of `m`
      gives: appended when `k` was recorded, otherwise the first index's
      array followed by the rest, and nothing when `s` is empty. */
  predicate Arranged(r: SpentMap, m: SpentMap, k: Bytes, s: seq<int>, init: ArrayInit) {
    if k in m then k in r && r[k] == m[k] + s
    else if |s| == 0 then k !in r
    else k in r && (init == SizedArray ==> s[0] >= 0) && r[k] == FirstIndices(init, s[0]) + s[1..]
  }

  /** Recording `s` for a fresh id `k` starts with a negative array size. */
  predicate BadFirst(m: SpentMap, k: Bytes, s: seq<int>, init: ArrayInit) {
    init == SizedArray && k !in m && |s| > 0 && s[0] < 0
  }

  /** Some id's first counted index in `inputs` is a negative array size. */
  ghost predicate AnyBadFirst(m: SpentMap, inputs: seq<TxInput>, owner: Option<Bytes>, init: ArrayInit) {
    exists k :: BadFirst(m, k, InputIndices(inputs, owner, k), init)
  }

  lemma ArrangedCompose(r2: SpentMap, r1: SpentMap, m: SpentMap, k: Bytes, s1: seq<int>, s2: seq<int>, init: ArrayInit)
    requires Arranged(r1, m, k, s1, init) && Arranged(r2, r1, k, s2, init)
    ensures Arranged(r2, m, k, s1 + s2, init)
  {
    if k in m {
      assert m[k] + s1 + s2 == m[k] + (s1 + s2);
    } else if |s1| == 0 {
      assert s1 + s2 == s2;
    } else {
      assert (s1 + s2)[0] == s1[0];
      assert (s1 + s2)[1..] == s1[1..] + s2;
    }
  }

  lemma {:induction false} InputIndicesAppend(a: seq<TxInput>, b: seq<TxInput>, owner: Option<Bytes>, k: Bytes)
    ensures InputIndices(a + b, owner, k) == InputIndices(a, owner, k) + InputIndices(b, owner, k)
  {
    if |a| > 0 {
      assert (a + b)[1..] == a[1..] + b;
      InputIndicesAppend(a[1..], b, owner, k);
    } else {
      assert a + b == b;
    }
  }

  /** Running the inputs of `a + b` is running `a`, then `b` on its result. */
  lemma {:induction false} SpentByInputsAppend(a: seq<TxInput>, b: seq<TxInput>, owner: Option<Bytes>, init: ArrayInit,
                                               m: SpentMap)
    ensures SpentByInputs(a + b, owner, init, m)
            == (var m1 :- SpentByInputs(a, owner, init, m); SpentByInputs(b, owner, init, m1))
  {
    if |a| > 0 {
      assert (a + b)[1..] == a[1..] + b;
      assert (a + b)[0] == a[0];
      if !Counts(a[0], owner) {
        SpentByInputsAppend(a[1..], b, owner, init, m);
      } else if RecordSpent(m, a[0], init).Ok? {
        SpentByInputsAppend(a[1..], b, owner, init, RecordSpent(m, a[0], init).value);
      }
    } else {
      assert a + b == b;
    }
  }

  /** The transaction loop is the input loop over the spending inputs. */
  lemma {:induction false} SpentByTxsIsSpentByInputs(txs: seq<Transaction>, owner: Option<Bytes>, init: ArrayInit,
                                                     m: SpentMap)
    ensures SpentByTxs(txs, owner, init, m) == SpentByInputs(SpendingInputs(txs), owner, init, m)
  {
    if |txs| > 0 {
      if IsCoinbase(txs[0]) {
        SpentByTxsIsSpentByInputs(txs[1..], owner, init, m);
        assert SpendingInputs(txs) == SpendingInputs(txs[1..]);
      } else {
        SpentByInputsAppend(txs[0].inputs, SpendingInputs(txs[1..]), owner, init, m);
        var one := SpentByInputs(txs[0].inputs, owner, init, m);
        if one.Ok? {
          SpentByTxsIsSpentByInputs(txs[1..], owner, init, one.value);
        }
      }
    }
  }

  /** The indices one input contributes to id `k`. */
  function OneIndex(input: TxInput, k: Bytes): seq<int> {
    if k == input.txId then [input.outputIndex] else []
  }

  /** One recorded input, stated key by key. */
  lemma RecordSpentArranges(m: SpentMap, input: TxInput, init: ArrayInit)
    ensures RecordSpent(m, input, init).Err? <==> BadFirst(m, input.txId, [input.outputIndex], init)
    ensures RecordSpent(m, input, init).Ok? ==> forall k ::
      Arranged(RecordSpent(m, input, init).value, m, k, OneIndex(input, k), init)
  {
    var r := RecordSpent(m, input, init);
    if r.Ok? {
      forall k ensures Arranged(r.value, m, k, OneIndex(input, k), init) {
        if k in m && k != input.txId {
          assert m[k] + [] == m[k];
        }
      }
    }
  }

  /** The input loop, stated key by key: it throws exactly when some fresh
      id's first counted index is negative under `new int[index]`, and
      otherwise arranges each id's counted indices on top of `m`. */
  lemma {:induction false} SpentByInputsArranges(inputs: seq<TxInput>, owner: Option<Bytes>, init: ArrayInit, m: SpentMap)
    ensures var r := SpentByInputs(inputs, owner, init, m);
      && (r.Err? <==> AnyBadFirst(m, inputs, owner, init))
      && (r.Ok? ==> forall k :: Arranged(r.value, m, k, InputIndices(inputs, owner, k), init))
  {
    var r := SpentByInputs(inputs, owner, init, m);
    if |inputs| == 0 {
      forall k ensures Arranged(r.value, m, k, InputIndices(inputs, owner, k), init) {
        if k in m {
          assert m[k] + [] == m[k];
        }
      }
    } else {
      var x := inputs[0];
      var rest := inputs[1..];
      if !Counts(x, owner) {
        SpentByInputsArranges(rest, owner, init, m);
        assert r == SpentByInputs(rest, owner, init, m);
        forall k ensures InputIndices(inputs, owner, k) == InputIndices(rest, owner, k) {
        }
        if r.Err? {
          var k :| BadFirst(m, k, InputIndices(rest, owner, k), init);
          assert BadFirst(m, k, InputIndices(inputs, owner, k), init);
          assert AnyBadFirst(m, inputs, owner, init);
        } else {
          forall k ensures !BadFirst(m, k, InputIndices(inputs, owner, k), init) {
            assert !BadFirst(m, k, InputIndices(rest, owner, k), init);
          }
          assert !AnyBadFirst(m, inputs, owner, init);
        }
      } else {
        var one := RecordSpent(m, x, init);
        RecordSpentArranges(m, x, init);
        if one.Err? {
          assert BadFirst(m, x.txId, InputIndices(inputs, owner, x.txId), init);
          assert AnyBadFirst(m, inputs, owner, init);
        } else {
          var m1 := one.value;
          SpentByInputsArranges(rest, owner, init, m1);
          assert r == SpentByInputs(rest, owner, init, m1);
          forall k ensures InputIndices(inputs, owner, k) == OneIndex(x, k) + InputIndices(rest, owner, k) {
          }
          forall k ensures BadFirst(m1, k, InputIndices(rest, owner, k), init)
                           <==> BadFirst(m, k, InputIndices(inputs, owner, k), init) {
            if k != x.txId {
              assert InputIndices(inputs, owner, k) == InputIndices(rest, owner, k);
            }
          }
          if r.Err? {
            var k :| BadFirst(m1, k, InputIndices(rest, owner, k), init);
            assert BadFirst(m, k, InputIndices(inputs, owner, k), init);
            assert AnyBadFirst(m, inputs, owner, init);
          } else {
            forall k ensures !BadFirst(m, k, InputIndices(inputs, owner, k), init) {
              assert !BadFirst(m1, k, InputIndices(rest, owner, k), init);
            }
            assert !AnyBadFirst(m, inputs, owner, init);
            forall k ensures Arranged(r.value, m, k, InputIndices(inputs, owner, k), init) {
              ArrangedCompose(r.value, m1, m, k, OneIndex(x, k), InputIndices(rest, owner, k), init);
            }
          }
        }
      }
    }
  }

  /** `findAllSpentTxOutputs`, key by key: it throws exactly when the first
      input spending some transaction names a negative index; otherwise a
      transaction is present exactly when some input spends it, and its array
      is `first` zeros (for the first such input's index `first`) followed by
      the indices of the later inputs, in chain order. */
  lemma FindAllSpentTxOutputsSpec(chain: Chain)
    ensures var r := FindAllSpentTxOutputs(chain);
      && (r.Err? <==> exists k :: |SpentIndices(ChainTxs(chain), None, k)| > 0 && SpentIndices(ChainTxs(chain), None, k)[0] < 0)
      && (r.Ok? ==> forall k :: var s := SpentIndices(ChainTxs(chain), None, k);
            && (k in r.value <==> |s| > 0)
            && (k in r.value ==> s[0] >= 0 && r.value[k] == Zeros(s[0]) + s[1..]))
  {
    var txs := ChainTxs(chain);
    SpentByTxsIsSpentByInputs(txs, None, SizedArray, map[]);
    SpentByInputsArranges(SpendingInputs(txs), None, SizedArray, map[]);
    var r := FindAllSpentTxOutputs(chain);
    if r.Err? {
      var k :| BadFirst(map[], k, InputIndices(SpendingInputs(txs), None, k), SizedArray);
      assert |SpentIndices(txs, None, k)| > 0 && SpentIndices(txs, None, k)[0] < 0;
    }
  }

  /** A consequence of `new int[index]`: when the only input spending
      transaction `k` spends its output 1, the spent array is `[0]`, so
      output 0 counts as spent and output 1 does not. */
  lemma FirstSpendRecordsZeros(chain: Chain, k: Bytes)
    requires SpentIndices(ChainTxs(chain), None, k) == [1]
    requires FindAllSpentTxOutputs(chain).Ok?
    ensures k in FindAllSpentTxOutputs(chain).value
    ensures FindAllSpentTxOutputs(chain).value[k] == [0]
  {
    FindAllSpentTxOutputsSpec(chain);
  }

  /** `getAllSpentTransactionInputs`, key by key: an id is present exactly
      when an input using the owner's key spends it, with the indices those
      inputs spend, in chain order. */
  lemma GetAllSpentTransactionInputsSpec(chain: Chain, pubKeyHash: Bytes)
    ensures var r := GetAllSpentTransactionInputs(chain, pubKeyHash);
      forall k :: var s := SpentIndices(ChainTxs(chain), Some(pubKeyHash), k);
        && (k in r <==> |s| > 0)
        && (k in r ==> r[k] == s)
  {
    var txs := ChainTxs(chain);
    SpentByTxsIsSpentByInputs(txs, Some(pubKeyHash), LiteralArray, map[]);
    SpentByInputsArranges(SpendingInputs(txs), Some(pubKeyHash), LiteralArray, map[]);
    var r := GetAllSpentTransactionInputs(chain, pubKeyHash);
    forall k | k in r ensures r[k] == SpentIndices(txs, Some(pubKeyHash), k) {
      var s := SpentIndices(txs, Some(pubKeyHash), k);
      assert [s[0]] + s[1..] == s;
    }
  }

  // ---------------------------------------------------------------------
  // Unspent outputs

  /** `ArrayUtils.contains(spentMap.get(id), index)`, with a null array
      containing nothing. */
  predicate IsSpent(spent: SpentMap, id: Bytes, index: int) {
    id in spent && index in spent[id]
  }

  /** The outputs of transaction `id` from index `i` on whose index is not
      spent, in output order. */
  function Survivors(spent: SpentMap, id: Bytes, outs: seq<TxOutput>, i: nat): seq<TxOutput>
    requires i <= |outs|
    decreases |outs| - i
  {
    if i == |outs| then []
    else (if IsSpent(spent, id, i) then [] else [outs[i]]) + Survivors(spent, id, outs, i + 1)
  }

  /** The inner loop of `findAllUTXOs` over one transaction's outputs. */
  function CollectOutputs(m: map<Bytes, seq<TxOutput>>, spent: SpentMap, id: Bytes, outs: seq<TxOutput>, i: nat)
    : map<Bytes, seq<TxOutput>>
    requires i <= |outs|
    decreases |outs| - i
  {
    if i == |outs| then m
    else if IsSpent(spent, id, i) then CollectOutputs(m, spent, id, outs, i + 1)
    else
      var arr := if id in m then m[id] + [outs[i]] else [outs[i]];
      CollectOutputs(m[id := arr], spent, id, outs, i + 1)
  }

  /** The outer loop of `findAllUTXOs` over the chain's transactions. */
  function CollectUTXOs(txs: seq<Transaction>, spent: SpentMap, m: map<Bytes, seq<TxOutput>>): map<Bytes, seq<TxOutput>> {
    if |txs| == 0 then m else CollectUTXOs(txs[1..], spent, CollectOutputs(m, spent, txs[0].id, txs[0].outputs, 0))
  }

  /** The surviving outputs of every transaction in `txs` with id `k`. */
  function UnspentOf(txs: seq<Transaction>, spent: SpentMap, k: Bytes): seq<TxOutput> {
    if |txs| == 0 then []
    else (if txs[0].id == k then Survivors(spent, k, txs[0].outputs, 0) else []) + UnspentOf(txs[1..], spent, k)
  }

  /** `r` holds, for id `k`, `m`'s outputs followed by `s`; absent when both
      are. */
  predicate Appended(r: map<Bytes, seq<TxOutput>>, m: map<Bytes, seq<TxOutput>>, k: Bytes, s: seq<TxOutput>) {
    if k in m then k in r && r[k] == m[k] + s
    else if |s| == 0 then k !in r
    else k in r && r[k] == s
  }

  lemma AppendedCompose(r2: map<Bytes, seq<TxOutput>>, r1: map<Bytes, seq<TxOutput>>, m: map<Bytes, seq<TxOutput>>,
                        k: Bytes, s1: seq<TxOutput>, s2: seq<TxOutput>)
    requires Appended(r1, m, k, s1) && Appended(r2, r1, k, s2)
    ensures Appended(r2, m, k, s1 + s2)
  {
    if k in m {
      assert m[k] + s1 + s2 == m[k] + (s1 + s2);
    } else if |s1| == 0 {
      assert s1 + s2 == s2;
    }
  }

  lemma AppendedNothing(m: map<Bytes, seq<TxOutput>>)
    ensures forall k :: Appended(m, m, k, [])
  {
    forall k | k in m ensures m[k] + [] == m[k] {
    }
  }

  /** `s` for id `id`, nothing for any other id. */
  function ForId(id: Bytes, s: seq<TxOutput>, k: Bytes): seq<TxOutput> {
    if k == id then s else []
  }

  /** The inner loop appends the transaction's survivors under its id and
      touches no other id. */
  lemma {:induction false} CollectOutputsAppends(m: map<Bytes, seq<TxOutput>>, spent: SpentMap, id: Bytes,
                                                 outs: seq<TxOutput>, i: nat)
    requires i <= |outs|
    ensures forall k :: Appended(CollectOutputs(m, spent, id, outs, i), m, k, ForId(id, Survivors(spent, id, outs, i), k))
    decreases |outs| - i
  {
    var r := CollectOutputs(m, spent, id, outs, i);
    if i == |outs| {
      AppendedNothing(m);
    } else {
      var here: seq<TxOutput> := if IsSpent(spent, id, i) then [] else [outs[i]];
      var m1 := if IsSpent(spent, id, i) then m
                else m[id := if id in m then m[id] + [outs[i]] else [outs[i]]];
      assert forall k :: Appended(m1, m, k, ForId(id, here, k)) by {
        AppendedNothing(m);
      }
      CollectOutputsAppends(m1, spent, id, outs, i + 1);
      assert r == CollectOutputs(m1, spent, id, outs, i + 1);
      assert Survivors(spent, id, outs, i) == here + Survivors(spent, id, outs, i + 1);
      forall k ensures Appended(r, m, k, ForId(id, Survivors(spent, id, outs, i), k)) {
        AppendedForId(r, m1, m, id, k, here, Survivors(spent, id, outs, i + 1));
      }
    }
  }

  lemma AppendedForId(r: map<Bytes, seq<TxOutput>>, m1: map<Bytes, seq<TxOutput>>, m: map<Bytes, seq<TxOutput>>,
                      id: Bytes, k: Bytes, here: seq<TxOutput>, rest: seq<TxOutput>)
    requires Appended(m1, m, k, ForId(id, here, k)) && Appended(r, m1, k, ForId(id, rest, k))
    ensures Appended(r, m, k, ForId(id, here + rest, k))
  {
    AppendedCompose(r, m1, m, k, ForId(id, here, k), ForId(id, rest, k));
    assert ForId(id, here, k) + ForId(id, rest, k) == ForId(id, here + rest, k);
  }

  /** The outer loop appends, under every id, the survivors of the
      transactions with that id, in order. */
  lemma {:induction false} CollectUTXOsAppends(txs: seq<Transaction>, spent: SpentMap, m: map<Bytes, seq<TxOutput>>)
    ensures forall k :: Appended(CollectUTXOs(txs, spent, m), m, k, UnspentOf(txs, spent, k))
  {
    if |txs| == 0 {
      AppendedNothing(m);
    } else {
      var m1 := CollectOutputs(m, spent, txs[0].id, txs[0].outputs, 0);
      CollectOutputsAppends(m, spent, txs[0].id, txs[0].outputs, 0);
      CollectUTXOsAppends(txs[1..], spent, m1);
      var r := CollectUTXOs(txs, spent, m);
      forall k ensures Appended(r, m, k, UnspentOf(txs, spent, k)) {
        AppendedCompose(r, m1, m, k, ForId(txs[0].id, Survivors(spent, txs[0].id, txs[0].outputs, 0), k),
                        UnspentOf(txs[1..], spent, k));
      }
    }
  }

  /** `findAllUTXOs`: the spent map, then every transaction's surviving
      outputs grouped by id. */
  function FindAllUTXOs(chain: Chain): Result<map<Bytes, seq<TxOutput>>> {
    var spent :- FindAllSpentTxOutputs(chain);
    Ok(CollectUTXOs(ChainTxs(chain), spent, map[]))
  }

  /** `findAllUTXOs` throws exactly when the spent map does; otherwise each id
      maps to the outputs of its transactions whose index is not in the spent
      array, in output order, and ids with no surviving output are absent. */
  lemma FindAllUTXOsSpec(chain: Chain)
    ensures FindAllUTXOs(chain).Err? <==> FindAllSpentTxOutputs(chain).Err?
    ensures FindAllUTXOs(chain).Ok? ==>
      var spent := FindAllSpentTxOutputs(chain).value;
      var r := FindAllUTXOs(chain).value;
      forall k :: && (k in r <==> |UnspentOf(ChainTxs(chain), spent, k)| > 0)
                  && (k in r ==> r[k] == UnspentOf(ChainTxs(chain), spent, k))
  {
    if FindAllSpentTxOutputs(chain).Ok? {
      CollectUTXOsAppends(ChainTxs(chain), FindAllSpentTxOutputs(chain).value, map[]);
    }
  }

  /** A transaction none of whose outputs is recorded keeps all of them. */
  lemma {:induction false} SurvivorsOfUnspent(spent: SpentMap, id: Bytes, outs: seq<TxOutput>, i: nat)
    requires i <= |outs| && id !in spent
    ensures Survivors(spent, id, outs, i) == outs[i..]
    decreases |outs| - i
  {
    if i < |outs| {
      SurvivorsOfUnspent(spent, id, outs, i + 1);
      assert outs[i..] == [outs[i]] + outs[i + 1..];
    }
  }

  // ---------------------------------------------------------------------
  // Per-owner queries

  /** `tx` once for every output from index `i` on that is unspent and
      locked to the key: the inner loop of `findUnspentTransactions`. */
  function UnspentHits(tx: Transaction, spent: SpentMap, pubKeyHash: Bytes, i: nat): seq<Transaction>
    requires i <= |tx.outputs|
    decreases |tx.outputs| - i
  {
    if i == |tx.outputs| then []
    else (if !IsSpent(spent, tx.id, i) && IsLockedWithKey(tx.outputs[i], pubKeyHash) then [tx] else [])
         + UnspentHits(tx, spent, pubKeyHash, i + 1)
  }

  function UnspentTxs(txs: seq<Transaction>, spent: SpentMap, pubKeyHash: Bytes): seq<Transaction> {
    if |txs| == 0 then [] else UnspentHits(txs[0], spent, pubKeyHash, 0) + UnspentTxs(txs[1..], spent, pubKeyHash)
  }

  /** `findUnspentTransactions`. */
  function FindUnspentTransactions(chain: Chain, pubKeyHash: Bytes): seq<Transaction> {
    UnspentTxs(ChainTxs(chain), GetAllSpentTransactionInputs(chain, pubKeyHash), pubKeyHash)
  }

  /** Output `j` of `tx` is unspent and locked to the key. */
  predicate OwnedUnspent(tx: Transaction, spent: SpentMap, pubKeyHash: Bytes, j: int) {
    0 <= j < |tx.outputs| && !IsSpent(spent, tx.id, j) && IsLockedWithKey(tx.outputs[j], pubKeyHash)
  }

  lemma {:induction false} UnspentHitsMembers(tx: Transaction, spent: SpentMap, pubKeyHash: Bytes, i: nat)
    requires i <= |tx.outputs|
    ensures forall t :: t in UnspentHits(tx, spent, pubKeyHash, i) ==> t == tx
    ensures |UnspentHits(tx, spent, pubKeyHash, i)| > 0 <==> exists j :: i <= j && OwnedUnspent(tx, spent, pubKeyHash, j)
    decreases |tx.outputs| - i
  {
    if i < |tx.outputs| {
      UnspentHitsMembers(tx, spent, pubKeyHash, i + 1);
      if OwnedUnspent(tx, spent, pubKeyHash, i) {
        assert |UnspentHits(tx, spent, pubKeyHash, i)| > 0;
      } else if exists j :: i <= j && OwnedUnspent(tx, spent, pubKeyHash, j) {
        var j :| i <= j && OwnedUnspent(tx, spent, pubKeyHash, j);
        assert i + 1 <= j;
      }
    }
  }

  /** A transaction is listed exactly when it has an output that is unspent
      and locked to the key. */
  lemma {:induction false} UnspentTxsMembers(txs: seq<Transaction>, spent: SpentMap, pubKeyHash: Bytes)
    ensures forall t :: t in UnspentTxs(txs, spent, pubKeyHash) <==>
      t in txs && exists j :: OwnedUnspent(t, spent, pubKeyHash, j)
  {
    if |txs| > 0 {
      UnspentHitsMembers(txs[0], spent, pubKeyHash, 0);
      UnspentTxsMembers(txs[1..], spent, pubKeyHash);
      var hits := UnspentHits(txs[0], spent, pubKeyHash, 0);
      forall t ensures t in UnspentTxs(txs, spent, pubKeyHash) <==>
                       t in txs && exists j :: OwnedUnspent(t, spent, pubKeyHash, j) {
        if t in UnspentTxs(txs, spent, pubKeyHash) {
          if t in hits {
            assert t == txs[0];
            var j :| 0 <= j && OwnedUnspent(txs[0], spent, pubKeyHash, j);
          } else {
            assert t in UnspentTxs(txs[1..], spent, pubKeyHash);
          }
        }
        if t in txs && exists j :: OwnedUnspent(t, spent, pubKeyHash, j) {
          if t == txs[0] {
            var j :| OwnedUnspent(t, spent, pubKeyHash, j);
            assert 0 <= j;
            assert |hits| > 0 && hits[0] in hits;
          } else {
            assert t in txs[1..];
          }
        }
      }
    }
  }

  /** The outputs of `outs` locked to the key, in order: each locked output
      as often as `outs` holds it, and nothing else. */
  function LockedOutputs(outs: seq<TxOutput>, pubKeyHash: Bytes): (r: seq<TxOutput>)
    ensures forall o :: o in r <==> o in outs && IsLockedWithKey(o, pubKeyHash)
    ensures forall o :: multiset(r)[o] == if IsLockedWithKey(o, pubKeyHash) then multiset(outs)[o] else 0
  {
    if |outs| == 0 then []
    else
      assert outs == [outs[0]] + outs[1..];
      (if IsLockedWithKey(outs[0], pubKeyHash) then [outs[0]] else []) + LockedOutputs(outs[1..], pubKeyHash)
  }

  /** The outer loop of `findUTXO`: every locked output of every listed
      transaction. */
  function UtxosOf(txs: seq<Transaction>, pubKeyHash: Bytes): (r: seq<TxOutput>)
    ensures forall o :: o in r ==> IsLockedWithKey(o, pubKeyHash)
  {
    if |txs| == 0 then [] else LockedOutputs(txs[0].outputs, pubKeyHash) + UtxosOf(txs[1..], pubKeyHash)
  }

  /** `findUTXO`: the locked outputs of the transactions
      `findUnspentTransactions` lists. */
  function FindUTXO(chain: Chain, pubKeyHash: Bytes): (r: seq<TxOutput>)
    ensures forall o :: o in r ==> IsLockedWithKey(o, pubKeyHash)
  {
    UtxosOf(FindUnspentTransactions(chain, pubKeyHash), pubKeyHash)
  }

  lemma {:induction false} UtxosOfMembers(txs: seq<Transaction>, pubKeyHash: Bytes)
    ensures forall o :: o in UtxosOf(txs, pubKeyHash) <==>
      exists t :: t in txs && o in t.outputs && IsLockedWithKey(o, pubKeyHash)
  {
    if |txs| > 0 {
      UtxosOfMembers(txs[1..], pubKeyHash);
      forall o | exists t :: t in txs && o in t.outputs && IsLockedWithKey(o, pubKeyHash)
        ensures o in UtxosOf(txs, pubKeyHash)
      {
        var t :| t in txs && o in t.outputs && IsLockedWithKey(o, pubKeyHash);
        if t != txs[0] {
          assert t in txs[1..];
        }
      }
    }
  }

  /** What `findUTXO`'s loops return, as a set: the outputs locked to the key
      of every transaction that has at least one unspent output locked to
      it, spent siblings included. */
  lemma UtxosAsWrittenMembers(txs: seq<Transaction>, spent: SpentMap, pubKeyHash: Bytes)
    ensures forall o :: o in UtxosOf(UnspentTxs(txs, spent, pubKeyHash), pubKeyHash) <==>
      exists t :: && t in txs && (exists j :: OwnedUnspent(t, spent, pubKeyHash, j))
                  && o in t.outputs && IsLockedWithKey(o, pubKeyHash)
  {
    UnspentTxsMembers(txs, spent, pubKeyHash);
    UtxosOfMembers(UnspentTxs(txs, spent, pubKeyHash), pubKeyHash);
  }

  /** `findUTXO` over the chain, against the outputs it spends. */
  lemma FindUTXOMembers(chain: Chain, pubKeyHash: Bytes)
    ensures var spent := GetAllSpentTransactionInputs(chain, pubKeyHash);
      forall o :: o in FindUTXO(chain, pubKeyHash) <==>
        exists t :: && t in ChainTxs(chain) && (exists j :: OwnedUnspent(t, spent, pubKeyHash, j))
                    && o in t.outputs && IsLockedWithKey(o, pubKeyHash)
  {
    UtxosAsWrittenMembers(ChainTxs(chain), GetAllSpentTransactionInputs(chain, pubKeyHash), pubKeyHash);
  }

  /** The unspent outputs locked to the key from index `i` on, each once. */
  function OwnedOutputs(tx: Transaction, spent: SpentMap, pubKeyHash: Bytes, i: nat): seq<TxOutput>
    requires i <= |tx.outputs|
    decreases |tx.outputs| - i
  {
    if i == |tx.outputs| then []
    else (if OwnedUnspent(tx, spent, pubKeyHash, i) then [tx.outputs[i]] else []) + OwnedOutputs(tx, spent, pubKeyHash, i + 1)
  }

  /** What `findUTXO` is meant to return: each output that is unspent and
      locked to the key, once, in chain and output order. */
  function UtxosIntended(txs: seq<Transaction>, spent: SpentMap, pubKeyHash: Bytes): seq<TxOutput> {
    if |txs| == 0 then [] else OwnedOutputs(txs[0], spent, pubKeyHash, 0) + UtxosIntended(txs[1..], spent, pubKeyHash)
  }

  /** `findUTXO` as intended. */
  function FindUTXOIntended(chain: Chain, pubKeyHash: Bytes): seq<TxOutput> {
    UtxosIntended(ChainTxs(chain), GetAllSpentTransactionInputs(chain, pubKeyHash), pubKeyHash)
  }

  lemma {:induction false} OwnedOutputsMembers(tx: Transaction, spent: SpentMap, pubKeyHash: Bytes, i: nat)
    requires i <= |tx.outputs|
    ensures |OwnedOutputs(tx, spent, pubKeyHash, i)| <= |tx.outputs| - i
    ensures forall o :: o in OwnedOutputs(tx, spent, pubKeyHash, i) <==>
      exists j :: i <= j && OwnedUnspent(tx, spent, pubKeyHash, j) && tx.outputs[j] == o
    decreases |tx.outputs| - i
  {
    if i < |tx.outputs| {
      OwnedOutputsMembers(tx, spent, pubKeyHash, i + 1);
      forall o | exists j :: i <= j && OwnedUnspent(tx, spent, pubKeyHash, j) && tx.outputs[j] == o
        ensures o in OwnedOutputs(tx, spent, pubKeyHash, i)
      {
        var j :| i <= j && OwnedUnspent(tx, spent, pubKeyHash, j) && tx.outputs[j] == o;
        if j > i {
          assert i + 1 <= j;
        }
      }
    }
  }

  /** The intended result holds exactly the unspent outputs locked to the
      key. */
  lemma {:induction false} UtxosIntendedMembers(txs: seq<Transaction>, spent: SpentMap, pubKeyHash: Bytes)
    ensures forall o :: o in UtxosIntended(txs, spent, pubKeyHash) <==>
      exists t, j :: t in txs && OwnedUnspent(t, spent, pubKeyHash, j) && t.outputs[j] == o
  {
    if |txs| > 0 {
      OwnedOutputsMembers(txs[0], spent, pubKeyHash, 0);
      UtxosIntendedMembers(txs[1..], spent, pubKeyHash);
      forall o | exists t, j :: t in txs && OwnedUnspent(t, spent, pubKeyHash, j) && t.outputs[j] == o
        ensures o in UtxosIntended(txs, spent, pubKeyHash)
      {
        var t, j :| t in txs && OwnedUnspent(t, spent, pubKeyHash, j) && t.outputs[j] == o;
        if t != txs[0] {
          assert t in txs[1..];
        } else {
          assert 0 <= j;
        }
      }
    }
  }

  /** The output positions of `tx` from index `i` on that are unspent and
      locked to the key and hold `o`. */
  function OwnedPositionsOf(tx: Transaction, spent: SpentMap, pubKeyHash: Bytes, o: TxOutput, i: nat): set<int> {
    set j | i <= j < |tx.outputs| && OwnedUnspent(tx, spent, pubKeyHash, j) && tx.outputs[j] == o
  }

  /** The output positions of `tx` from index `i` on that are unspent and
      locked to the key. */
  function OwnedPositions(tx: Transaction, spent: SpentMap, pubKeyHash: Bytes, i: nat): set<int> {
    set j | i <= j < |tx.outputs| && OwnedUnspent(tx, spent, pubKeyHash, j)
  }

  /** How many (transaction, output position) pairs of `txs` are unspent and
      locked to the key. */
  function OwnedPairs(txs: seq<Transaction>, spent: SpentMap, pubKeyHash: Bytes): nat {
    if |txs| == 0 then 0 else |OwnedPositions(txs[0], spent, pubKeyHash, 0)| + OwnedPairs(txs[1..], spent, pubKeyHash)
  }

  /** How many of those pairs hold the output `o`. */
  function OwnedPairsOf(txs: seq<Transaction>, spent: SpentMap, pubKeyHash: Bytes, o: TxOutput): nat {
    if |txs| == 0 then 0
    else |OwnedPositionsOf(txs[0], spent, pubKeyHash, o, 0)| + OwnedPairsOf(txs[1..], spent, pubKeyHash, o)
  }

  lemma OwnedPositionsStep(tx: Transaction, spent: SpentMap, pubKeyHash: Bytes, i: nat)
    requires i < |tx.outputs|
    ensures |OwnedPositions(tx, spent, pubKeyHash, i)|
            == (if OwnedUnspent(tx, spent, pubKeyHash, i) then 1 else 0) + |OwnedPositions(tx, spent, pubKeyHash, i + 1)|
  {
    var here: set<int> := if OwnedUnspent(tx, spent, pubKeyHash, i) then {i} else {};
    var later := OwnedPositions(tx, spent, pubKeyHash, i + 1);
    assert OwnedPositions(tx, spent, pubKeyHash, i) == here + later;
    assert here !! later;
  }

  lemma OwnedPositionsOfStep(tx: Transaction, spent: SpentMap, pubKeyHash: Bytes, o: TxOutput, i: nat)
    requires i < |tx.outputs|
    ensures |OwnedPositionsOf(tx, spent, pubKeyHash, o, i)|
            == (if OwnedUnspent(tx, spent, pubKeyHash, i) && tx.outputs[i] == o then 1 else 0)
               + |OwnedPositionsOf(tx, spent, pubKeyHash, o, i + 1)|
  {
    var here: set<int> := if OwnedUnspent(tx, spent, pubKeyHash, i) && tx.outputs[i] == o then {i} else {};
    var later := OwnedPositionsOf(tx, spent, pubKeyHash, o, i + 1);
    assert OwnedPositionsOf(tx, spent, pubKeyHash, o, i) == here + later;
    assert here !! later;
  }

  lemma {:induction false} OwnedOutputsLength(tx: Transaction, spent: SpentMap, pubKeyHash: Bytes, i: nat)
    requires i <= |tx.outputs|
    ensures |OwnedOutputs(tx, spent, pubKeyHash, i)| == |OwnedPositions(tx, spent, pubKeyHash, i)|
    decreases |tx.outputs| - i
  {
    if i == |tx.outputs| {
      assert OwnedPositions(tx, spent, pubKeyHash, i) == {};
    } else {
      OwnedOutputsLength(tx, spent, pubKeyHash, i + 1);
      OwnedPositionsStep(tx, spent, pubKeyHash, i);
    }
  }

  lemma {:induction false} OwnedOutputsCountOf(tx: Transaction, spent: SpentMap, pubKeyHash: Bytes, o: TxOutput, i: nat)
    requires i <= |tx.outputs|
    ensures multiset(OwnedOutputs(tx, spent, pubKeyHash, i))[o] == |OwnedPositionsOf(tx, spent, pubKeyHash, o, i)|
    decreases |tx.outputs| - i
  {
    if i == |tx.outputs| {
      assert OwnedPositionsOf(tx, spent, pubKeyHash, o, i) == {};
    } else {
      OwnedOutputsCountOf(tx, spent, pubKeyHash, o, i + 1);
      OwnedPositionsOfStep(tx, spent, pubKeyHash, o, i);
      var head := if OwnedUnspent(tx, spent, pubKeyHash, i) then [tx.outputs[i]] else [];
      var rest := OwnedOutputs(tx, spent, pubKeyHash, i + 1);
      assert OwnedOutputs(tx, spent, pubKeyHash, i) == head + rest;
      assert multiset(head + rest) == multiset(head) + multiset(rest);
    }
  }

  /** One transaction contributes one entry per unspent locked position,
      and each output as often as the positions holding it. */
  lemma OwnedOutputsCounts(tx: Transaction, spent: SpentMap, pubKeyHash: Bytes, i: nat)
    requires i <= |tx.outputs|
    ensures |OwnedOutputs(tx, spent, pubKeyHash, i)| == |OwnedPositions(tx, spent, pubKeyHash, i)|
    ensures forall o :: multiset(OwnedOutputs(tx, spent, pubKeyHash, i))[o]
                        == |OwnedPositionsOf(tx, spent, pubKeyHash, o, i)|
  {
    OwnedOutputsLength(tx, spent, pubKeyHash, i);
    forall o ensures multiset(OwnedOutputs(tx, spent, pubKeyHash, i))[o]
                     == |OwnedPositionsOf(tx, spent, pubKeyHash, o, i)| {
      OwnedOutputsCountOf(tx, spent, pubKeyHash, o, i);
    }
  }

  /** The intended result lists every unspent locked output exactly once:
      its length is the number of unspent locked (transaction, position)
      pairs, and each output occurs as often as the pairs holding it. */
  lemma {:induction false} UtxosIntendedCounts(txs: seq<Transaction>, spent: SpentMap, pubKeyHash: Bytes)
    ensures |UtxosIntended(txs, spent, pubKeyHash)| == OwnedPairs(txs, spent, pubKeyHash)
    ensures forall o :: multiset(UtxosIntended(txs, spent, pubKeyHash))[o] == OwnedPairsOf(txs, spent, pubKeyHash, o)
  {
    if |txs| > 0 {
      OwnedOutputsCounts(txs[0], spent, pubKeyHash, 0);
      UtxosIntendedCounts(txs[1..], spent, pubKeyHash);
    }
  }

  /** `findUTXO` as written repeats a transaction's locked outputs once per
      unspent locked output: one transaction paying two outputs to the same
      key, nothing spent, yields four outputs (double the balance) where
      the intended query yields the two. */
  lemma FindUTXORepeatsOutputs()
    ensures var key: Bytes := [1];
      var a := TxOutput(4, key);
      var b := TxOutput(6, key);
      var tx := Transaction([7], [], [a, b]);
      && UtxosOf(UnspentTxs([tx], map[], key), key) == [a, b, a, b]
      && UtxosIntended([tx], map[], key) == [a, b]
  {
    var key: Bytes := [1];
    var a := TxOutput(4, key);
    var b := TxOutput(6, key);
    var tx := Transaction([7], [], [a, b]);
    assert UnspentHits(tx, map[], key, 2) == [];
    assert UnspentHits(tx, map[], key, 1) == [tx];
    assert UnspentHits(tx, map[], key, 0) == [tx, tx];
    assert UnspentTxs([tx], map[], key) == [tx, tx];
    assert LockedOutputs([b], key) == [b];
    assert LockedOutputs([a, b], key) == [a, b];
    assert UtxosOf([tx], key) == [a, b];
    assert UtxosOf([tx, tx], key) == [a, b] + UtxosOf([tx], key);
    assert OwnedOutputs(tx, map[], key, 2) == [];
    assert OwnedOutputs(tx, map[], key, 1) == [b];
    assert OwnedOutputs(tx, map[], key, 0) == [a, b];
  }

  /** `findUTXO` as written also returns locked outputs that are already
      spent, when a sibling output of the same transaction is not: with
      output 0 of `[a, b]` spent it returns both, where the intended query
      returns `b` alone. */
  lemma FindUTXOReturnsSpentSibling(tx: Transaction, spent: SpentMap, key: Bytes)
    requires |tx.outputs| == 2
    requires IsLockedWithKey(tx.outputs[0], key) && IsLockedWithKey(tx.outputs[1], key)
    requires IsSpent(spent, tx.id, 0) && !IsSpent(spent, tx.id, 1)
    ensures UtxosOf(UnspentTxs([tx], spent, key), key) == tx.outputs
    ensures UtxosIntended([tx], spent, key) == [tx.outputs[1]]
  {
    var a, b := tx.outputs[0], tx.outputs[1];
    assert UnspentHits(tx, spent, key, 2) == [];
    assert UnspentHits(tx, spent, key, 1) == [tx];
    assert UnspentHits(tx, spent, key, 0) == [tx];
    assert UnspentTxs([tx], spent, key) == [tx];
    assert tx.outputs == [a, b];
    assert LockedOutputs([b], key) == [b];
    assert LockedOutputs([a, b], key) == [a, b];
    assert UtxosOf([tx], key) == [a, b];
    assert OwnedOutputs(tx, spent, key, 2) == [];
    assert OwnedOutputs(tx, spent, key, 1) == [b];
    assert OwnedOutputs(tx, spent, key, 0) == [b];
  }

  // ---------------------------------------------------------------------
  // Spend selection over the chain

  /** The (id, outputs) entries of the listed transactions, in order. */
  function TxEntries(txs: seq<Transaction>): (r: seq<(Bytes, seq<TxOutput>)>)
    ensures |r| == |txs|
    ensures forall i :: 0 <= i < |txs| ==> r[i] == (txs[i].id, txs[i].outputs)
  {
    seq(|txs|, i requires 0 <= i < |txs| => (txs[i].id, txs[i].outputs))
  }

  /** `Blockchain.findSpendableOutputs`: the selection scan over the
      transactions `findUnspentTransactions` lists, first index recorded as
      `{index}`. */
  function FindSpendableOutputs(chain: Chain, pubKeyHash: Bytes, amount: int32): SpendableOutputs {
    ScanEntries(pubKeyHash, amount, LiteralArray, TxEntries(FindUnspentTransactions(chain, pubKeyHash)), EMPTY_SELECTION)
  }

  /** The chain selection reaches the amount whenever the value locked to the
      payer across the listed transactions does (a transaction counted once
      per listing), and otherwise gathers all of it. */
  lemma ChainSelectionReachesAmount(chain: Chain, pubKeyHash: Bytes, amount: int32)
    requires EntriesNonNegative(TxEntries(FindUnspentTransactions(chain, pubKeyHash)))
    requires EntriesLocked(TxEntries(FindUnspentTransactions(chain, pubKeyHash)), pubKeyHash) <= INT_MAX
    ensures var total := EntriesLocked(TxEntries(FindUnspentTransactions(chain, pubKeyHash)), pubKeyHash);
      var r := FindSpendableOutputs(chain, pubKeyHash, amount);
      && (total >= amount ==> r.accumulated >= amount)
      && (total < amount ==> r.accumulated == total)
  {
    SelectionReachesAmount(pubKeyHash, amount, LiteralArray, TxEntries(FindUnspentTransactions(chain, pubKeyHash)));
  }

  /** The same loop makes the chain's selection spend outputs that are
      already spent: with output 0 of `[a, b]` spent, a payment of 10 records
      both indices of the transaction and counts the spent value 4. */
  lemma ChainSelectionSpendsSpentOutput()
    ensures var key: Bytes := [1];
      var tx := Transaction([7], [], [TxOutput(4, key), TxOutput(6, key)]);
      var spent: SpentMap := map[[7] := [0]];
      ScanEntries(key, 10, LiteralArray, TxEntries(UnspentTxs([tx], spent, key)), EMPTY_SELECTION)
        == SpendableOutputs(10, map[[7] := [0, 1]])
  {
    var key: Bytes := [1];
    var tx := Transaction([7], [], [TxOutput(4, key), TxOutput(6, key)]);
    var spent: SpentMap := map[[7] := [0]];
    assert IsSpent(spent, [7], 0) && !IsSpent(spent, [7], 1);
    assert UnspentHits(tx, spent, key, 2) == [];
    assert UnspentHits(tx, spent, key, 1) == [tx];
    assert UnspentHits(tx, spent, key, 0) == [tx];
    assert UnspentTxs([tx], spent, key) == [tx];
    var entries := TxEntries([tx]);
    assert entries == [([7], tx.outputs)];
    var s1 := SpendableOutputs(4, map[[7] := [0]]);
    assert IsLockedWithKey(tx.outputs[0], key) && IsLockedWithKey(tx.outputs[1], key);
    assert Add32(0, 4) == 4 && Add32(4, 6) == 10;
    assert Record(map[], [7], 0, LiteralArray) == map[[7] := [0]];
    assert [7] in s1.unspentOutputs && s1.unspentOutputs[[7]] + [1] == [0, 1];
    assert s1.unspentOutputs[[7] := [0, 1]] == map[[7] := [0, 1]];
    assert ScanOutputs(key, 10, LiteralArray, [7], tx.outputs, 1, s1) == SpendableOutputs(10, map[[7] := [0, 1]]);
    assert ScanOutputs(key, 10, LiteralArray, [7], tx.outputs, 0, EMPTY_SELECTION) == SpendableOutputs(10, map[[7] := [0, 1]]);
    assert entries[1..] == [];
  }

  /** The chain's selection scans a transaction once per listing, so a
      transaction with two unspent outputs locked to the payer is scanned
      twice: a payment of 20 against a balance of 10 records `[0, 1, 0, 1]`
      and gathers 20, where a scan over each listed transaction once records
      `[0, 1]` and gathers 10. */
  lemma ChainSelectionRepeatsIndices()
    ensures var key: Bytes := [1];
      var tx := Transaction([7], [], [TxOutput(4, key), TxOutput(6, key)]);
      && ScanEntries(key, 20, LiteralArray, TxEntries(UnspentTxs([tx], map[], key)), EMPTY_SELECTION)
           == SpendableOutputs(20, map[[7] := [0, 1, 0, 1]])
      && ScanEntries(key, 20, LiteralArray, TxEntries(UnspentTxsOnce([tx], map[], key)), EMPTY_SELECTION)
           == SpendableOutputs(10, map[[7] := [0, 1]])
  {
    var key: Bytes := [1];
    var tx := Transaction([7], [], [TxOutput(4, key), TxOutput(6, key)]);
    var spent: SpentMap := map[];
    assert !IsSpent(spent, [7], 0) && !IsSpent(spent, [7], 1);
    assert IsLockedWithKey(tx.outputs[0], key) && IsLockedWithKey(tx.outputs[1], key);
    assert UnspentHits(tx, spent, key, 2) == [];
    assert UnspentHits(tx, spent, key, 1) == [tx];
    assert UnspentHits(tx, spent, key, 0) == [tx, tx];
    assert UnspentTxs([tx], spent, key) == [tx, tx];
    assert UnspentTxsOnce([tx], spent, key) == [tx];
    assert Add32(0, 4) == 4 && Add32(4, 6) == 10 && Add32(10, 4) == 14 && Add32(14, 6) == 20;
    var e := ([7], tx.outputs);
    assert TxEntries([tx, tx]) == [e, e];
    assert TxEntries([tx]) == [e];
    var s1 := SpendableOutputs(4, map[[7] := [0]]);
    assert Record(map[], [7], 0, LiteralArray) == map[[7] := [0]];
    assert s1.unspentOutputs[[7] := [0, 1]] == map[[7] := [0, 1]];
    var s2 := SpendableOutputs(10, map[[7] := [0, 1]]);
    assert Step(key, 20, 4, tx.outputs[1]) == 10;
    assert [7] in s1.unspentOutputs && s1.unspentOutputs[[7]] + [1] == [0, 1];
    assert Record(s1.unspentOutputs, [7], 1, LiteralArray) == s2.unspentOutputs;
    assert ScanOutputs(key, 20, LiteralArray, [7], tx.outputs, 2, s2) == s2;
    assert ScanOutputs(key, 20, LiteralArray, [7], tx.outputs, 1, s1) == s2;
    assert ScanOutputs(key, 20, LiteralArray, [7], tx.outputs, 0, EMPTY_SELECTION) == s2;
    var s3 := SpendableOutputs(14, map[[7] := [0, 1, 0]]);
    assert Step(key, 20, 10, tx.outputs[0]) == 14 && Step(key, 20, 14, tx.outputs[1]) == 20;
    assert [7] in s2.unspentOutputs && s2.unspentOutputs[[7]] + [0] == [0, 1, 0];
    assert s2.unspentOutputs[[7] := [0, 1, 0]] == s3.unspentOutputs;
    assert Record(s2.unspentOutputs, [7], 0, LiteralArray) == s3.unspentOutputs;
    assert [7] in s3.unspentOutputs && s3.unspentOutputs[[7]] + [1] == [0, 1, 0, 1];
    assert s3.unspentOutputs[[7] := [0, 1, 0, 1]] == map[[7] := [0, 1, 0, 1]];
    assert Record(s3.unspentOutputs, [7], 1, LiteralArray) == map[[7] := [0, 1, 0, 1]];
    assert ScanOutputs(key, 20, LiteralArray, [7], tx.outputs, 1, s3) == SpendableOutputs(20, map[[7] := [0, 1, 0, 1]]);
    assert ScanOutputs(key, 20, LiteralArray, [7], tx.outputs, 0, s2) == SpendableOutputs(20, map[[7] := [0, 1, 0, 1]]);
    assert [e, e][1..] == [e];
    assert ScanEntries(key, 20, LiteralArray, [e, e], EMPTY_SELECTION) == ScanEntries(key, 20, LiteralArray, [e], s2);
    assert ScanEntries(key, 20, LiteralArray, [e], s2) == SpendableOutputs(20, map[[7] := [0, 1, 0, 1]]);
  }

  /** Every transaction that `findUnspentTransactions` lists, once, in chain
      order: the listing the selection is meant to scan. */
  function UnspentTxsOnce(txs: seq<Transaction>, spent: SpentMap, pubKeyHash: Bytes): seq<Transaction> {
    if |txs| == 0 then []
    else (if UnspentHits(txs[0], spent, pubKeyHash, 0) != [] then [txs[0]] else [])
         + UnspentTxsOnce(txs[1..], spent, pubKeyHash)
  }

  /** The transactions carry pairwise distinct ids. */
  predicate DistinctTxIds(txs: seq<Transaction>) {
    forall i, j :: 0 <= i < j < |txs| ==> txs[i].id != txs[j].id
  }

  /** The once-listing holds the same transactions as the chain's listing,
      and keeps the ids distinct when the scanned transactions have
      distinct ids. */
  lemma {:induction false} UnspentTxsOnceSpec(txs: seq<Transaction>, spent: SpentMap, pubKeyHash: Bytes)
    ensures forall t :: t in UnspentTxsOnce(txs, spent, pubKeyHash) <==> t in UnspentTxs(txs, spent, pubKeyHash)
    ensures forall t :: t in UnspentTxsOnce(txs, spent, pubKeyHash) ==> t in txs
    ensures DistinctTxIds(txs) ==> DistinctTxIds(UnspentTxsOnce(txs, spent, pubKeyHash))
  {
    UnspentTxsMembers(txs, spent, pubKeyHash);
    if |txs| > 0 {
      UnspentTxsOnceSpec(txs[1..], spent, pubKeyHash);
      UnspentTxsMembers(txs[1..], spent, pubKeyHash);
      UnspentHitsMembers(txs[0], spent, pubKeyHash, 0);
      var rest := UnspentTxsOnce(txs[1..], spent, pubKeyHash);
      var r := UnspentTxsOnce(txs, spent, pubKeyHash);
      forall t ensures t in r <==> t in UnspentTxs(txs, spent, pubKeyHash) {
        if t == txs[0] && t !in rest {
          assert t in r <==> exists j :: OwnedUnspent(t, spent, pubKeyHash, j) by {
            if exists j :: OwnedUnspent(t, spent, pubKeyHash, j) {
              var j :| OwnedUnspent(t, spent, pubKeyHash, j);
              assert 0 <= j;
            }
          }
        }
        if t in txs[1..] {
          assert t in txs;
        }
      }
      if DistinctTxIds(txs) {
        assert DistinctTxIds(txs[1..]) by {
          forall i, j | 0 <= i < j < |txs| - 1 ensures txs[1..][i].id != txs[1..][j].id {
            assert txs[1..][i] == txs[i + 1] && txs[1..][j] == txs[j + 1];
          }
        }
        forall t | t in rest ensures t.id != txs[0].id {
          var j :| 0 <= j < |txs[1..]| && txs[1..][j] == t;
          assert txs[j + 1] == t;
        }
        forall i, j | 0 <= i < j < |r| ensures r[i].id != r[j].id {
          if r != rest {
            assert r == [txs[0]] + rest;
            if i == 0 {
              assert r[j] == rest[j - 1] && r[j] in rest;
            } else {
              assert r[i] == rest[i - 1] && r[j] == rest[j - 1];
            }
          }
        }
      }
    }
  }

  /** What a selection scan over the listed transactions `txs` records, when
      their ids are distinct: every transaction with outputs gets the indices
      its inner loop visits, `[0, 1, …, m-1]` up to the exit point fixed by the
      total gathered before it, and `[0]` alone once the amount was reached;
      no other id is recorded. */
  ghost predicate RecordsListing(pubKeyHash: Bytes, amount: int32, txs: seq<Transaction>, r: SpendableOutputs) {
    && (forall id :: id in r.unspentOutputs ==> exists i :: 0 <= i < |txs| && txs[i].id == id)
    && forall i :: 0 <= i < |txs| && |txs[i].outputs| > 0 ==>
         var before := ScanEntries(pubKeyHash, amount, LiteralArray, TxEntries(txs)[..i], EMPTY_SELECTION).accumulated;
         && RecordsVisitedPrefix(r.unspentOutputs, txs[i].id, pubKeyHash, amount, txs[i].outputs, before, LiteralArray)
         && (before >= amount ==> r.unspentOutputs[txs[i].id] == [0])
  }

  lemma ListedSelectionRecords(pubKeyHash: Bytes, amount: int32, txs: seq<Transaction>)
    requires DistinctTxIds(txs)
    ensures RecordsListing(pubKeyHash, amount, txs, ScanEntries(pubKeyHash, amount, LiteralArray, TxEntries(txs), EMPTY_SELECTION))
  {
    var entries := TxEntries(txs);
    assert FreshDistinctIds(entries, EMPTY_SELECTION.unspentOutputs);
    ScanEntriesFrame(pubKeyHash, amount, LiteralArray, entries, EMPTY_SELECTION);
    ScanEntriesRecords(pubKeyHash, amount, LiteralArray, entries, EMPTY_SELECTION);
  }

  /** `findSpendableOutputs` as written, whenever the listing it scans names
      each transaction once (no transaction has two unspent outputs locked to
      the payer): each listed transaction's visited indices are recorded. */
  lemma ChainSelectionRecords(chain: Chain, pubKeyHash: Bytes, amount: int32)
    requires DistinctTxIds(FindUnspentTransactions(chain, pubKeyHash))
    ensures RecordsListing(pubKeyHash, amount, FindUnspentTransactions(chain, pubKeyHash),
                           FindSpendableOutputs(chain, pubKeyHash, amount))
  {
    ListedSelectionRecords(pubKeyHash, amount, FindUnspentTransactions(chain, pubKeyHash));
  }

  /** The intended `findSpendableOutputs`: the same scan over each listed
      transaction once. */
  function FindSpendableOutputsIntended(chain: Chain, pubKeyHash: Bytes, amount: int32): SpendableOutputs {
    var listing := UnspentTxsOnce(ChainTxs(chain), GetAllSpentTransactionInputs(chain, pubKeyHash), pubKeyHash);
    ScanEntries(pubKeyHash, amount, LiteralArray, TxEntries(listing), EMPTY_SELECTION)
  }

  /** On a chain whose transactions have distinct ids, the intended selection
      scans exactly the transactions `findUnspentTransactions` lists, each
      once, and records each one's visited indices once. */
  lemma IntendedSelectionRecords(chain: Chain, pubKeyHash: Bytes, amount: int32)
    requires DistinctTxIds(ChainTxs(chain))
    ensures var spent := GetAllSpentTransactionInputs(chain, pubKeyHash);
      var listing := UnspentTxsOnce(ChainTxs(chain), spent, pubKeyHash);
      && (forall t :: t in listing <==> t in FindUnspentTransactions(chain, pubKeyHash))
      && DistinctTxIds(listing)
      && RecordsListing(pubKeyHash, amount, listing, FindSpendableOutputsIntended(chain, pubKeyHash, amount))
  {
    var spent := GetAllSpentTransactionInputs(chain, pubKeyHash);
    UnspentTxsOnceSpec(ChainTxs(chain), spent, pubKeyHash);
    ListedSelectionRecords(pubKeyHash, amount, UnspentTxsOnce(ChainTxs(chain), spent, pubKeyHash));
  }
}

=== FILE: common.dfy ===
/** Shared vocabulary: bytes, Java's 32-bit `int`, failure-carrying results and
    a few sequence helpers used by every other module. */
module Common {

  type byte = b: int | 0 <= b < 0x100
  type Bytes = seq<byte>

  const INT_MIN: int := -0x8000_0000
  const INT_MAX: int := 0x7fff_ffff
  const LONG_MAX: int := 0x7fff_ffff_ffff_ffff

  /** A Java `int`. */
  type int32 = x: int | -0x8000_0000 <= x <= 0x7fff_ffff

  /** Two's-complement wrap-around of Java `int` arithmetic. */
  function Wrap32(x: int): (r: int32)
    ensures INT_MIN <= x <= INT_MAX ==> r == x
    ensures (r - x) % 0x1_0000_0000 == 0
  {
    (x + 0x8000_0000) % 0x1_0000_0000 - 0x8000_0000
  }

  /** Java `a + b` on `int`. */
  function Add32(a: int32, b: int32): int32 {
    Wrap32(a + b)
  }

  /** Java `a - b` on `int`. */
  function Sub32(a: int32, b: int32): int32 {
    Wrap32(a - b)
  }

  /** Two Java ints that agree modulo 2^32 are the same int. */
  lemma Wrap32Unique(y: int, b: int32)
    requires (y - b) % 0x1_0000_0000 == 0
    ensures Wrap32(y) == b
  {
    var w := Wrap32(y);
    assert (w - b) % 0x1_0000_0000 == 0 by {
      var k1 := (w - y) / 0x1_0000_0000;
      var k2 := (y - b) / 0x1_0000_0000;
      assert w - b == (k1 + k2) * 0x1_0000_0000;
    }
  }

  /** Subtracting and adding back the same int is the identity in 32-bit
      arithmetic, whatever wrap-around happens on the way. */
  lemma {:induction false} AddSubCancel(a: int32, b: int32)
    ensures Add32(a, Sub32(b, a)) == b
  {
    var d := Sub32(b, a);
    assert (d - (b - a)) % 0x1_0000_0000 == 0;
    assert ((a + d) - b) % 0x1_0000_0000 == 0 by {
      assert (a + d) - b == d - (b - a);
    }
    Wrap32Unique(a + d, b);
  }

  datatype Option<+T> = None | Some(value: T) {
    function GetOr(default: T): T {
      match this
      case Some(v) => v
      case None => default
    }
  }

  /** The outcome of an operation that may throw in the source; `Err`
      carries the exception's message. */
  datatype Result<+T> = Ok(value: T) | Err(msg: string) {
    predicate IsFailure() {
      Err?
    }

    function PropagateFailure<U>(): Result<U>
      requires Err?
    {
      Err(msg)
    }

    function Extract(): T
      requires Ok?
    {
      value
    }
  }

  /** Java's `Character.isWhitespace`: the ASCII controls tab to carriage
      return and the four separators U+001C to U+001F, and every Unicode
      space, line or paragraph separator except the non-breaking ones
      (U+00A0, U+2007, U+202F). */
  predicate IsWhitespace(c: char) {
    || ('\t' <= c <= '\r')
    || ('\U{1C}' <= c <= '\U{1F}')
    || c == ' '
    || c == '\U{1680}'
    || ('\U{2000}' <= c <= '\U{2006}')
    || ('\U{2008}' <= c <= '\U{200A}')
    || c == '\U{2028}' || c == '\U{2029}'
    || c == '\U{205F}'
    || c == '\U{3000}'
  }

  /** `StringUtils.isBlank`: empty or whitespace only. */
  predicate IsBlank(s: string) {
    forall i :: 0 <= i < |s| ==> IsWhitespace(s[i])
  }

  /** `order` lists every key of `keys` exactly once: the iteration order of a
      Java `HashMap`, which the source leaves unspecified. */
  ghost predicate IsEnumeration<K(!new)>(order: seq<K>, keys: set<K>) {
    && (forall k :: k in order <==> k in keys)
    && (forall i, j :: 0 <= i < j < |order| ==> order[i] != order[j])
  }

  /** Java `new int[n]`: `n` zeros. */
  function Zeros(n: nat): (r: seq<int>)
    ensures |r| == n
    ensures forall i :: 0 <= i < n ==> r[i] == 0
  {
    seq(n, _ => 0)
  }

  /** The integers `lo, lo + 1, …, hi - 1`. */
  function Range(lo: int, hi: int): (r: seq<int>)
    requires lo <= hi
    ensures |r| == hi - lo
    ensures forall i :: 0 <= i < |r| ==> r[i] == lo + i
  {
    seq(hi - lo, i => lo + i)
  }

  function Flatten<T>(xss: seq<seq<T>>): seq<T> {
    if |xss| == 0 then [] else xss[0] + Flatten(xss[1..])
  }

  function Repeat<T>(x: T, n: nat): (r: seq<T>)
    ensures |r| == n
    ensures forall i :: 0 <= i < n ==> r[i] == x
  {
    seq(n, _ => x)
  }

  function Reverse<T>(s: seq<T>): (r: seq<T>)
    ensures |r| == |s|
    ensures forall i :: 0 <= i < |s| ==> r[i] == s[|s| - 1 - i]
  {
    if |s| == 0 then [] else Reverse(s[1..]) + [s[0]]
  }
}

=== FILE: legacy_chain.dfy ===
/** The older in-memory chain of package `me.light.core`: blocks carrying a
    data text, hashed once at creation, kept in a list linked by previous
    hash. */
module LegacyBlockchain {
  import opened Common
  import opened Types

  /** `me.light.core.Block`. */
  datatype LegacyBlock = LegacyBlock(hash: string, previousHash: string, data: string, timeStamp: int)

  /** The header `setHash` hashes: previous-hash bytes, data bytes and
      timestamp bytes. */
  function HeaderBytes(p: Primitives, block: LegacyBlock): Bytes {
    PrevHashBytes(p, block.previousHash) + p.stringToBytes(block.data) + p.longToBytes(block.timeStamp)
  }

  /** `setHash`: stores the hex SHA-256 of the header. */
  function SetHash(p: Primitives, block: LegacyBlock): (r: LegacyBlock)
    ensures r.previousHash == block.previousHash && r.data == block.data && r.timeStamp == block.timeStamp
  {
    block.(hash := p.sha256Hex(HeaderBytes(p, block)))
  }

  /** `newBlock`: the placeholder block stamped `now`, then hashed. */
  function NewBlock(p: Primitives, previousHash: string, data: string, now: int): (r: LegacyBlock)
    ensures r.previousHash == previousHash && r.data == data && r.timeStamp == now
  {
    SetHash(p, LegacyBlock(ZERO_HASH, previousHash, data, now))
  }

  /** The hash of a new block is computed from its other fields alone, so
      the placeholder never survives; a blank previous hash adds no header
      bytes. */
  lemma NewBlockHash(p: Primitives, previousHash: string, data: string, now: int, stored: string)
    ensures var b := NewBlock(p, previousHash, data, now);
      && b.hash == SetHash(p, b.(hash := stored)).hash
      && b.hash == p.sha256Hex(PrevHashBytes(p, previousHash) + p.stringToBytes(data) + p.longToBytes(now))
      && (IsBlank(previousHash) ==> b.hash == p.sha256Hex(p.stringToBytes(data) + p.longToBytes(now)))
  {
    assert [] + p.stringToBytes(data) == p.stringToBytes(data);
  }

  /** `Blockchain.blockchain`: the block list, oldest first. */
  type LegacyChain = seq<LegacyBlock>

  /** `newBlockChain`: a list holding only the genesis block, which is given
      because the `Block.newGenesisBlock` it calls is not defined in the
      legacy `Block` class. */
  function NewBlockChain(genesis: LegacyBlock): (r: LegacyChain)
    ensures |r| == 1 && r[0] == genesis
  {
    [genesis]
  }

  /** `addBlock(block)`: appends. */
  function AddBlock(chain: LegacyChain, block: LegacyBlock): LegacyChain {
    chain + [block]
  }

  /** What `List.get(-1)` throws on an empty list. */
  const INDEX_OUT_OF_BOUNDS: string := "IndexOutOfBoundsException"

  /** `addBlock(data)`: a new block over the last block's hash, appended. */
  function AddBlockData(p: Primitives, chain: LegacyChain, data: string, now: int): Result<LegacyChain> {
    if |chain| == 0 then Err(INDEX_OUT_OF_BOUNDS)
    else Ok(AddBlock(chain, NewBlock(p, chain[|chain| - 1].hash, data, now)))
  }

  /** Each block after the first names its predecessor's hash. */
  predicate Linked(chain: LegacyChain) {
    forall i :: 1 <= i < |chain| ==> chain[i].previousHash == chain[i - 1].hash
  }

  /** Appending keeps every earlier block and grows the list by one; the
      result is linked exactly when the list was and the new block names the
      last hash. */
  lemma AddBlockAppends(chain: LegacyChain, block: LegacyBlock)
    ensures var r := AddBlock(chain, block);
      && |r| == |chain| + 1 && r[..|chain|] == chain && r[|chain|] == block
      && (Linked(r) <==> Linked(chain) && (|chain| == 0 || block.previousHash == chain[|chain| - 1].hash))
  {
    var r := AddBlock(chain, block);
    if Linked(r) {
      forall i | 1 <= i < |chain| ensures chain[i].previousHash == chain[i - 1].hash {
        assert r[i] == chain[i] && r[i - 1] == chain[i - 1];
      }
      if |chain| > 0 {
        assert r[|chain|].previousHash == r[|chain| - 1].hash;
      }
    }
  }

  /** Adding data to a non-empty list appends a block over the last hash
      before the call; it fails only on an empty list. */
  lemma AddBlockDataLinks(p: Primitives, chain: LegacyChain, data: string, now: int)
    ensures AddBlockData(p, chain, data, now).Err? <==> |chain| == 0
    ensures AddBlockData(p, chain, data, now).Ok? ==>
      var r := AddBlockData(p, chain, data, now).value;
      && |r| == |chain| + 1 && r[..|chain|] == chain
      && r[|chain|].previousHash == chain[|chain| - 1].hash && r[|chain|].data == data
      && (Linked(chain) ==> Linked(r))
  {
    if |chain| > 0 {
      AddBlockAppends(chain, NewBlock(p, chain[|chain| - 1].hash, data, now));
    }
  }

  /** A chain grown from `newBlockChain` by `addBlock(data)` calls, one per
      (data, time) pair. */
  function Build(p: Primitives, genesis: LegacyBlock, adds: seq<(string, int)>): LegacyChain
    decreases |adds|
  {
    if |adds| == 0 then NewBlockChain(genesis)
    else
      var prefix := Build(p, genesis, adds[..|adds| - 1]);
      var last := adds[|adds| - 1];
      AddBlock(prefix, NewBlock(p, prefix[|prefix| - 1].hash, last.0, last.1))
  }

  /** Such a chain has one block per call after the genesis block, carries
      the data in call order, and is linked. */
  lemma {:induction false} BuildKeepsLinks(p: Primitives, genesis: LegacyBlock, adds: seq<(string, int)>)
    ensures var r := Build(p, genesis, adds);
      && |r| == |adds| + 1 && r[0] == genesis
      && (forall i :: 0 <= i < |adds| ==> r[i + 1].data == adds[i].0 && r[i + 1].timeStamp == adds[i].1)
      && Linked(r)
    decreases |adds|
  {
    if |adds| > 0 {
      var init := adds[..|adds| - 1];
      BuildKeepsLinks(p, genesis, init);
      var prefix := Build(p, genesis, init);
      var last := adds[|adds| - 1];
      var block := NewBlock(p, prefix[|prefix| - 1].hash, last.0, last.1);
      AddBlockAppends(prefix, block);
      var r := Build(p, genesis, adds);
      forall i | 0 <= i < |adds| ensures r[i + 1].data == adds[i].0 && r[i + 1].timeStamp == adds[i].1 {
        if i < |adds| - 1 {
          assert r[i + 1] == prefix[i + 1] && adds[i] == init[i];
        }
      }
    }
  }
}

=== FILE: merkle_tree.dfy ===
/** `MerkleTree`: tree nodes, the parent of two children, the pairing of
    leaf hashes into the bottom level, and the constructor, which keeps the
    leaf hashes and never builds a root. */
module MerkleTree {
  import opened Common
  import opened Types

  /** `MerkleTree.Node`: a hash and optional children. */
  datatype Node = Node(hash: Bytes, left: Option<Node>, right: Option<Node>)

  /** A tree as the constructor leaves it: the root, and the leaf hashes. */
  datatype Tree = Tree(root: Option<Node>, leafHashes: seq<Bytes>)

  /** `constructLeafNode`: a childless node carrying `hash`. */
  function ConstructLeafNode(hash: Bytes): Node {
    Node(hash, None, None)
  }

  /** `internalHash`: SHA-256 over the two child hashes, left first. */
  function InternalHash(p: Primitives, leftHash: Bytes, rightHash: Bytes): Bytes {
    p.sha256(leftHash + rightHash)
  }

  /** `constructInternalNode`: a parent of `left` and `right`. */
  function ConstructInternalNode(p: Primitives, left: Node, right: Option<Node>): Node {
    Node(if right.None? then left.hash else InternalHash(p, left.hash, right.value.hash), Some(left), right)
  }

  /** The parent `bottomLevel` builds over the leaf hashes `h1` and `h2`. */
  predicate IsLeafParent(p: Primitives, parent: Node, h1: Bytes, h2: Bytes) {
    && parent.hash == p.sha256(h1 + h2)
    && parent.left == Some(Node(h1, None, None))
    && parent.right == Some(Node(h2, None, None))
  }

  /** A parent keeps its children, hashes the two child hashes in order when
      it has a right child, and otherwise carries its left child's hash. */
  lemma InternalNodeHash(p: Primitives, left: Node, right: Option<Node>)
    ensures var parent := ConstructInternalNode(p, left, right);
      && parent.left == Some(left) && parent.right == right
      && (right.None? ==> parent.hash == left.hash)
      && (right.Some? ==> parent.hash == p.sha256(left.hash + right.value.hash))
  {
  }

  /** `bottomLevel`: pairs the hashes in order; with an odd count, the last
      hash is paired with itself. */
  method BottomLevel(p: Primitives, hashes: seq<Bytes>) returns (parents: seq<Node>)
    ensures |parents| == (|hashes| + 1) / 2
    ensures forall k :: 0 <= k < |hashes| / 2 ==> IsLeafParent(p, parents[k], hashes[2 * k], hashes[2 * k + 1])
    ensures |hashes| % 2 != 0 ==>
      IsLeafParent(p, parents[|hashes| / 2], hashes[|hashes| - 1], hashes[|hashes| - 1])
  {
    parents := [];
    var i := 0;
    while i < |hashes| - 1
      invariant 0 <= i <= |hashes| && i % 2 == 0
      invariant |parents| == i / 2
      invariant forall k :: 0 <= k < i / 2 ==> IsLeafParent(p, parents[k], hashes[2 * k], hashes[2 * k + 1])
      decreases |hashes| - i
    {
      var leaf1 := ConstructLeafNode(hashes[i]);
      var leaf2 := ConstructLeafNode(hashes[i + 1]);
      var parent := ConstructInternalNode(p, leaf1, Some(leaf2));
      parents := parents + [parent];
      i := i + 2;
    }
    if |hashes| % 2 != 0 {
      var leaf := ConstructLeafNode(hashes[|hashes| - 1]);
      var parent := ConstructInternalNode(p, leaf, Some(leaf));
      parents := parents + [parent];
    }
  }

  /** What the constructor throws for invalid leaf hashes. */
  const INVALID_LEAVES: string := "ERROR:Fail to construct merkle tree ! leafHashes data invalid ! "

  /** What dereferencing a null array throws. */
  const NULL_POINTER: string := "NullPointerException"

  /** The constructor, `constructTree` as written: its guard joins "null"
      and "empty" with `&&`, so a null array is dereferenced and an empty
      one is accepted. `None` stands for a null array. */
  function ConstructTree(leafHashes: Option<seq<Bytes>>): (r: Result<Tree>)
    ensures r.Err? <==> leafHashes.None?
    ensures r.Ok? ==> r.value.root.None? && r.value.leafHashes == leafHashes.value
  {
    if leafHashes.None? then Err(NULL_POINTER)
    else Ok(Tree(None, leafHashes.value))
  }

  /** The guard as evidently intended, "null or empty": rejects exactly the
      missing and the empty array. */
  function ConstructTreeChecked(leafHashes: Option<seq<Bytes>>): (r: Result<Tree>)
    ensures r.Err? <==> leafHashes.None? || |leafHashes.value| == 0
    ensures r.Err? ==> r.msg == INVALID_LEAVES
    ensures r.Ok? ==> r.value.root.None? && r.value.leafHashes == leafHashes.value
  {
    if leafHashes.None? || |leafHashes.value| == 0 then Err(INVALID_LEAVES)
    else Ok(Tree(None, leafHashes.value))
  }

  /** Where the two guards part: the empty array is accepted as written and
      rejected as intended, a null array fails both ways with different
      errors, and any other array is accepted by both alike. */
  lemma GuardAcceptsEmptyLeaves(leafHashes: Option<seq<Bytes>>)
    ensures ConstructTree(Some([])).Ok? && ConstructTreeChecked(Some([])).Err?
    ensures ConstructTree(None) == Err(NULL_POINTER) && ConstructTreeChecked(None) == Err(INVALID_LEAVES)
    ensures leafHashes.Some? && |leafHashes.value| > 0 ==> ConstructTree(leafHashes) == ConstructTreeChecked(leafHashes)
  {
  }
}

=== FILE: proof_of_work.dfy ===
/** `ProofOfWork`: the block header bytes, the "first nonce whose header hash
    is below the target" search, and revalidation of a stored nonce. */
module ProofOfWork {
  import opened Common
  import opened Types

  /** The difficulty: the number of leading zero bits asked of a header hash. */
  const TARGET_BITS: int := 20

  function Pow2(n: nat): (r: nat)
    ensures r >= 1
  {
    if n == 0 then 1 else 2 * Pow2(n - 1)
  }

  /** `1 << (256 - TARGET_BITS)`. */
  const TARGET: nat := Pow2(256 - TARGET_BITS)

  /** `prepare(nonce)`: previous-hash bytes, the transaction commitment, the
      timestamp, the difficulty and the nonce, concatenated. */
  function Prepare(p: Primitives, block: Block, nonce: int): Bytes {
    PrevHashBytes(p, block.previousHash)
    + HashTransaction(p, block.transactions)
    + p.longToBytes(block.timeStamp)
    + p.longToBytes(TARGET_BITS)
    + p.longToBytes(nonce)
  }

  /** The header is made of the fields the miner cannot choose and the nonce:
      it reads neither the block's `hash` nor its stored `nonce`, and a blank
      previous hash contributes no bytes. */
  lemma PrepareReadsHeaderFieldsOnly(p: Primitives, block: Block, hash: string, storedNonce: int, nonce: int)
    ensures Prepare(p, block.(hash := hash, nonce := storedNonce), nonce) == Prepare(p, block, nonce)
    ensures IsBlank(block.previousHash) ==>
      Prepare(p, block, nonce) == HashTransaction(p, block.transactions) + p.longToBytes(block.timeStamp)
                                  + p.longToBytes(TARGET_BITS) + p.longToBytes(nonce)
  {
  }

  /** The hash of `data`, read as an integer, is strictly below the target. */
  predicate BelowTarget(p: Primitives, data: Bytes) {
    p.hexToInteger(p.sha256Hex(data)) < TARGET
  }

  /** `nonce` solves the puzzle for `block`. */
  predicate Solves(p: Primitives, block: Block, nonce: int) {
    BelowTarget(p, Prepare(p, block, nonce))
  }

  /** `PowResult`: the nonce reached and the last header hash computed. */
  datatype PowResult = PowResult(nonce: int, hash: string)

  /** `run`: tries nonces 0, 1, … below `Long.MAX_VALUE` and stops at the first
      that solves the puzzle. */
  method Run(p: Primitives, block: Block) returns (r: PowResult)
    ensures 0 <= r.nonce <= LONG_MAX
    ensures forall n :: 0 <= n < r.nonce ==> !Solves(p, block, n)
    ensures r.nonce < LONG_MAX ==> Solves(p, block, r.nonce) && r.hash == p.sha256Hex(Prepare(p, block, r.nonce))
    ensures r.nonce == LONG_MAX ==> r.hash == p.sha256Hex(Prepare(p, block, LONG_MAX - 1))
  {
    var nonce := 0;
    var shaHex := "";
    while nonce < LONG_MAX
      invariant 0 <= nonce <= LONG_MAX
      invariant forall n :: 0 <= n < nonce ==> !Solves(p, block, n)
      invariant nonce > 0 ==> shaHex == p.sha256Hex(Prepare(p, block, nonce - 1))
      decreases LONG_MAX - nonce
    {
      var data := Prepare(p, block, nonce);
      shaHex := p.sha256Hex(data);
      if p.hexToInteger(shaHex) < TARGET {
        break;
      } else {
        nonce := nonce + 1;
      }
    }
    r := PowResult(nonce, shaHex);
  }

  /** `validate`: the stored nonce solves the puzzle. */
  predicate Validate(p: Primitives, block: Block) {
    Solves(p, block, block.nonce)
  }

  /** Revalidation accepts any block that stores a nonce solving its own
      header, whatever hash text it stores. */
  lemma ValidateAfterStoringSolution(p: Primitives, block: Block, hash: string, nonce: int)
    requires Solves(p, block, nonce)
    ensures Validate(p, block.(hash := hash, nonce := nonce))
  {
    PrepareReadsHeaderFieldsOnly(p, block, hash, nonce, nonce);
  }
}

=== FILE: selection.dfy ===
/** The spend-selection scan shared by `Blockchain.findSpendableOutputs` and
    `UTXOSet.findSpendableOutputs`: walk (id, outputs) entries, add the value
    of each output locked to the payer while the running total is below the
    amount, record every visited output index, and leave an entry's output
    loop as soon as the total reaches the amount. */
module Selection {
  import opened Common
  import opened Types

  /** How the first index recorded for an id becomes an array:
      `new int[index]` in `UTXOSet`, `new int[]{index}` in `Blockchain`. */
  datatype ArrayInit = SizedArray | LiteralArray

  /** The array the first recorded index `index` of an id turns into. */
  function FirstIndices(init: ArrayInit, index: int): seq<int>
    requires init == SizedArray ==> index >= 0
  {
    match init
    case SizedArray => Zeros(index)
    case LiteralArray => [index]
  }

  /** Records output index `index` of transaction `id`: appended when the id
      already has an array, otherwise the first array of `init`. */
  function Record(m: map<Bytes, seq<int>>, id: Bytes, index: nat, init: ArrayInit): map<Bytes, seq<int>> {
    if id in m then m[id := m[id] + [index]] else m[id := FirstIndices(init, index)]
  }

  /** One output's effect on the running total: its value is added, with
      Java `int` wrap-around, when it is locked to the payer and the total is
      still below the amount. */
  function Step(pubKeyHash: Bytes, amount: int32, acc: int32, o: TxOutput): int32 {
    if IsLockedWithKey(o, pubKeyHash) && acc < amount then Add32(acc, o.value) else acc
  }

  /** The inner loop over `outs` from index `i`, for the entry of id `id`. */
  function ScanOutputs(pubKeyHash: Bytes, amount: int32, init: ArrayInit, id: Bytes, outs: seq<TxOutput>, i: nat,
                       s: SpendableOutputs): SpendableOutputs
    requires i <= |outs|
    decreases |outs| - i
  {
    if i == |outs| then s
    else
      var acc := Step(pubKeyHash, amount, s.accumulated, outs[i]);
      var s' := SpendableOutputs(acc, Record(s.unspentOutputs, id, i, init));
      if acc >= amount then s' else ScanOutputs(pubKeyHash, amount, init, id, outs, i + 1, s')
  }

  /** The outer loop over the entries, in iteration order. */
  function ScanEntries(pubKeyHash: Bytes, amount: int32, init: ArrayInit, entries: seq<(Bytes, seq<TxOutput>)>,
                       s: SpendableOutputs): SpendableOutputs
  {
    if |entries| == 0 then s
    else ScanEntries(pubKeyHash, amount, init, entries[1..],
                     ScanOutputs(pubKeyHash, amount, init, entries[0].0, entries[0].1, 0, s))
  }

  /** The selection both sources start from: nothing gathered, nothing recorded. */
  const EMPTY_SELECTION: SpendableOutputs := SpendableOutputs(0, map[])

  /** The total value, as an unbounded integer, of the outputs of `outs` from
      index `i` on that are locked to `pubKeyHash`. */
  function LockedFrom(outs: seq<TxOutput>, pubKeyHash: Bytes, i: nat): int
    requires i <= |outs|
    decreases |outs| - i
  {
    if i == |outs| then 0
    else (if IsLockedWithKey(outs[i], pubKeyHash) then outs[i].value as int else 0) + LockedFrom(outs, pubKeyHash, i + 1)
  }

  /** The total locked value over all entries. */
  function EntriesLocked(entries: seq<(Bytes, seq<TxOutput>)>, pubKeyHash: Bytes): int {
    if |entries| == 0 then 0 else LockedFrom(entries[0].1, pubKeyHash, 0) + EntriesLocked(entries[1..], pubKeyHash)
  }

  predicate NonNegativeValues(outs: seq<TxOutput>) {
    forall i :: 0 <= i < |outs| ==> 0 <= outs[i].value
  }

  predicate EntriesNonNegative(entries: seq<(Bytes, seq<TxOutput>)>) {
    forall i :: 0 <= i < |entries| ==> NonNegativeValues(entries[i].1)
  }

  lemma {:induction false} LockedFromBounds(outs: seq<TxOutput>, pubKeyHash: Bytes, i: nat)
    requires i <= |outs| && NonNegativeValues(outs)
    ensures 0 <= LockedFrom(outs, pubKeyHash, i)
    decreases |outs| - i
  {
    if i < |outs| {
      LockedFromBounds(outs, pubKeyHash, i + 1);
    }
  }

  lemma {:induction false} EntriesLockedBounds(entries: seq<(Bytes, seq<TxOutput>)>, pubKeyHash: Bytes)
    requires EntriesNonNegative(entries)
    ensures 0 <= EntriesLocked(entries, pubKeyHash)
  {
    if |entries| > 0 {
      LockedFromBounds(entries[0].1, pubKeyHash, 0);
      EntriesLockedBounds(entries[1..], pubKeyHash);
    }
  }

  /** Once the amount is reached, the inner loop adds nothing more. */
  lemma {:induction false} ScanOutputsStopsGrowing(pubKeyHash: Bytes, amount: int32, init: ArrayInit, id: Bytes,
                                                   outs: seq<TxOutput>, i: nat, s: SpendableOutputs)
    requires i <= |outs| && s.accumulated >= amount
    ensures ScanOutputs(pubKeyHash, amount, init, id, outs, i, s).accumulated == s.accumulated
  {
  }

  /** Once the amount is reached, no later entry adds anything: the total
      stays where it was when it first reached the amount. */
  lemma {:induction false} ScanEntriesStopsGrowing(pubKeyHash: Bytes, amount: int32, init: ArrayInit,
                                                   entries: seq<(Bytes, seq<TxOutput>)>, s: SpendableOutputs)
    requires s.accumulated >= amount
    ensures ScanEntries(pubKeyHash, amount, init, entries, s).accumulated == s.accumulated
  {
    if |entries| > 0 {
      var s1 := ScanOutputs(pubKeyHash, amount, init, entries[0].0, entries[0].1, 0, s);
      ScanOutputsStopsGrowing(pubKeyHash, amount, init, entries[0].0, entries[0].1, 0, s);
      ScanEntriesStopsGrowing(pubKeyHash, amount, init, entries[1..], s1);
    }
  }

  /** With non-negative values and no overflow, the inner loop either gathers
      every locked value from index `i` on or stops with the amount reached. */
  lemma {:induction false} ScanOutputsGathers(pubKeyHash: Bytes, amount: int32, init: ArrayInit, id: Bytes,
                                              outs: seq<TxOutput>, i: nat, s: SpendableOutputs)
    requires i <= |outs| && NonNegativeValues(outs) && 0 <= s.accumulated
    requires s.accumulated + LockedFrom(outs, pubKeyHash, i) <= INT_MAX
    ensures var r := ScanOutputs(pubKeyHash, amount, init, id, outs, i, s);
      && s.accumulated <= r.accumulated <= s.accumulated + LockedFrom(outs, pubKeyHash, i)
      && (r.accumulated == s.accumulated + LockedFrom(outs, pubKeyHash, i) || r.accumulated >= amount)
    decreases |outs| - i
  {
    if i < |outs| {
      LockedFromBounds(outs, pubKeyHash, i + 1);
      var acc := Step(pubKeyHash, amount, s.accumulated, outs[i]);
      var s' := SpendableOutputs(acc, Record(s.unspentOutputs, id, i, init));
      if acc < amount {
        ScanOutputsGathers(pubKeyHash, amount, init, id, outs, i + 1, s');
      }
    }
  }

  /** The same over every entry. */
  lemma {:induction false} ScanEntriesGathers(pubKeyHash: Bytes, amount: int32, init: ArrayInit,
                                              entries: seq<(Bytes, seq<TxOutput>)>, s: SpendableOutputs)
    requires EntriesNonNegative(entries) && 0 <= s.accumulated
    requires s.accumulated + EntriesLocked(entries, pubKeyHash) <= INT_MAX
    ensures var r := ScanEntries(pubKeyHash, amount, init, entries, s);
      && s.accumulated <= r.accumulated <= s.accumulated + EntriesLocked(entries, pubKeyHash)
      && (r.accumulated == s.accumulated + EntriesLocked(entries, pubKeyHash) || r.accumulated >= amount)
  {
    if |entries| > 0 {
      LockedFromBounds(entries[0].1, pubKeyHash, 0);
      EntriesLockedBounds(entries[1..], pubKeyHash);
      var s1 := ScanOutputs(pubKeyHash, amount, init, entries[0].0, entries[0].1, 0, s);
      ScanOutputsGathers(pubKeyHash, amount, init, entries[0].0, entries[0].1, 0, s);
      if s1.accumulated >= amount {
        ScanEntriesStopsGrowing(pubKeyHash, amount, init, entries[1..], s1);
      } else {
        ScanEntriesGathers(pubKeyHash, amount, init, entries[1..], s1);
      }
    }
  }

  /** Starting from nothing, the selection reaches the amount whenever the
      locked total does, and otherwise gathers exactly the locked total. */
  lemma SelectionReachesAmount(pubKeyHash: Bytes, amount: int32, init: ArrayInit, entries: seq<(Bytes, seq<TxOutput>)>)
    requires EntriesNonNegative(entries) && EntriesLocked(entries, pubKeyHash) <= INT_MAX
    ensures var r := ScanEntries(pubKeyHash, amount, init, entries, EMPTY_SELECTION);
      && (EntriesLocked(entries, pubKeyHash) >= amount ==> r.accumulated >= amount)
      && (EntriesLocked(entries, pubKeyHash) < amount ==> r.accumulated == EntriesLocked(entries, pubKeyHash))
  {
    ScanEntriesGathers(pubKeyHash, amount, init, entries, EMPTY_SELECTION);
  }

  /** The running total over the outputs at indices `i` to `j - 1`,
      starting from `acc`, as if the loop never left early. */
  function Running(pubKeyHash: Bytes, amount: int32, acc: int32, outs: seq<TxOutput>, i: nat, j: nat): int32
    requires i <= j <= |outs|
    decreases j - i
  {
    if i == j then acc else Running(pubKeyHash, amount, Step(pubKeyHash, amount, acc, outs[i]), outs, i + 1, j)
  }

  /** `m` is the number of outputs the inner loop visits when it enters at
      index `i` with total `acc`: the first `m > i` at which the running
      total has reached the amount, or every output when it never does. */
  predicate ExitsAt(pubKeyHash: Bytes, amount: int32, outs: seq<TxOutput>, acc: int32, i: nat, m: int) {
    && i <= m <= |outs|
    && (i < |outs| ==> i < m)
    && (m == |outs| || Running(pubKeyHash, amount, acc, outs, i, m) >= amount)
    && forall j :: i < j < m ==> Running(pubKeyHash, amount, acc, outs, i, j) < amount
  }

  /** The exit point is unique. */
  lemma ExitsAtUnique(pubKeyHash: Bytes, amount: int32, outs: seq<TxOutput>, acc: int32, i: nat, m1: int, m2: int)
    requires ExitsAt(pubKeyHash, amount, outs, acc, i, m1) && ExitsAt(pubKeyHash, amount, outs, acc, i, m2)
    ensures m1 == m2
  {
  }

  /** Entered with the amount already reached, the loop visits one output. */
  lemma ExitsAtOnceReached(pubKeyHash: Bytes, amount: int32, outs: seq<TxOutput>, acc: int32, m: int)
    requires |outs| > 0 && acc >= amount && ExitsAt(pubKeyHash, amount, outs, acc, 0, m)
    ensures m == 1
  {
    assert Running(pubKeyHash, amount, acc, outs, 0, 1) == acc;
  }

  /** From index `i >= 1` on, the inner loop extends the id's array
      `first ++ [1, …, i-1]` to `first ++ [1, …, m-1]`, where `m` is the exit
      point of the loop entered at `i`, touching nothing else. */
  lemma {:induction false} ScanOutputsExtendsRecord(pubKeyHash: Bytes, amount: int32, init: ArrayInit, id: Bytes,
                                                    outs: seq<TxOutput>, i: nat, s: SpendableOutputs)
    requires 1 <= i <= |outs|
    requires id in s.unspentOutputs && s.unspentOutputs[id] == FirstIndices(init, 0) + Range(1, i)
    ensures exists m :: (ExitsAt(pubKeyHash, amount, outs, s.accumulated, i, m)
      && ScanOutputs(pubKeyHash, amount, init, id, outs, i, s).unspentOutputs
         == s.unspentOutputs[id := FirstIndices(init, 0) + Range(1, m)])
    decreases |outs| - i
  {
    var r := ScanOutputs(pubKeyHash, amount, init, id, outs, i, s);
    if i == |outs| {
      assert ExitsAt(pubKeyHash, amount, outs, s.accumulated, i, i);
      assert r.unspentOutputs == s.unspentOutputs[id := FirstIndices(init, 0) + Range(1, i)];
    } else {
      var acc := Step(pubKeyHash, amount, s.accumulated, outs[i]);
      assert Running(pubKeyHash, amount, s.accumulated, outs, i, i + 1) == acc;
      assert FirstIndices(init, 0) + Range(1, i) + [i] == FirstIndices(init, 0) + Range(1, i + 1);
      var s' := SpendableOutputs(acc, Record(s.unspentOutputs, id, i, init));
      assert s'.unspentOutputs == s.unspentOutputs[id := FirstIndices(init, 0) + Range(1, i + 1)];
      if acc >= amount {
        assert r == s';
        assert ExitsAt(pubKeyHash, amount, outs, s.accumulated, i, i + 1);
      } else {
        ScanOutputsExtendsRecord(pubKeyHash, amount, init, id, outs, i + 1, s');
        var m :| ExitsAt(pubKeyHash, amount, outs, acc, i + 1, m)
          && r.unspentOutputs == s'.unspentOutputs[id := FirstIndices(init, 0) + Range(1, m)];
        forall j | i < j <= m ensures Running(pubKeyHash, amount, s.accumulated, outs, i, j)
                                   == Running(pubKeyHash, amount, acc, outs, i + 1, j) {
        }
        assert ExitsAt(pubKeyHash, amount, outs, s.accumulated, i, m);
        assert r.unspentOutputs == s.unspentOutputs[id := FirstIndices(init, 0) + Range(1, m)];
      }
    }
  }

  /** `r` holds for `id` the indices visited by the inner loop over `outs`
      entered with total `acc`: `first ++ [1, …, m-1]` for its exit point `m`. */
  ghost predicate RecordsVisitedPrefix(r: map<Bytes, seq<int>>, id: Bytes, pubKeyHash: Bytes, amount: int32,
                                 outs: seq<TxOutput>, acc: int32, init: ArrayInit) {
    id in r && exists m :: 1 <= m && ExitsAt(pubKeyHash, amount, outs, acc, 0, m) && r[id] == FirstIndices(init, 0) + Range(1, m)
  }

  /** For an id not yet recorded, the inner loop records the indices it
      visits, locked or not, up to its exit point, and touches no other id;
      entered with the amount already reached it records the first index
      alone; an entry without outputs records nothing. */
  lemma ScanOutputsRecordsVisited(pubKeyHash: Bytes, amount: int32, init: ArrayInit, id: Bytes,
                                  outs: seq<TxOutput>, s: SpendableOutputs)
    requires id !in s.unspentOutputs
    ensures |outs| == 0 ==> ScanOutputs(pubKeyHash, amount, init, id, outs, 0, s) == s
    ensures |outs| > 0 ==> exists m :: (ExitsAt(pubKeyHash, amount, outs, s.accumulated, 0, m)
      && ScanOutputs(pubKeyHash, amount, init, id, outs, 0, s).unspentOutputs
         == s.unspentOutputs[id := FirstIndices(init, 0) + Range(1, m)])
    ensures |outs| > 0 && s.accumulated >= amount ==>
      ScanOutputs(pubKeyHash, amount, init, id, outs, 0, s)
        == SpendableOutputs(s.accumulated, s.unspentOutputs[id := FirstIndices(init, 0)])
  {
    if |outs| > 0 {
      var r := ScanOutputs(pubKeyHash, amount, init, id, outs, 0, s);
      var acc := Step(pubKeyHash, amount, s.accumulated, outs[0]);
      assert Running(pubKeyHash, amount, s.accumulated, outs, 0, 1) == acc;
      var s' := SpendableOutputs(acc, Record(s.unspentOutputs, id, 0, init));
      assert FirstIndices(init, 0) == FirstIndices(init, 0) + Range(1, 1);
      if acc >= amount {
        assert ExitsAt(pubKeyHash, amount, outs, s.accumulated, 0, 1);
        assert r.unspentOutputs == s.unspentOutputs[id := FirstIndices(init, 0) + Range(1, 1)];
      } else {
        ScanOutputsExtendsRecord(pubKeyHash, amount, init, id, outs, 1, s');
        var m :| ExitsAt(pubKeyHash, amount, outs, acc, 1, m)
          && r.unspentOutputs == s'.unspentOutputs[id := FirstIndices(init, 0) + Range(1, m)];
        forall j | 0 < j <= m ensures Running(pubKeyHash, amount, s.accumulated, outs, 0, j)
                                   == Running(pubKeyHash, amount, acc, outs, 1, j) {
        }
        assert ExitsAt(pubKeyHash, amount, outs, s.accumulated, 0, m);
        assert r.unspentOutputs == s.unspentOutputs[id := FirstIndices(init, 0) + Range(1, m)];
      }
    }
  }

  /** The entries name distinct ids, none recorded yet. */
  predicate FreshDistinctIds(entries: seq<(Bytes, seq<TxOutput>)>, m: map<Bytes, seq<int>>) {
    && (forall i, j :: 0 <= i < j < |entries| ==> entries[i].0 != entries[j].0)
    && (forall i :: 0 <= i < |entries| ==> entries[i].0 !in m)
  }

  /** The scan keeps the records it started from, adds only ids of entries,
      and adds nothing for a fresh id whose entry has no outputs. */
  lemma {:induction false} ScanEntriesFrame(pubKeyHash: Bytes, amount: int32, init: ArrayInit,
                                            entries: seq<(Bytes, seq<TxOutput>)>, s: SpendableOutputs)
    requires FreshDistinctIds(entries, s.unspentOutputs)
    ensures var r := ScanEntries(pubKeyHash, amount, init, entries, s).unspentOutputs;
      && (forall k :: k in s.unspentOutputs ==> k in r && r[k] == s.unspentOutputs[k])
      && (forall k :: k in r ==> k in s.unspentOutputs || exists i :: 0 <= i < |entries| && entries[i].0 == k)
      && (forall i :: 0 <= i < |entries| && |entries[i].1| == 0 ==> entries[i].0 !in r)
  {
    if |entries| > 0 {
      var k0 := entries[0].0;
      var s1 := ScanOutputs(pubKeyHash, amount, init, k0, entries[0].1, 0, s);
      ScanOutputsRecordsVisited(pubKeyHash, amount, init, k0, entries[0].1, s);
      assert FreshDistinctIds(entries[1..], s1.unspentOutputs) by {
        forall i | 0 <= i < |entries| - 1 ensures entries[1..][i].0 !in s1.unspentOutputs {
          assert entries[1..][i].0 == entries[i + 1].0 != k0;
        }
      }
      ScanEntriesFrame(pubKeyHash, amount, init, entries[1..], s1);
      var r := ScanEntries(pubKeyHash, amount, init, entries[1..], s1).unspentOutputs;
      forall k | k in r ensures k in s.unspentOutputs || exists i :: 0 <= i < |entries| && entries[i].0 == k {
        if k !in s1.unspentOutputs {
          var j :| 0 <= j < |entries[1..]| && entries[1..][j].0 == k;
          assert entries[j + 1].0 == k;
        } else if k == k0 {
          assert entries[0].0 == k;
        }
      }
      forall i | 0 <= i < |entries| && |entries[i].1| == 0 ensures entries[i].0 !in r {
        if i == 0 {
          assert forall j :: 0 <= j < |entries[1..]| ==> entries[1..][j].0 == entries[j + 1].0 != k0;
        } else {
          assert entries[i] == entries[1..][i - 1];
        }
      }
    }
  }

  /** Over entries with distinct fresh ids, the scan records for every entry
      with outputs the indices its inner loop visits, up to the exit point
      fixed by the total gathered over the entries before it: every such
      entry is visited, and its indices are recorded whether or not the
      output is locked to the payer. An entry reached after the amount is
      recorded with its first index alone: `[0]` as a literal array, `[]` as
      a sized one. */
  lemma {:induction false} ScanEntriesRecords(pubKeyHash: Bytes, amount: int32, init: ArrayInit,
                                              entries: seq<(Bytes, seq<TxOutput>)>, s: SpendableOutputs)
    requires FreshDistinctIds(entries, s.unspentOutputs)
    ensures var r := ScanEntries(pubKeyHash, amount, init, entries, s).unspentOutputs;
      forall i :: 0 <= i < |entries| && |entries[i].1| > 0 ==>
        var before := ScanEntries(pubKeyHash, amount, init, entries[..i], s).accumulated;
        && RecordsVisitedPrefix(r, entries[i].0, pubKeyHash, amount, entries[i].1, before, init)
        && (before >= amount ==> r[entries[i].0] == FirstIndices(init, 0))
  {
    if |entries| > 0 {
      var k0 := entries[0].0;
      var s1 := ScanOutputs(pubKeyHash, amount, init, k0, entries[0].1, 0, s);
      ScanOutputsRecordsVisited(pubKeyHash, amount, init, k0, entries[0].1, s);
      assert FreshDistinctIds(entries[1..], s1.unspentOutputs) by {
        forall i | 0 <= i < |entries| - 1 ensures entries[1..][i].0 !in s1.unspentOutputs {
          assert entries[1..][i].0 == entries[i + 1].0 != k0;
        }
      }
      ScanEntriesFrame(pubKeyHash, amount, init, entries[1..], s1);
      ScanEntriesRecords(pubKeyHash, amount, init, entries[1..], s1);
      var r := ScanEntries(pubKeyHash, amount, init, entries[1..], s1).unspentOutputs;
      assert r == ScanEntries(pubKeyHash, amount, init, entries, s).unspentOutputs;
      forall i | 0 <= i < |entries| && |entries[i].1| > 0
        ensures var before := ScanEntries(pubKeyHash, amount, init, entries[..i], s).accumulated;
          && RecordsVisitedPrefix(r, entries[i].0, pubKeyHash, amount, entries[i].1, before, init)
          && (before >= amount ==> r[entries[i].0] == FirstIndices(init, 0))
      {
        var before := ScanEntries(pubKeyHash, amount, init, entries[..i], s).accumulated;
        if i > 0 {
          assert entries[i] == entries[1..][i - 1];
          assert entries[..i][1..] == entries[1..][..i - 1];
          assert before == ScanEntries(pubKeyHash, amount, init, entries[1..][..i - 1], s1).accumulated;
        } else {
          assert before == s.accumulated;
          assert RecordsVisitedPrefix(s1.unspentOutputs, k0, pubKeyHash, amount, entries[0].1, before, init);
        }
        var m :| ExitsAt(pubKeyHash, amount, entries[i].1, before, 0, m)
          && r[entries[i].0] == FirstIndices(init, 0) + Range(1, m);
        if before >= amount {
          ExitsAtOnceReached(pubKeyHash, amount, entries[i].1, before, m);
          assert FirstIndices(init, 0) + Range(1, 1) == FirstIndices(init, 0);
        }
      }
    }
  }
}

=== FILE: transaction.dfy ===
/** `Transaction`: coinbase issuance, transfers built from a spend selection,
    the trimmed copy, and the per-input digest that signing and verification
    share. ECDSA and the hashes are the uninterpreted `Primitives`. */
module Transactions {
  import opened Common
  import opened Types

  /** The mining reward paid by every coinbase transaction. */
  const SUBSIDY: int32 := 10

  /** The one input of a coinbase refers to the empty id at index -1. */
  predicate IsCoinbase(tx: Transaction) {
    && |tx.inputs| == 1
    && tx.inputs[0].txId == []
    && tx.inputs[0].outputIndex == -1
  }

  /** The id given to a transaction when it is created: SHA-256 of its
      serialisation while its id field is still null. */
  function CreationId(p: Primitives, inputs: seq<TxInput>, outputs: seq<TxOutput>): Bytes {
    p.sha256(p.serializeTx(None, inputs, outputs))
  }

  /** `Transaction.hash`: SHA-256 of the serialisation of a copy whose id is
      the empty array. */
  function Hash(p: Primitives, tx: Transaction): Bytes {
    p.sha256(p.serializeTx(Some([]), tx.inputs, tx.outputs))
  }

  /** `hash()` does not read the id field. */
  lemma HashIgnoresId(p: Primitives, tx: Transaction, id: Bytes)
    ensures Hash(p, tx.(id := id)) == Hash(p, tx)
  {
  }

  // ---------------------------------------------------------------------
  // Coinbase

  /** The memo a coinbase carries: a blank `data` becomes "Reward to '<to>'". */
  function CoinbaseMemo(to: string, data: string): string {
    if IsBlank(data) then "Reward to '" + to + "'" else data
  }

  /** Blankness follows `Character.isWhitespace`: an ideographic space or a
      line separator counts as blank and is replaced, while a non-breaking
      space (U+00A0, U+2007) is kept as the memo. */
  lemma CoinbaseMemoWhitespace(to: string)
    ensures CoinbaseMemo(to, "\U{3000}") == "Reward to '" + to + "'"
    ensures CoinbaseMemo(to, "\U{2028}\t\U{1680}") == "Reward to '" + to + "'"
    ensures CoinbaseMemo(to, "\U{A0}") == "\U{A0}"
    ensures CoinbaseMemo(to, " \U{2007}") == " \U{2007}"
  {
    assert !IsWhitespace("\U{A0}"[0]);
    assert !IsWhitespace(" \U{2007}"[1]);
  }

  /** `newCoinbaseTransaction`: one sentinel input carrying the memo in its key
      slot, one output of `SUBSIDY` locked to `to`, and the creation id. */
  function NewCoinbaseTransaction(p: Primitives, to: string, data: string): (r: Transaction)
    ensures IsCoinbase(r)
    ensures r.inputs[0].signature == None
    ensures IsBlank(data) ==> r.inputs[0].pubKey == Some(p.stringToBytes("Reward to '" + to + "'"))
    ensures !IsBlank(data) ==> r.inputs[0].pubKey == Some(p.stringToBytes(data))
    ensures |r.outputs| == 1 && r.outputs[0].value == SUBSIDY
    ensures IsLockedWithKey(r.outputs[0], p.addressToPubKeyHash(to))
    ensures r.id == CreationId(p, r.inputs, r.outputs)
  {
    var input := TxInput([], -1, None, Some(p.stringToBytes(CoinbaseMemo(to, data))));
    var output := TxOutput(SUBSIDY, p.addressToPubKeyHash(to));
    Transaction(CreationId(p, [input], [output]), [input], [output])
  }

  // ---------------------------------------------------------------------
  // Transfers

  /** The unsigned inputs that spend every recorded index of one transaction id. */
  function KeyInputs(txId: Bytes, indices: seq<int>, publicKeyHash: Bytes): (r: seq<TxInput>)
    ensures |r| == |indices|
    ensures forall j :: 0 <= j < |indices| ==> r[j] == TxInput(txId, indices[j], None, Some(publicKeyHash))
  {
    seq(|indices|, j requires 0 <= j < |indices| => TxInput(txId, indices[j], None, Some(publicKeyHash)))
  }

  /** The inputs built from a selection, visiting its keys in `order`. */
  function SelectionInputs(order: seq<Bytes>, selected: map<Bytes, seq<int>>, publicKeyHash: Bytes): seq<TxInput>
    requires forall k :: k in order ==> k in selected
  {
    if |order| == 0 then []
    else KeyInputs(order[0], selected[order[0]], publicKeyHash) + SelectionInputs(order[1..], selected, publicKeyHash)
  }

  /** How many (transaction id, index) entries the selection holds. */
  function SelectedCount(order: seq<Bytes>, selected: map<Bytes, seq<int>>): nat
    requires forall k :: k in order ==> k in selected
  {
    if |order| == 0 then 0 else |selected[order[0]]| + SelectedCount(order[1..], selected)
  }

  /** Some input of `r` spends output `index` of transaction `id`. */
  predicate SpendsEntry(r: seq<TxInput>, id: Bytes, index: int) {
    exists n :: 0 <= n < |r| && r[n].txId == id && r[n].outputIndex == index
  }

  /** One input per recorded entry and nothing else: every input spends an
      entry of the selection, unsigned, with the sender's key hash in its key
      slot; every entry is spent by some input; and the counts agree. */
  lemma {:induction false} SelectionInputsSpendSelection(order: seq<Bytes>, selected: map<Bytes, seq<int>>, publicKeyHash: Bytes)
    requires forall k :: k in order ==> k in selected
    ensures var r := SelectionInputs(order, selected, publicKeyHash);
      && |r| == SelectedCount(order, selected)
      && (forall n :: 0 <= n < |r| ==>
            && r[n].signature == None && r[n].pubKey == Some(publicKeyHash)
            && r[n].txId in order && r[n].outputIndex in selected[r[n].txId])
      && (forall i, j :: 0 <= i < |order| && 0 <= j < |selected[order[i]]| ==>
            SpendsEntry(r, order[i], selected[order[i]][j]))
  {
    if |order| > 0 {
      var head := KeyInputs(order[0], selected[order[0]], publicKeyHash);
      var tail := SelectionInputs(order[1..], selected, publicKeyHash);
      SelectionInputsSpendSelection(order[1..], selected, publicKeyHash);
      var r := head + tail;
      forall n | 0 <= n < |r|
        ensures r[n].txId in order && r[n].outputIndex in selected[r[n].txId]
      {
        if n >= |head| {
          assert r[n] == tail[n - |head|];
        }
      }
      forall i, j | 0 <= i < |order| && 0 <= j < |selected[order[i]]|
        ensures SpendsEntry(r, order[i], selected[order[i]][j])
      {
        if i == 0 {
          assert r[j] == head[j];
        } else {
          var rest := order[1..];
          assert rest[i - 1] == order[i];
          assert SpendsEntry(tail, rest[i - 1], selected[rest[i - 1]][j]);
          var m :| 0 <= m < |tail| && tail[m].txId == order[i] && tail[m].outputIndex == selected[order[i]][j];
          assert r[|head| + m] == tail[m];
        }
      }
    }
  }

  /** The 32-bit sum of the output values, as a Java `int` accumulator sees it. */
  function Sum32(outs: seq<TxOutput>): int32 {
    if |outs| == 0 then 0 else Add32(outs[0].value, Sum32(outs[1..]))
  }

  /** The outputs of a transfer: `amount` to the recipient, then the change
      back to the sender when there is some. */
  function TransferOutputs(p: Primitives, from: string, to: string, amount: int32, accumulated: int32): (r: seq<TxOutput>)
    ensures |r| >= 1 && r[0] == TxOutput(amount, p.addressToPubKeyHash(to))
    ensures |r| == 2 <==> accumulated > amount
    ensures |r| == 2 ==> r[1] == TxOutput(Sub32(accumulated, amount), p.addressToPubKeyHash(from))
    ensures |r| <= 2
  {
    [TxOutput(amount, p.addressToPubKeyHash(to))]
    + (if accumulated > amount then [TxOutput(Sub32(accumulated, amount), p.addressToPubKeyHash(from))] else [])
  }

  /** `newTransaction` from the selection the chain returned for the sender's
      key hash (`hash160` of the wallet's `publicKey`); `order` is the
      iteration order of the selection map. */
  function NewTransaction(p: Primitives, from: string, to: string, amount: int32, publicKey: Bytes,
                          selection: SpendableOutputs, order: seq<Bytes>): (r: Result<Transaction>)
    requires IsEnumeration(order, selection.unspentOutputs.Keys)
    ensures r.Err? <==> selection.accumulated < amount
    ensures r.Ok? ==> r.value.inputs == SelectionInputs(order, selection.unspentOutputs, p.hash160(publicKey))
    ensures r.Ok? ==> r.value.outputs == TransferOutputs(p, from, to, amount, selection.accumulated)
    ensures r.Ok? ==> Sum32(r.value.outputs) == selection.accumulated
    ensures r.Ok? ==> r.value.id == CreationId(p, r.value.inputs, r.value.outputs)
  {
    var publicKeyHash := p.hash160(publicKey);
    if selection.accumulated < amount then Err("ERROR: Not enough funds")
    else
      var inputs := SelectionInputs(order, selection.unspentOutputs, publicKeyHash);
      var outputs := TransferOutputs(p, from, to, amount, selection.accumulated);
      TransferSumsToAccumulated(p, from, to, amount, selection.accumulated);
      Ok(Transaction(CreationId(p, inputs, outputs), inputs, outputs))
  }

  /** Payment plus change is exactly what was gathered, in 32-bit arithmetic;
      when `0 <= amount < accumulated` the change is the plain difference. */
  lemma TransferSumsToAccumulated(p: Primitives, from: string, to: string, amount: int32, accumulated: int32)
    requires accumulated >= amount
    ensures Sum32(TransferOutputs(p, from, to, amount, accumulated)) == accumulated
    ensures 0 <= amount < accumulated ==> TransferOutputs(p, from, to, amount, accumulated)[1].value == accumulated - amount
  {
    var outs := TransferOutputs(p, from, to, amount, accumulated);
    if accumulated > amount {
      assert outs[1..][1..] == [];
      assert Sum32(outs[1..]) == Add32(outs[1].value, 0) == outs[1].value;
      AddSubCancel(amount, accumulated);
    } else {
      assert outs[1..] == [];
    }
  }

  // ---------------------------------------------------------------------
  // Trimmed copy and the per-input digest

  /** An input with its signature and public key cleared. */
  function Strip(i: TxInput): TxInput {
    TxInput(i.txId, i.outputIndex, None, None)
  }

  /** `trimmedCopy`: same id and outputs, inputs stripped of their unlock data. */
  function TrimmedCopy(tx: Transaction): (r: Transaction)
    ensures r.id == tx.id && r.outputs == tx.outputs && |r.inputs| == |tx.inputs|
    ensures forall i :: 0 <= i < |tx.inputs| ==>
      r.inputs[i].txId == tx.inputs[i].txId && r.inputs[i].outputIndex == tx.inputs[i].outputIndex
      && r.inputs[i].signature == None && r.inputs[i].pubKey == None
  {
    Transaction(tx.id, seq(|tx.inputs|, i requires 0 <= i < |tx.inputs| => Strip(tx.inputs[i])), tx.outputs)
  }

  /** Two transactions that spend the same outputs and pay the same outputs,
      differing at most in signatures and public keys. */
  predicate SameSpends(a: Transaction, b: Transaction) {
    && a.id == b.id && a.outputs == b.outputs && |a.inputs| == |b.inputs|
    && forall i :: 0 <= i < |a.inputs| ==>
         a.inputs[i].txId == b.inputs[i].txId && a.inputs[i].outputIndex == b.inputs[i].outputIndex
  }

  /** The trimmed copy forgets exactly the unlock data: it is the same for two
      transactions that differ only in signatures and keys, and trimming twice
      changes nothing. */
  lemma TrimmedCopyForgetsUnlockData(a: Transaction, b: Transaction)
    requires SameSpends(a, b)
    ensures TrimmedCopy(a) == TrimmedCopy(b)
    ensures TrimmedCopy(TrimmedCopy(a)) == TrimmedCopy(a)
  {
    assert TrimmedCopy(a).inputs == TrimmedCopy(b).inputs;
    assert TrimmedCopy(TrimmedCopy(a)).inputs == TrimmedCopy(a).inputs;
  }

  /** A working copy with input `i`'s signature cleared and its key slot set. */
  function WithKeySlot(t: Transaction, i: nat, key: Option<Bytes>): Transaction
    requires i < |t.inputs|
  {
    t.(inputs := t.inputs[i := t.inputs[i].(signature := None, pubKey := key)])
  }

  /** The digest input `i` is signed over: `hash()` of the trimmed copy in
      which only input `i`'s key slot holds the spent output's owner hash. */
  function InputDigest(p: Primitives, tx: Transaction, i: nat, ownerHash: Bytes): Bytes
    requires i < |tx.inputs|
  {
    Hash(p, WithKeySlot(TrimmedCopy(tx), i, Some(ownerHash)))
  }

  /** Every input refers to a transaction present in the lookup map. */
  predicate AllPrevPresent(tx: Transaction, prevTxs: map<Bytes, Transaction>) {
    forall i :: 0 <= i < |tx.inputs| ==> tx.inputs[i].txId in prevTxs
  }

  /** `prevTx.getOutputs()[index]`, which throws when the index is out of range. */
  function PrevOutput(prevTxs: map<Bytes, Transaction>, input: TxInput): Result<TxOutput>
    requires input.txId in prevTxs
  {
    var prev := prevTxs[input.txId];
    if 0 <= input.outputIndex < |prev.outputs| then Ok(prev.outputs[input.outputIndex])
    else Err("ArrayIndexOutOfBoundsException")
  }

  // ---------------------------------------------------------------------
  // Signing

  /** The loop of `sign` from input `i` on: `copy` is the working trimmed copy
      whose key slot and id are overwritten per input, `tx` the transaction
      whose signatures are being filled in. */
  function SignLoop(p: Primitives, signer: Bytes -> Bytes, tx: Transaction, prevTxs: map<Bytes, Transaction>,
                    copy: Transaction, i: nat): Result<Transaction>
    requires AllPrevPresent(tx, prevTxs)
    requires |copy.inputs| == |tx.inputs| && i <= |tx.inputs|
    requires forall j :: 0 <= j < |copy.inputs| ==> copy.inputs[j].txId == tx.inputs[j].txId
    decreases |tx.inputs| - i
  {
    if i == |tx.inputs| then Ok(tx)
    else
      var input4Sign := copy.inputs[i];
      match PrevOutput(prevTxs, input4Sign)
      case Err(e) => Err(e)
      case Ok(output) =>
        var filled := WithKeySlot(copy, i, Some(output.pubKeyHash));
        var hashed := filled.(id := Hash(p, filled));
        var signature := signer(hashed.id);
        var signedTx := tx.(inputs := tx.inputs[i := tx.inputs[i].(signature := Some(signature))]);
        SignLoop(p, signer, signedTx, prevTxs, WithKeySlot(hashed, i, None), i + 1)
  }

  /** `sign`: nothing for a coinbase; a throw before any change when a
      referenced transaction is missing; otherwise the signing loop. */
  function Sign(p: Primitives, signer: Bytes -> Bytes, tx: Transaction, prevTxs: map<Bytes, Transaction>): Result<Transaction> {
    if IsCoinbase(tx) then Ok(tx)
    else if !AllPrevPresent(tx, prevTxs) then Err("ERROR: Previous transaction is not correct")
    else SignLoop(p, signer, tx, prevTxs, TrimmedCopy(tx), 0)
  }

  /** Every input's referenced output exists. */
  predicate AllPrevInRange(tx: Transaction, prevTxs: map<Bytes, Transaction>) {
    && AllPrevPresent(tx, prevTxs)
    && forall i :: 0 <= i < |tx.inputs| ==> PrevOutput(prevTxs, tx.inputs[i]).Ok?
  }

  /** Input `i` of `signed` is input `i` of `tx` with the signature over its
      per-input digest, and nothing else changed. */
  predicate SignedInput(p: Primitives, signer: Bytes -> Bytes, tx: Transaction, prevTxs: map<Bytes, Transaction>,
                        signed: Transaction, i: nat)
    requires i < |tx.inputs| && i < |signed.inputs|
    requires tx.inputs[i].txId in prevTxs && PrevOutput(prevTxs, tx.inputs[i]).Ok?
  {
    var owner := PrevOutput(prevTxs, tx.inputs[i]).value.pubKeyHash;
    signed.inputs[i] == tx.inputs[i].(signature := Some(signer(InputDigest(p, tx, i, owner))))
  }

  /** `signed` is `tx` with every input signed over its own digest. */
  predicate FullySigned(p: Primitives, signer: Bytes -> Bytes, tx: Transaction, prevTxs: map<Bytes, Transaction>, signed: Transaction)
    requires AllPrevInRange(tx, prevTxs)
  {
    && signed.id == tx.id && signed.outputs == tx.outputs && |signed.inputs| == |tx.inputs|
    && forall i :: 0 <= i < |tx.inputs| ==> SignedInput(p, signer, tx, prevTxs, signed, i)
  }

  lemma {:induction false} SignLoopSignsEachInput(p: Primitives, signer: Bytes -> Bytes, tx0: Transaction,
                                                  prevTxs: map<Bytes, Transaction>, tx: Transaction, copy: Transaction, i: nat)
    requires AllPrevPresent(tx0, prevTxs) && i <= |tx0.inputs|
    requires copy.inputs == TrimmedCopy(tx0).inputs && copy.outputs == tx0.outputs
    requires tx.id == tx0.id && tx.outputs == tx0.outputs && |tx.inputs| == |tx0.inputs|
    requires forall j :: i <= j < |tx0.inputs| ==> tx.inputs[j] == tx0.inputs[j]
    requires forall j :: 0 <= j < i ==> tx.inputs[j].txId == tx0.inputs[j].txId
    requires forall j :: 0 <= j < i ==> PrevOutput(prevTxs, tx0.inputs[j]).Ok? && SignedInput(p, signer, tx0, prevTxs, tx, j)
    ensures AllPrevPresent(tx, prevTxs)
    ensures var r := SignLoop(p, signer, tx, prevTxs, copy, i);
      && (r.Ok? <==> forall j :: i <= j < |tx0.inputs| ==> PrevOutput(prevTxs, tx0.inputs[j]).Ok?)
      && (r.Ok? ==> AllPrevInRange(tx0, prevTxs) && FullySigned(p, signer, tx0, prevTxs, r.value))
    decreases |tx0.inputs| - i
  {
    assert AllPrevPresent(tx, prevTxs) by {
      forall j | 0 <= j < |tx.inputs| ensures tx.inputs[j].txId in prevTxs {
        assert tx.inputs[j].txId == tx0.inputs[j].txId;
      }
    }
    if i < |tx0.inputs| {
      var input4Sign := copy.inputs[i];
      assert input4Sign.txId == tx0.inputs[i].txId && input4Sign.outputIndex == tx0.inputs[i].outputIndex;
      assert PrevOutput(prevTxs, input4Sign) == PrevOutput(prevTxs, tx0.inputs[i]);
      if PrevOutput(prevTxs, input4Sign).Ok? {
        var output := PrevOutput(prevTxs, input4Sign).value;
        var filled := WithKeySlot(copy, i, Some(output.pubKeyHash));
        var hashed := filled.(id := Hash(p, filled));
        assert Hash(p, filled) == InputDigest(p, tx0, i, output.pubKeyHash) by {
          assert filled.inputs == WithKeySlot(TrimmedCopy(tx0), i, Some(output.pubKeyHash)).inputs;
        }
        var signedTx := tx.(inputs := tx.inputs[i := tx.inputs[i].(signature := Some(signer(hashed.id)))]);
        var copy' := WithKeySlot(hashed, i, None);
        assert copy'.inputs == copy.inputs;
        SignLoopSignsEachInput(p, signer, tx0, prevTxs, signedTx, copy', i + 1);
      }
    }
  }

  /** What `sign` does: a coinbase comes back unchanged; a missing referenced
      transaction is an error; otherwise it succeeds exactly when every
      referenced output exists, and then only the signatures change, each
      over its input's own digest. */
  lemma SignSpec(p: Primitives, signer: Bytes -> Bytes, tx: Transaction, prevTxs: map<Bytes, Transaction>)
    ensures IsCoinbase(tx) ==> Sign(p, signer, tx, prevTxs) == Ok(tx)
    ensures !IsCoinbase(tx) && !AllPrevPresent(tx, prevTxs) ==> Sign(p, signer, tx, prevTxs).Err?
    ensures !IsCoinbase(tx) && AllPrevPresent(tx, prevTxs) ==>
      && (Sign(p, signer, tx, prevTxs).Ok? <==> AllPrevInRange(tx, prevTxs))
      && (Sign(p, signer, tx, prevTxs).Ok? ==> FullySigned(p, signer, tx, prevTxs, Sign(p, signer, tx, prevTxs).value))
  {
    if !IsCoinbase(tx) && AllPrevPresent(tx, prevTxs) {
      SignLoopSignsEachInput(p, signer, tx, prevTxs, tx, TrimmedCopy(tx), 0);
    }
  }

  // ---------------------------------------------------------------------
  // Verification

  /** The loop of `verify` from input `i` on, over the working copy `copy`. */
  function VerifyLoop(p: Primitives, tx: Transaction, prevTxs: map<Bytes, Transaction>, copy: Transaction, i: nat): Result<bool>
    requires AllPrevPresent(tx, prevTxs)
    requires |copy.inputs| == |tx.inputs| && i <= |tx.inputs|
    decreases |tx.inputs| - i
  {
    if i == |tx.inputs| then Ok(true)
    else
      var txInput := tx.inputs[i];
      match PrevOutput(prevTxs, txInput)
      case Err(e) => Err(e)
      case Ok(prevTxOutput) =>
        var filled := WithKeySlot(copy, i, Some(prevTxOutput.pubKeyHash));
        var hashed := filled.(id := Hash(p, filled));
        match p.ecdsaVerify(txInput.pubKey, hashed.id, txInput.signature)
        case Err(e) => Err(e)
        case Ok(valid) =>
          if !valid then Ok(false)
          else VerifyLoop(p, tx, prevTxs, WithKeySlot(hashed, i, None), i + 1)
  }

  /** `verify`: true for a coinbase; a throw when a referenced transaction is
      missing; otherwise the verification loop. */
  function Verify(p: Primitives, tx: Transaction, prevTxs: map<Bytes, Transaction>): Result<bool> {
    if IsCoinbase(tx) then Ok(true)
    else if !AllPrevPresent(tx, prevTxs) then Err("ERROR: Previous transaction is not correct")
    else VerifyLoop(p, tx, prevTxs, TrimmedCopy(tx), 0)
  }

  /** The check of input `i` alone, over the same digest `sign` uses. */
  function InputCheck(p: Primitives, tx: Transaction, prevTxs: map<Bytes, Transaction>, i: nat): Result<bool>
    requires i < |tx.inputs| && tx.inputs[i].txId in prevTxs
  {
    match PrevOutput(prevTxs, tx.inputs[i])
    case Err(e) => Err(e)
    case Ok(out) => p.ecdsaVerify(tx.inputs[i].pubKey, InputDigest(p, tx, i, out.pubKeyHash), tx.inputs[i].signature)
  }

  lemma {:induction false} VerifyLoopChecksEachInput(p: Primitives, tx: Transaction, prevTxs: map<Bytes, Transaction>,
                                                     copy: Transaction, i: nat)
    requires AllPrevPresent(tx, prevTxs) && i <= |tx.inputs|
    requires copy.inputs == TrimmedCopy(tx).inputs && copy.outputs == tx.outputs
    ensures var r := VerifyLoop(p, tx, prevTxs, copy, i);
      && (r == Ok(true) <==> forall j :: i <= j < |tx.inputs| ==> InputCheck(p, tx, prevTxs, j) == Ok(true))
      && (r == Ok(false) <==> exists j :: i <= j < |tx.inputs| && InputCheck(p, tx, prevTxs, j) == Ok(false)
                                  && forall k :: i <= k < j ==> InputCheck(p, tx, prevTxs, k) == Ok(true))
    decreases |tx.inputs| - i
  {
    if i < |tx.inputs| {
      var txInput := tx.inputs[i];
      if PrevOutput(prevTxs, txInput).Ok? {
        var out := PrevOutput(prevTxs, txInput).value;
        var filled := WithKeySlot(copy, i, Some(out.pubKeyHash));
        var hashed := filled.(id := Hash(p, filled));
        assert Hash(p, filled) == InputDigest(p, tx, i, out.pubKeyHash) by {
          assert filled.inputs == WithKeySlot(TrimmedCopy(tx), i, Some(out.pubKeyHash)).inputs;
        }
        var copy' := WithKeySlot(hashed, i, None);
        assert copy'.inputs == copy.inputs;
        VerifyLoopChecksEachInput(p, tx, prevTxs, copy', i + 1);
        var r := VerifyLoop(p, tx, prevTxs, copy, i);
        var check := InputCheck(p, tx, prevTxs, i);
        assert check == p.ecdsaVerify(txInput.pubKey, hashed.id, txInput.signature);
        if check == Ok(true) {
          assert r == VerifyLoop(p, tx, prevTxs, copy', i + 1);
          if r == Ok(false) {
            var j :| i + 1 <= j < |tx.inputs| && InputCheck(p, tx, prevTxs, j) == Ok(false)
                     && forall k :: i + 1 <= k < j ==> InputCheck(p, tx, prevTxs, k) == Ok(true);
            assert forall k :: i <= k < j ==> InputCheck(p, tx, prevTxs, k) == Ok(true);
          }
        } else if check == Ok(false) {
          assert r == Ok(false);
          assert InputCheck(p, tx, prevTxs, i) == Ok(false);
        } else {
          assert r.Err?;
          assert !(forall j :: i <= j < |tx.inputs| ==> InputCheck(p, tx, prevTxs, j) == Ok(true));
        }
      } else {
        assert InputCheck(p, tx, prevTxs, i).Err?;
      }
    }
  }

  /** What `verify` decides: a coinbase is valid; a missing referenced
      transaction is an error; otherwise the answer is true exactly when
      every input's signature checks against its per-input digest, and false
      exactly when some input fails after all before it passed. */
  lemma VerifySpec(p: Primitives, tx: Transaction, prevTxs: map<Bytes, Transaction>)
    ensures IsCoinbase(tx) ==> Verify(p, tx, prevTxs) == Ok(true)
    ensures !IsCoinbase(tx) && !AllPrevPresent(tx, prevTxs) ==> Verify(p, tx, prevTxs).Err?
    ensures !IsCoinbase(tx) && AllPrevPresent(tx, prevTxs) ==>
      && (Verify(p, tx, prevTxs) == Ok(true) <==> forall j :: 0 <= j < |tx.inputs| ==> InputCheck(p, tx, prevTxs, j) == Ok(true))
      && (Verify(p, tx, prevTxs) == Ok(false) <==>
            exists j :: 0 <= j < |tx.inputs| && InputCheck(p, tx, prevTxs, j) == Ok(false)
                        && forall k :: 0 <= k < j ==> InputCheck(p, tx, prevTxs, k) == Ok(true))
  {
    if !IsCoinbase(tx) && AllPrevPresent(tx, prevTxs) {
      VerifyLoopChecksEachInput(p, tx, prevTxs, TrimmedCopy(tx), 0);
    }
  }

  /** Round trip: when every input carries the public key `pk` that checks
      the signer's signatures, a transaction just signed verifies. */
  lemma SignThenVerify(p: Primitives, signer: Bytes -> Bytes, pk: Bytes, tx: Transaction, prevTxs: map<Bytes, Transaction>)
    requires forall i :: 0 <= i < |tx.inputs| ==> tx.inputs[i].pubKey == Some(pk)
    requires forall d :: p.ecdsaVerify(Some(pk), d, Some(signer(d))) == Ok(true)
    requires Sign(p, signer, tx, prevTxs).Ok?
    ensures Verify(p, Sign(p, signer, tx, prevTxs).value, prevTxs) == Ok(true)
  {
    SignSpec(p, signer, tx, prevTxs);
    var signed := Sign(p, signer, tx, prevTxs).value;
    if !IsCoinbase(tx) {
      assert SameSpends(tx, signed) by {
        forall i | 0 <= i < |tx.inputs|
          ensures signed.inputs[i].txId == tx.inputs[i].txId && signed.inputs[i].outputIndex == tx.inputs[i].outputIndex
        {
          assert SignedInput(p, signer, tx, prevTxs, signed, i);
        }
      }
      TrimmedCopyForgetsUnlockData(tx, signed);
      assert !IsCoinbase(signed);
      VerifySpec(p, signed, prevTxs);
      forall j | 0 <= j < |signed.inputs|
        ensures InputCheck(p, signed, prevTxs, j) == Ok(true)
      {
        assert SignedInput(p, signer, tx, prevTxs, signed, j);
        assert InputDigest(p, signed, j, PrevOutput(prevTxs, tx.inputs[j]).value.pubKeyHash)
            == InputDigest(p, tx, j, PrevOutput(prevTxs, tx.inputs[j]).value.pubKeyHash);
      }
    }
  }

  /** `newTransaction` puts the payer's key hash, `hash160(publicKey)`, in
      every input's key slot, while `verify` decodes that slot as a 65-byte
      curve point and throws on a shorter array. So once the key decoder
      throws on every array shorter than 33 bytes and the key hash has 20
      bytes, a transfer with an input never verifies, signed or not. */
  lemma TransferKeySlotFailsVerify(p: Primitives, signer: Bytes -> Bytes, from: string, to: string, amount: int32,
                                   publicKey: Bytes, selection: SpendableOutputs, order: seq<Bytes>,
                                   prevTxs: map<Bytes, Transaction>)
    requires IsEnumeration(order, selection.unspentOutputs.Keys)
    requires forall k, d, s :: |k| < 33 ==> p.ecdsaVerify(Some(k), d, s).Err?
    requires |p.hash160(publicKey)| == 20
    requires NewTransaction(p, from, to, amount, publicKey, selection, order).Ok?
    requires var tx := NewTransaction(p, from, to, amount, publicKey, selection, order).value;
      |tx.inputs| > 0 && !IsCoinbase(tx) && Sign(p, signer, tx, prevTxs).Ok?
    ensures var tx := NewTransaction(p, from, to, amount, publicKey, selection, order).value;
      Verify(p, Sign(p, signer, tx, prevTxs).value, prevTxs).Err?
  {
    var tx := NewTransaction(p, from, to, amount, publicKey, selection, order).value;
    SelectionInputsSpendSelection(order, selection.unspentOutputs, p.hash160(publicKey));
    assert tx.inputs[0].pubKey == Some(p.hash160(publicKey));
    SignSpec(p, signer, tx, prevTxs);
    var signed := Sign(p, signer, tx, prevTxs).value;
    assert SignedInput(p, signer, tx, prevTxs, signed, 0);
    assert !IsCoinbase(signed);
    assert AllPrevPresent(signed, prevTxs) by {
      forall i | 0 <= i < |signed.inputs| ensures signed.inputs[i].txId in prevTxs {
        assert SignedInput(p, signer, tx, prevTxs, signed, i);
      }
    }
    assert InputCheck(p, signed, prevTxs, 0).Err?;
    VerifySpec(p, signed, prevTxs);
  }

  /** The intended `newTransaction`: the same transfer, with the payer's
      public key itself in every input's key slot. */
  function NewTransactionIntended(p: Primitives, from: string, to: string, amount: int32, publicKey: Bytes,
                                  selection: SpendableOutputs, order: seq<Bytes>): (r: Result<Transaction>)
    requires IsEnumeration(order, selection.unspentOutputs.Keys)
    ensures r.Err? <==> selection.accumulated < amount
    ensures r.Ok? ==> r.value.inputs == SelectionInputs(order, selection.unspentOutputs, publicKey)
    ensures r.Ok? ==> r.value.outputs == TransferOutputs(p, from, to, amount, selection.accumulated)
  {
    match NewTransaction(p, from, to, amount, publicKey, selection, order)
    case Err(e) => Err(e)
    case Ok(t) =>
      var inputs := SelectionInputs(order, selection.unspentOutputs, publicKey);
      Ok(Transaction(CreationId(p, inputs, t.outputs), inputs, t.outputs))
  }

  /** The intended transfer meets the round trip's hypothesis by
      construction: signed with the private key matching `publicKey`, it
      verifies. */
  lemma IntendedTransferVerifies(p: Primitives, signer: Bytes -> Bytes, from: string, to: string, amount: int32,
                                 publicKey: Bytes, selection: SpendableOutputs, order: seq<Bytes>,
                                 prevTxs: map<Bytes, Transaction>)
    requires IsEnumeration(order, selection.unspentOutputs.Keys)
    requires forall d :: p.ecdsaVerify(Some(publicKey), d, Some(signer(d))) == Ok(true)
    requires NewTransactionIntended(p, from, to, amount, publicKey, selection, order).Ok?
    requires Sign(p, signer, NewTransactionIntended(p, from, to, amount, publicKey, selection, order).value, prevTxs).Ok?
    ensures var tx := NewTransactionIntended(p, from, to, amount, publicKey, selection, order).value;
      Verify(p, Sign(p, signer, tx, prevTxs).value, prevTxs) == Ok(true)
  {
    var tx := NewTransactionIntended(p, from, to, amount, publicKey, selection, order).value;
    SelectionInputsSpendSelection(order, selection.unspentOutputs, publicKey);
    SignThenVerify(p, signer, publicKey, tx, prevTxs);
  }
}

=== FILE: types.dfy ===
/** The ledger's records, and the cryptographic and encoding primitives the
    ledger calls, which are left uninterpreted. */
module Types {
  import opened Common

  /** A reference to output `outputIndex` of transaction `txId`. `signature`
      and `pubKey` are the nullable byte arrays of the source: the coinbase
      input carries its memo in the `pubKey` slot, and a freshly built
      transfer input carries the sender's public-key hash there. */
  datatype TxInput = TxInput(txId: Bytes, outputIndex: int, signature: Option<Bytes>, pubKey: Option<Bytes>)

  /** `value` coins locked to the owner with public-key hash `pubKeyHash`. */
  datatype TxOutput = TxOutput(value: int32, pubKeyHash: Bytes)

  datatype Transaction = Transaction(id: Bytes, inputs: seq<TxInput>, outputs: seq<TxOutput>)

  /** `SpendableOutputResult`: the value gathered and, per transaction id, the
      output indices recorded while gathering it. */
  datatype SpendableOutputs = SpendableOutputs(accumulated: int32, unspentOutputs: map<Bytes, seq<int>>)

  /** A block of the persistent chain; `hash` and `previousHash` are hex text. */
  datatype Block = Block(hash: string, previousHash: string, transactions: seq<Transaction>, timeStamp: int, nonce: int)

  /** The primitives the ledger treats as black boxes.
      - `sha256`, `sha256Hex`: the digest as bytes and as lower-case hex text;
      - `hexToInteger`: `new BigInteger(hex, 16)`;
      - `hexToBytes`: `new BigInteger(hex, 16).toByteArray()`;
      - `longToBytes`: the byte form of a Java `long`;
      - `stringToBytes`: `String.getBytes()`;
      - `addressToPubKeyHash`: the owner hash an address text names;
      - `hash160`: RIPEMD-160 over SHA-256 of a public key;
      - `serializeTx`: Java serialisation of a transaction with the given
        (possibly null) id, inputs and outputs;
      - `ecdsaVerify`: decode the public key and check the signature over the
        data; it may throw (a null or malformed key or signature). */
  datatype Primitives = Primitives(
    sha256: Bytes -> Bytes,
    sha256Hex: Bytes -> string,
    hexToInteger: string -> int,
    hexToBytes: string -> Bytes,
    longToBytes: int -> Bytes,
    stringToBytes: string -> Bytes,
    addressToPubKeyHash: string -> Bytes,
    hash160: Bytes -> Bytes,
    serializeTx: (Option<Bytes>, seq<TxInput>, seq<TxOutput>) -> Bytes,
    ecdsaVerify: (Option<Bytes>, Bytes, Option<Bytes>) -> Result<bool>
  )

  /** `TransactionOutput.isLockedWithKey`: the output's owner is the query. */
  predicate IsLockedWithKey(o: TxOutput, pubKeyHash: Bytes) {
    o.pubKeyHash == pubKeyHash
  }

  /** `TransactionInput.usesKey`: the input's key slot holds the query. */
  predicate UsesKey(i: TxInput, pubKeyHash: Bytes) {
    i.pubKey == Some(pubKeyHash)
  }

  /** Hex text of 32 zero bytes: the hash a block holds before it is mined. */
  const ZERO_HASH: string := "0000000000000000000000000000000000000000000000000000000000000000"

  /** The bytes a previous-hash text contributes to a block header: none when
      it is blank, otherwise the big-integer byte form of the hex text. */
  function PrevHashBytes(p: Primitives, previousHash: string): (r: Bytes)
    ensures IsBlank(previousHash) ==> r == []
  {
    if IsBlank(previousHash) then [] else p.hexToBytes(previousHash)
  }

  /** The ids of `txs`, concatenated in order. */
  function ConcatIds(txs: seq<Transaction>): Bytes {
    if |txs| == 0 then [] else txs[0].id + ConcatIds(txs[1..])
  }

  /** `Block.hashTransaction`: SHA-256 over the block's transaction ids. */
  function HashTransaction(p: Primitives, txs: seq<Transaction>): Bytes {
    p.sha256(ConcatIds(txs))
  }

  /** The block commitment reads the transaction ids only: two transaction
      lists with the same ids in the same order commit to the same bytes,
      whatever their inputs and outputs. */
  lemma {:induction false} HashTransactionReadsIdsOnly(p: Primitives, a: seq<Transaction>, b: seq<Transaction>)
    requires |a| == |b|
    requires forall i :: 0 <= i < |a| ==> a[i].id == b[i].id
    ensures HashTransaction(p, a) == HashTransaction(p, b)
  {
    ConcatIdsReadsIdsOnly(a, b);
  }

  lemma {:induction false} ConcatIdsReadsIdsOnly(a: seq<Transaction>, b: seq<Transaction>)
    requires |a| == |b|
    requires forall i :: 0 <= i < |a| ==> a[i].id == b[i].id
    ensures ConcatIds(a) == ConcatIds(b)
  {
    if |a| > 0 {
      ConcatIdsReadsIdsOnly(a[1..], b[1..]);
    }
  }
}

=== FILE: utxo_set.dfy ===
/** `UTXOSet`: the chainstate bucket, an index from transaction id to the
    outputs of that transaction still unspent, rebuilt from the chain and
    updated block by block. */
module UtxoSet {
  import opened Common
  import opened Types
  import opened Transactions
  import opened Selection
  import opened Blockchain
  import ChainOutputs

  /** The chainstate bucket: transaction id to its stored output array. */
  type Index = map<Bytes, seq<TxOutput>>

  // ---------------------------------------------------------------------
  // reIndex

  /** The loop of `reIndex`: puts `all[k]` for every key `k` of `order` that
      `all` holds, on top of `index`. */
  function PutEntries(index: Index, all: Index, order: seq<Bytes>): Index
    decreases |order|
  {
    if |order| == 0 then index
    else
      var k := order[0];
      PutEntries(if k in all then index[k := all[k]] else index, all, order[1..])
  }

  /** `reIndex`: clears the bucket, whatever it held, then puts every entry
      of `findAllUTXOs` in the map's iteration order `order`. The bucket is
      cleared before the chain is read, so when `findAllUTXOs` throws the
      bucket is left empty. The result is the bucket afterwards together
      with the message thrown, if any. */
  function ReIndex(bucket: Index, chain: Chain, order: seq<Bytes>): (Index, Option<string>) {
    var cleared: Index := map[];
    match ChainOutputs.FindAllUTXOs(chain)
    case Err(msg) => (cleared, Some(msg))
    case Ok(all) => (PutEntries(cleared, all, order), None)
  }

  lemma {:induction false} PutEntriesCopies(index: Index, all: Index, order: seq<Bytes>)
    ensures var r := PutEntries(index, all, order);
      forall k :: && (k in r <==> k in index || (k in order && k in all))
                  && (k in order && k in all ==> r[k] == all[k])
                  && (k !in order && k in index ==> r[k] == index[k])
    decreases |order|
  {
    if |order| > 0 {
      var k0 := order[0];
      PutEntriesCopies(if k0 in all then index[k0 := all[k0]] else index, all, order[1..]);
      forall k | k in order ensures k == k0 || k in order[1..] {
      }
    }
  }

  /** After `reIndex` the bucket is exactly `findAllUTXOs`, whatever it held
      before and whatever order the entries are put in; `reIndex` throws
      exactly when `findAllUTXOs` does, with its message, and then leaves the
      bucket empty. */
  lemma ReIndexMirrorsAllUTXOs(bucket: Index, chain: Chain, order: seq<Bytes>)
    requires ChainOutputs.FindAllUTXOs(chain).Ok? ==> forall k :: k in ChainOutputs.FindAllUTXOs(chain).value ==> k in order
    ensures var (after, thrown) := ReIndex(bucket, chain, order);
      && (thrown.Some? <==> ChainOutputs.FindAllUTXOs(chain).Err?)
      && (thrown.Some? ==> thrown.value == ChainOutputs.FindAllUTXOs(chain).msg && after == map[])
      && (thrown.None? ==> after == ChainOutputs.FindAllUTXOs(chain).value)
  {
    var all := ChainOutputs.FindAllUTXOs(chain);
    if all.Ok? {
      PutEntriesCopies(map[], all.value, order);
      var r := ReIndex(bucket, chain, order).0;
      assert r.Keys == all.value.Keys;
    }
  }

  // ---------------------------------------------------------------------
  // findSpendableOutputs and findUTXOs over the bucket

  /** The bucket's entries in iteration order `order`. */
  function Entries(index: Index, order: seq<Bytes>): (r: seq<(Bytes, seq<TxOutput>)>)
    requires forall k :: k in order ==> k in index
    ensures |r| == |order|
    ensures forall i :: 0 <= i < |order| ==> r[i] == (order[i], index[order[i]])
  {
    seq(|order|, i requires 0 <= i < |order| => (order[i], index[order[i]]))
  }

  /** `UTXOSet.findSpendableOutputs`: the selection scan over the bucket,
      first index recorded as `new int[index]`. */
  function FindSpendableOutputs(index: Index, order: seq<Bytes>, pubKeyHash: Bytes, amount: int32): SpendableOutputs
    requires forall k :: k in order ==> k in index
  {
    ScanEntries(pubKeyHash, amount, SizedArray, Entries(index, order), EMPTY_SELECTION)
  }

  /** The selection over the bucket reaches the amount whenever the value
      locked to the payer does, and otherwise gathers all of it. */
  lemma IndexSelectionReachesAmount(index: Index, order: seq<Bytes>, pubKeyHash: Bytes, amount: int32)
    requires forall k :: k in order ==> k in index
    requires EntriesNonNegative(Entries(index, order))
    requires EntriesLocked(Entries(index, order), pubKeyHash) <= INT_MAX
    ensures var total := EntriesLocked(Entries(index, order), pubKeyHash);
      var r := FindSpendableOutputs(index, order, pubKeyHash, amount);
      && (total >= amount ==> r.accumulated >= amount)
      && (total < amount ==> r.accumulated == total)
  {
    SelectionReachesAmount(pubKeyHash, amount, SizedArray, Entries(index, order));
  }

  /** The record of the key at position `i` of the iteration order. */
  lemma IndexRecordAt(index: Index, order: seq<Bytes>, pubKeyHash: Bytes, amount: int32, i: nat)
    requires IsEnumeration(order, index.Keys)
    requires i < |order| && |index[order[i]]| > 0
    ensures var r := FindSpendableOutputs(index, order, pubKeyHash, amount).unspentOutputs;
      var before := FindSpendableOutputs(index, order[..i], pubKeyHash, amount).accumulated;
      && order[i] in r
      && (exists m :: ExitsAt(pubKeyHash, amount, index[order[i]], before, 0, m) && r[order[i]] == Range(1, m))
      && (before >= amount ==> r[order[i]] == [])
  {
    var entries := Entries(index, order);
    assert FreshDistinctIds(entries, map[]);
    ScanEntriesRecords(pubKeyHash, amount, SizedArray, entries, EMPTY_SELECTION);
    var r := FindSpendableOutputs(index, order, pubKeyHash, amount).unspentOutputs;
    assert FirstIndices(SizedArray, 0) == [];
    assert entries[i] == (order[i], index[order[i]]);
    assert Entries(index, order[..i]) == entries[..i];
    var before := ScanEntries(pubKeyHash, amount, SizedArray, entries[..i], EMPTY_SELECTION).accumulated;
    assert RecordsVisitedPrefix(r, order[i], pubKeyHash, amount, index[order[i]], before, SizedArray);
    var m :| 1 <= m && ExitsAt(pubKeyHash, amount, index[order[i]], before, 0, m) && r[order[i]] == [] + Range(1, m);
    assert r[order[i]] == Range(1, m);
  }

  /** What `new int[index]` does to the recorded indices: every id with
      outputs is recorded, even after the amount is reached, as `[1, …, m-1]`
      where `m` is the exit point of its inner loop given the total gathered
      over the keys before it; an id reached after the amount is recorded as
      `[]`; output 0 is never recorded; and ids without outputs, or outside
      the bucket, are absent. */
  lemma IndexSelectionRecords(index: Index, order: seq<Bytes>, pubKeyHash: Bytes, amount: int32)
    requires IsEnumeration(order, index.Keys)
    ensures var r := FindSpendableOutputs(index, order, pubKeyHash, amount).unspentOutputs;
      && (forall k :: k in r <==> k in index && |index[k]| > 0)
      && (forall k :: k in r ==> 0 !in r[k])
      && (forall i :: 0 <= i < |order| && |index[order[i]]| > 0 ==>
            var before := FindSpendableOutputs(index, order[..i], pubKeyHash, amount).accumulated;
            && order[i] in r
            && (exists m :: ExitsAt(pubKeyHash, amount, index[order[i]], before, 0, m) && r[order[i]] == Range(1, m))
            && (before >= amount ==> r[order[i]] == []))
  {
    var entries := Entries(index, order);
    assert FreshDistinctIds(entries, map[]);
    ScanEntriesFrame(pubKeyHash, amount, SizedArray, entries, EMPTY_SELECTION);
    var r := FindSpendableOutputs(index, order, pubKeyHash, amount).unspentOutputs;
    forall i | 0 <= i < |order| && |index[order[i]]| > 0
      ensures var before := FindSpendableOutputs(index, order[..i], pubKeyHash, amount).accumulated;
        && order[i] in r
        && (exists m :: ExitsAt(pubKeyHash, amount, index[order[i]], before, 0, m) && r[order[i]] == Range(1, m))
        && (before >= amount ==> r[order[i]] == [])
    {
      IndexRecordAt(index, order, pubKeyHash, amount, i);
    }
    forall k ensures && (k in r <==> k in index && |index[k]| > 0)
                     && (k in r ==> 0 !in r[k])
    {
      if k in index {
        var i :| 0 <= i < |order| && order[i] == k;
        assert entries[i] == (k, index[k]);
        if |index[k]| > 0 {
          IndexRecordAt(index, order, pubKeyHash, amount, i);
        }
      }
    }
  }

  /** The loop of `findUTXOs` over the bucket's values in order `order`:
      each stored output locked to the key, as often as it is stored. */
  function LockedOver(index: Index, order: seq<Bytes>, pubKeyHash: Bytes): (r: seq<TxOutput>)
    requires forall k :: k in order ==> k in index
    ensures forall o :: multiset(r)[o] == if IsLockedWithKey(o, pubKeyHash) then Stored(index, order)[o] else 0
  {
    if |order| == 0 then []
    else ChainOutputs.LockedOutputs(index[order[0]], pubKeyHash) + LockedOver(index, order[1..], pubKeyHash)
  }

  /** `findUTXOs`: every stored output locked to the key. */
  function FindUTXOs(index: Index, order: seq<Bytes>, pubKeyHash: Bytes): (r: seq<TxOutput>)
    requires forall k :: k in order ==> k in index
    ensures forall o :: multiset(r)[o] == if IsLockedWithKey(o, pubKeyHash) then Stored(index, order)[o] else 0
  {
    if |index| == 0 then [] else LockedOver(index, order, pubKeyHash)
  }

  lemma {:induction false} LockedOverMembers(index: Index, order: seq<Bytes>, pubKeyHash: Bytes)
    requires forall k :: k in order ==> k in index
    ensures forall o :: o in LockedOver(index, order, pubKeyHash) <==>
      exists k :: k in order && o in index[k] && IsLockedWithKey(o, pubKeyHash)
  {
    if |order| > 0 {
      LockedOverMembers(index, order[1..], pubKeyHash);
      forall o | exists k :: k in order && o in index[k] && IsLockedWithKey(o, pubKeyHash)
        ensures o in LockedOver(index, order, pubKeyHash)
      {
        var k :| k in order && o in index[k] && IsLockedWithKey(o, pubKeyHash);
        if k != order[0] {
          assert k in order[1..];
        }
      }
    }
  }

  /** Every output stored under the keys of `order`, with multiplicity. */
  function Stored(index: Index, order: seq<Bytes>): multiset<TxOutput>
    requires forall k :: k in order ==> k in index
  {
    if |order| == 0 then multiset{} else multiset(index[order[0]]) + Stored(index, order[1..])
  }

  lemma {:induction false} StoredAppend(index: Index, a: seq<Bytes>, b: seq<Bytes>)
    requires forall k :: k in a + b ==> k in index
    ensures Stored(index, a + b) == Stored(index, a) + Stored(index, b)
  {
    if |a| > 0 {
      assert (a + b)[1..] == a[1..] + b;
      StoredAppend(index, a[1..], b);
    } else {
      assert a + b == b;
    }
  }

  /** Taking one key out of an order takes its outputs out of the store. */
  lemma StoredRemoveAt(index: Index, b: seq<Bytes>, p: nat)
    requires forall k :: k in b ==> k in index
    requires p < |b|
    ensures Stored(index, b) == multiset(index[b[p]]) + Stored(index, b[..p] + b[p + 1..])
  {
    assert b == b[..p] + ([b[p]] + b[p + 1..]);
    StoredAppend(index, b[..p], [b[p]] + b[p + 1..]);
    assert ([b[p]] + b[p + 1..])[1..] == b[p + 1..];
    StoredAppend(index, b[..p], b[p + 1..]);
  }

  predicate Distinct(s: seq<Bytes>) {
    forall i, j :: 0 <= i < j < |s| ==> s[i] != s[j]
  }

  /** Without its element at `p`, a list of distinct keys holds every other
      key it held, each once. */
  lemma DistinctRemoveAt(b: seq<Bytes>, p: nat)
    requires Distinct(b) && p < |b|
    ensures Distinct(b[..p] + b[p + 1..])
    ensures forall x :: x in b[..p] + b[p + 1..] <==> x in b && x != b[p]
  {
    var rest := b[..p] + b[p + 1..];
    forall i, j | 0 <= i < j < |rest| ensures rest[i] != rest[j] {
      var i' := if i < p then i else i + 1;
      var j' := if j < p then j else j + 1;
      assert rest[i] == b[i'] && rest[j] == b[j'] && i' < j';
    }
    forall x ensures x in rest <==> x in b && x != b[p] {
      if x in b && x != b[p] {
        var q :| 0 <= q < |b| && b[q] == x;
        if q < p {
          assert rest[q] == x;
        } else {
          assert rest[q - 1] == x;
        }
      }
      if x in rest {
        var q :| 0 <= q < |rest| && rest[q] == x;
        var q' := if q < p then q else q + 1;
        assert b[q'] == x && q' != p;
      }
    }
  }

  ghost predicate SameKeys(a: seq<Bytes>, b: seq<Bytes>) {
    forall k :: k in a <==> k in b
  }

  /** Two orders listing the same keys, each once, store the same outputs. */
  lemma {:induction false} StoredPermutation(index: Index, a: seq<Bytes>, b: seq<Bytes>)
    requires forall k :: k in a ==> k in index
    requires SameKeys(a, b) && Distinct(a) && Distinct(b)
    ensures Stored(index, a) == Stored(index, b)
    decreases |a|
  {
    if |a| > 0 {
      var k := a[0];
      assert k in b;
      var p :| 0 <= p < |b| && b[p] == k;
      var rest := b[..p] + b[p + 1..];
      StoredRemoveAt(index, b, p);
      assert SameKeys(a[1..], rest) by {
        DistinctRemoveAt(b, p);
        DistinctRemoveAt(a, 0);
        assert a[..0] + a[1..] == a[1..];
        forall x ensures x in a[1..] <==> x in rest {
          assert x in a[1..] <==> x in a && x != k;
          assert x in rest <==> x in b && x != k;
          assert x in a <==> x in b;
        }
      }
      assert Distinct(a[1..]) && Distinct(rest) by {
        DistinctRemoveAt(b, p);
        DistinctRemoveAt(a, 0);
        assert a[..0] + a[1..] == a[1..];
      }
      assert forall x :: x in rest ==> x in index by {
        DistinctRemoveAt(b, p);
      }
      StoredPermutation(index, a[1..], rest);
      assert Stored(index, a) == multiset(index[k]) + Stored(index, a[1..]);
    }
  }

  /** `findUTXOs` returns exactly the stored outputs, across all entries,
      locked to the key, each as often as the bucket stores it. */
  lemma FindUTXOsSpec(index: Index, order: seq<Bytes>, pubKeyHash: Bytes)
    requires IsEnumeration(order, index.Keys)
    ensures forall o :: o in FindUTXOs(index, order, pubKeyHash) <==>
      exists k :: k in index && o in index[k] && IsLockedWithKey(o, pubKeyHash)
    ensures forall o :: multiset(FindUTXOs(index, order, pubKeyHash))[o]
                        == if IsLockedWithKey(o, pubKeyHash) then Stored(index, order)[o] else 0
  {
    LockedOverMembers(index, order, pubKeyHash);
  }

  /** The balance `findUTXOs` yields does not depend on the map's iteration
      order: any two orders give the same outputs with the same
      multiplicities. */
  lemma FindUTXOsIgnoresOrder(index: Index, a: seq<Bytes>, b: seq<Bytes>, pubKeyHash: Bytes)
    requires IsEnumeration(a, index.Keys) && IsEnumeration(b, index.Keys)
    ensures multiset(FindUTXOs(index, a, pubKeyHash)) == multiset(FindUTXOs(index, b, pubKeyHash))
  {
    FindUTXOsSpec(index, a, pubKeyHash);
    FindUTXOsSpec(index, b, pubKeyHash);
    assert Distinct(a) && Distinct(b) && SameKeys(a, b);
    StoredPermutation(index, a, b);
  }

  // ---------------------------------------------------------------------
  // update

  /** The stored outputs at positions `i..` other than `pos`, in order. */
  function KeepOthers(outs: seq<TxOutput>, pos: int, i: nat): seq<TxOutput>
    requires i <= |outs|
    decreases |outs| - i
  {
    if i == |outs| then []
    else (if i != pos then [outs[i]] else []) + KeepOthers(outs, pos, i + 1)
  }

  /** The copy loop of `update`: the stored array without the element at
      position `pos`. */
  function RemovePosition(outs: seq<TxOutput>, pos: int): seq<TxOutput> {
    KeepOthers(outs, pos, 0)
  }

  lemma {:induction false} KeepOthersSpec(outs: seq<TxOutput>, pos: int, i: nat)
    requires i <= |outs|
    ensures i <= pos < |outs| ==> KeepOthers(outs, pos, i) == outs[i..pos] + outs[pos + 1..]
    ensures !(i <= pos < |outs|) ==> KeepOthers(outs, pos, i) == outs[i..]
    decreases |outs| - i
  {
    if i < |outs| {
      KeepOthersSpec(outs, pos, i + 1);
      assert outs[i..] == [outs[i]] + outs[i + 1..];
      if i < pos < |outs| {
        assert outs[i..pos] == [outs[i]] + outs[i + 1..pos];
      }
    }
  }

  /** Removal is by position in the stored array: it drops the element at
      position `pos` when there is one, and otherwise drops nothing. */
  lemma RemovePositionSpec(outs: seq<TxOutput>, pos: int)
    ensures 0 <= pos < |outs| ==> RemovePosition(outs, pos) == outs[..pos] + outs[pos + 1..]
    ensures !(0 <= pos < |outs|) ==> RemovePosition(outs, pos) == outs
  {
    KeepOthersSpec(outs, pos, 0);
  }

  /** One input of `update`: skipped when its id has no entry; otherwise the
      entry loses position `outputIndex` and is deleted when nothing is left. */
  function SpendInput(index: Index, input: TxInput): Index {
    var id := input.txId;
    if id !in index then index
    else
      var rest := RemovePosition(index[id], input.outputIndex);
      if |rest| == 0 then index - {id} else index[id := rest]
  }

  function SpendInputs(index: Index, inputs: seq<TxInput>): Index
    decreases |inputs|
  {
    if |inputs| == 0 then index else SpendInputs(SpendInput(index, inputs[0]), inputs[1..])
  }

  /** One transaction of `update`: the inputs of a non-coinbase transaction
      are spent, then its full output array is put under its own id. */
  function ApplyTx(index: Index, tx: Transaction): Index {
    var spent := if IsCoinbase(tx) then index else SpendInputs(index, tx.inputs);
    spent[tx.id := tx.outputs]
  }

  function ApplyTxs(index: Index, txs: seq<Transaction>): Index
    decreases |txs|
  {
    if |txs| == 0 then index else ApplyTxs(ApplyTx(index, txs[0]), txs[1..])
  }

  const UPDATE_FAILED: string := "Fail to update UTXO set ! "

  /** `update`: throws on a missing block, otherwise applies its
      transactions in order. */
  function Update(index: Index, block: Option<Block>): (r: Result<Index>)
    ensures r.Err? <==> block.None?
    ensures r.Err? ==> r.msg == UPDATE_FAILED
  {
    match block
    case None => Err(UPDATE_FAILED)
    case Some(b) => Ok(ApplyTxs(index, b.transactions))
  }

  /** One input touches only its own id: nothing when that id has no entry;
      otherwise the entry keeps every position except `outputIndex`, and is
      deleted when that leaves nothing. */
  lemma SpendInputSpec(index: Index, input: TxInput)
    ensures var r := SpendInput(index, input);
      && (forall k :: k != input.txId ==> (k in r <==> k in index) && (k in r ==> r[k] == index[k]))
      && (input.txId !in index ==> r == index)
      && (input.txId in index ==>
            var outs := index[input.txId];
            var pos := input.outputIndex;
            && (input.txId in r <==> |outs| > 1 || (|outs| == 1 && pos != 0))
            && (input.txId in r && 0 <= pos < |outs| ==> r[input.txId] == outs[..pos] + outs[pos + 1..])
            && (input.txId in r && !(0 <= pos < |outs|) ==> r[input.txId] == outs))
  {
    if input.txId in index {
      RemovePositionSpec(index[input.txId], input.outputIndex);
    }
  }

  /** The id a transaction writes or, through an input, may rewrite. */
  predicate Touches(tx: Transaction, k: Bytes) {
    tx.id == k || (!IsCoinbase(tx) && exists i :: 0 <= i < |tx.inputs| && tx.inputs[i].txId == k)
  }

  lemma {:induction false} SpendInputsFrame(index: Index, inputs: seq<TxInput>, k: Bytes)
    requires forall i :: 0 <= i < |inputs| ==> inputs[i].txId != k
    ensures var r := SpendInputs(index, inputs);
      (k in r <==> k in index) && (k in r ==> r[k] == index[k])
    decreases |inputs|
  {
    if |inputs| > 0 {
      SpendInputSpec(index, inputs[0]);
      SpendInputsFrame(SpendInput(index, inputs[0]), inputs[1..], k);
    }
  }

  lemma {:induction false} ApplyTxsFrame(index: Index, txs: seq<Transaction>, k: Bytes)
    requires forall j :: 0 <= j < |txs| ==> !Touches(txs[j], k)
    ensures var r := ApplyTxs(index, txs);
      (k in r <==> k in index) && (k in r ==> r[k] == index[k])
    decreases |txs|
  {
    if |txs| > 0 {
      if !IsCoinbase(txs[0]) {
        SpendInputsFrame(index, txs[0].inputs, k);
      }
      ApplyTxsFrame(ApplyTx(index, txs[0]), txs[1..], k);
    }
  }

  lemma {:induction false} ApplyTxsWritesOutputs(index: Index, txs: seq<Transaction>, i: nat)
    requires i < |txs|
    requires forall j :: i < j < |txs| ==> !Touches(txs[j], txs[i].id)
    ensures txs[i].id in ApplyTxs(index, txs) && ApplyTxs(index, txs)[txs[i].id] == txs[i].outputs
    decreases |txs|
  {
    if i == 0 {
      ApplyTxsFrame(ApplyTx(index, txs[0]), txs[1..], txs[0].id);
    } else {
      ApplyTxsWritesOutputs(ApplyTx(index, txs[0]), txs[1..], i - 1);
    }
  }

  /** Ids the block does not touch keep their entry, or their absence. */
  lemma UpdateKeepsUntouched(index: Index, block: Block, k: Bytes)
    requires forall j :: 0 <= j < |block.transactions| ==> !Touches(block.transactions[j], k)
    ensures var r := Update(index, Some(block)).value;
      (k in r <==> k in index) && (k in r ==> r[k] == index[k])
  {
    ApplyTxsFrame(index, block.transactions, k);
  }

  /** A transaction of the block that no later transaction touches ends up
      stored with its full output array; in particular the block's last
      transaction always does. */
  lemma UpdateStoresOutputs(index: Index, block: Block, i: nat)
    requires i < |block.transactions|
    requires forall j :: i < j < |block.transactions| ==> !Touches(block.transactions[j], block.transactions[i].id)
    ensures var r := Update(index, Some(block)).value;
      block.transactions[i].id in r && r[block.transactions[i].id] == block.transactions[i].outputs
  {
    ApplyTxsWritesOutputs(index, block.transactions, i);
  }

  /** The inputs of a coinbase transaction are ignored: applying it only
      puts its outputs under its id. */
  lemma CoinbaseOnlyAddsOutputs(index: Index, tx: Transaction)
    requires IsCoinbase(tx)
    ensures ApplyTx(index, tx) == index[tx.id := tx.outputs]
  {
  }

  /** Removal by position in the already-compacted array: once output 0 of
      `[x, a, b]` has been spent the entry is `[a, b]`, and an input naming
      output 1 (`a`) then removes `b`, while one naming output 2 (`b`)
      removes nothing. */
  lemma UpdateRemovesByStoredPosition()
    ensures var x := TxOutput(1, [1]);
      var a := TxOutput(2, [2]);
      var b := TxOutput(3, [3]);
      var id: Bytes := [9];
      var index := map[id := [x, a, b]];
      var afterFirst := SpendInput(index, TxInput(id, 0, None, None));
      && afterFirst == map[id := [a, b]]
      && SpendInput(afterFirst, TxInput(id, 1, None, None)) == map[id := [a]]
      && SpendInput(afterFirst, TxInput(id, 2, None, None)) == map[id := [a, b]]
  {
    var x := TxOutput(1, [1]);
    var a := TxOutput(2, [2]);
    var b := TxOutput(3, [3]);
    RemovePositionSpec([x, a, b], 0);
    RemovePositionSpec([a, b], 1);
    RemovePositionSpec([a, b], 2);
    assert [x, a, b][..0] + [x, a, b][1..] == [a, b];
    assert [a, b][..1] + [a, b][2..] == [a];
  }
}
